=== FILE: README.md ===
# Aurora radio bot and web player, modelled in Dafny

The bot runs a personal "radio station" per Telegram chat. It searches YouTube Music for a genre, queues tracks it has not played yet, sends them one by one, and gives up after five failures in a row. A TTL cache sits in front of the search and of Telegram file ids. Inline keyboards let a user walk the genre catalog, pick a search result and page through results. A FastAPI dependency checks the signed `initData` of the Telegram Mini App. The Mini App itself is a web player with a reactive store, a transport (play, pause, next, previous, bass boost), a genre menu and drawers, a playlist view and a shuffle button.

The model is pure functions over immutable datatypes, one Dafny module per source file:

| module | file | models |
|---|---|---|
| `Wrappers`, `Text`, `Ordering` | shared | Option/Result; Python's `split`, `strip`, `int()`, `str()`, `encode()`; the ordering `sorted` uses on string lists |
| `Models` | models.py | `TrackInfo.from_yt_info` |
| `Cache` | cache_service.py | the SQLite TTL cache as a map with an integer clock |
| `Downloader` | youtube.py | cache keys, search mapping, download outcome tree |
| `Catalog` | radio.py, keyboards.py | the nested genre dict as a tree; flattening and path walks |
| `Radio` | radio.py | caption text, session start/stop/skip, one pass of `_radio_loop` as a step function |
| `RadioManager` | radio.py | the chat-id registry and `_get_random_query` |
| `Keyboards` | keyboards.py | the four keyboard builders |
| `Config` | config.py | the `ADMIN_IDS` parser |
| `Auth` | auth.py | `validate_init_data` and `get_validated_user` |
| `Store` | webapp/js/store.js | the Proxy store and its listeners |
| `Player` | webapp/js/player.js | the transport |
| `Ui` | webapp/js/ui.js | random query, menu stack, drawers, playlist rows, `formatTime` |
| `WebMain` | webapp/js/main.js | log type, `loadGenreHandler`, the Fisher–Yates shuffle |

The outside world becomes parameters:

- Search replies, download and play outcomes, and skip arrivals become an `Env` record per loop pass.
- The clock becomes `now: int`.
- `random.shuffle`, `random.choice`, set iteration order and `Math.random` become picks or permutations that a predicate constrains.
- HMAC-SHA-256 becomes a function parameter.
- pydantic's `InitData(**fields)` becomes a `Builder` parameter.
- `unquote` becomes a parameter.
- The browser's answer to `audio.play()` becomes `allowed: bool`.

Three points of `_radio_loop` (radio.py:104-144) shape the model:

- Above 200 played ids, the history trim (radio.py:121) keeps `list(played_ids)[100:]`. It drops 100 ids in set iteration order, which need not be the oldest ones.
- The play window is a fixed 90 seconds (radio.py:129).
- A play window that ends by timeout, rather than by skip, raises out of `wait_for`. The handler at radio.py:131-132 catches it like a failed play, so the error streak goes up by one even though the track was sent.

## Model

| member | source | states |
|---|---|---|
| Radio.FormatDuration | radio.py:18-20 | the text ends in ":" and two digits spelling `seconds mod 60` |
| Radio.FormatDurationRoundTrip | radio.py:18-20 | reading "m:ss" back gives the duration: the minutes are `seconds div 60` and the seconds are zero-padded `seconds mod 60` |
| Radio.Pad2Digits | radio.py:20 | `{secs:02d}` of a number below 100 is two digits, tens then units, and parses back to the number |
| Radio.Take | radio.py:24-25 | Python slicing `s[:n]` is the prefix of length `min(n, len(s))` |
| Radio.ShownTitle | radio.py:24 | the caption title is `title[:40].strip()`: the first 40 characters with the whitespace at both ends removed, and nothing else |
| Radio.ShownArtist | radio.py:25 | the caption artist is `artist[:30].strip()`, characterised the same way |
| Radio.ShortTitleShownWhole | radio.py:24 | a title of at most 40 characters with no surrounding whitespace appears unchanged |
| Radio.LongTitleCut | radio.py:24 | a title longer than 40 characters never appears whole; when its 1st and 40th characters are not whitespace, exactly its first 40 appear |
| Radio.EraInfo | radio.py:26 | the era suffix is present exactly when a decade is set and contains "s", and is then " (" + decade + ")" |
| Radio.NowPlaying | radio.py:22-27 | the caption starts with the drawn icon and the bold truncated title, followed by a line break |
| Radio.NowPlayingLines | radio.py:22-27 | with single-line title, artist, genre and decade, the caption splits at line breaks into exactly the title line, the "👤 artist" line and the "⏱ duration \| 📻 genre" line |
| Radio.NowPlayingDuration | radio.py:27 | the third caption line read back up to its first " \| " gives the track's duration |
| Radio.DurationLineReadsBack | radio.py:27 | "⏱ m:ss \| …" cut at the first " \| " and parsed as m:ss gives the seconds it was written from |
| Radio.NewSession | radio.py:29-46 | a new session is not running and has an empty queue, an empty history, no skip flag and zero counters |
| Radio.Start | radio.py:48-52 | `start` on a running session changes nothing; otherwise it sets running and starts a loop with a zero streak |
| Radio.Stop | radio.py:54-59 | after `stop` the session is not running, and nothing else changes |
| Radio.Skip | radio.py:61-62 | `skip` sets the skip flag, and nothing else changes |
| Radio.StopIdempotent | radio.py:54-55 | stopping twice is stopping once |
| Radio.StartIdempotent | radio.py:48-49 | starting twice is starting once |
| Radio.StopUndoesStart | radio.py:48-59 | stop after start restores the session, except for the reset streak |
| Radio.Fresh | radio.py:84 | the new tracks are exactly the search tracks whose id is not in the history, each with its multiplicity |
| Radio.Refilled | radio.py:79-92 | the queue keeps its old entries as a prefix; a search exception adds nothing; otherwise it appends a permutation of the fresh tracks, each unplayed |
| Radio.Trim | radio.py:121 | the trimmed history is a subset of the history; at most 200 ids are kept whole; above 200, exactly 100 ids are dropped |
| Radio.Iterate | radio.py:104-144 | one pass: a stopped session does nothing; an empty queue after the emergency fill stops with a notice; otherwise the head track is popped and played, and its id is added to the history, which is then trimmed |
| Radio.PlayHead | radio.py:119-139 | the head is popped and its id added to the trimmed history; its play follows the searches; the skip flag is cleared; a delivery counts a track and sets the streak to 0 or 1, a failure adds one to the streak and stops the station at 5 |
| Radio.RefillIffShort | radio.py:108-109 | the primary search is issued exactly when fewer than 5 tracks are queued |
| Radio.EmergencyIffEmpty | radio.py:111-113 | the emergency search is issued exactly when the queue is still empty after the refill step |
| Radio.EmergencyNotFiltered | radio.py:94-101 | emergency tracks are queued as returned, even ones already played |
| Radio.RefilledTrackIsNew | radio.py:84-87 | a track from the primary refill is from the search and has not been played |
| Radio.KeepsRunningUnlessGivingUp | radio.py:104-144 | after a pass the station runs unless the emergency fill came back empty or the fifth error in a row hit |
| Radio.PlayedIdRecorded | radio.py:119-121 | the popped id is in the history after the pass unless that pass overflows 200 ids and the trim drops it; with room the history gains exactly that id; no other id is lost except by the trim |
| Radio.StreakRule | radio.py:123-137 | the streak resets only on a delivered track whose window a skip ended; a timeout or a failure adds one; `tracks_played` counts deliveries |
| Radio.FifthErrorStops | radio.py:131-136 | the fifth failure in a row stops the station, and the last effect is the "too many errors" notice |
| Radio.OneFailingPass | radio.py:123-136 | a failed play adds one to the streak and makes one play attempt; at 5 the station stops with the notice |
| Radio.FailingRunStops | radio.py:131-136 | a run of failing passes ends with the station stopped at a streak of 5 |
| Radio.FailingRunPlays | radio.py:123-136 | a run of failing passes from streak k makes exactly `5 - k` play attempts |
| Radio.FailingRunEndsWithNotice | radio.py:131-136 | the last thing a run of failing passes does is send the "too many errors" notice |
| Radio.IterateKeepsInv | radio.py:119-137 | a pass keeps the history within 200 ids and the streak below 5 while running |
| Radio.NewSessionInv | radio.py:29-50 | a freshly started session satisfies the invariant |
| Radio.RunKeepsInv | radio.py:104-144 | any number of passes keeps the invariant |
| Radio.StoppedStaysStopped | radio.py:106 | a stopped station does nothing however long it is driven |
| Radio.FailuresStopAfterFive | radio.py:131-136 | a run of failing passes stops the station after exactly `5 - streak` play attempts, ending with the "too many errors" notice |
| RadioManager.RandomQuery | radio.py:227-250 | the pick is `(query, None, name)` for a leaf of the catalog, or ("80s synth pop", None, "Synth-Pop") for a catalog with no leaf |
| RadioManager.RandomQueryIsLeaf | radio.py:232-246 | the random station is a leaf of the catalog tree at some depth |
| RadioManager.EveryLeafCanBeDrawn | radio.py:232-244 | every leaf of the tree can be drawn |
| RadioManager.Resolve | radio.py:204-205 | only the query "random" is replaced by a drawn station |
| RadioManager.DisplayName | radio.py:209 | `display_name or query` |
| RadioManager.StartStation | radio.py:199-212 | the chat gets a running session with an empty queue and history and zero counters, playing the requested query, decade and `display_name or query`, or the drawn station for "random"; an old one is stopped and reported; other chats are untouched; one session per chat is kept |
| RadioManager.RandomStartPlaysLeaf | radio.py:203-209 | a "random" start plays a catalog leaf with no decade, shown under that leaf's name, or the fallback station when the catalog has no leaf |
| RadioManager.StopStation | radio.py:214-217 | the chat's entry is removed and its session stopped, if there was one |
| RadioManager.SkipStation | radio.py:219-221 | skip flags only the chat's session; an absent chat changes nothing |
| RadioManager.StopEach | radio.py:223-225 | stopping each listed chat removes exactly those chats |
| RadioManager.StopAllEmpties | radio.py:223-225 | `stop_all` leaves the registry empty |
| RadioManager.StopCommutes | radio.py:214-217 | stopping two chats in either order gives the same registry |
| RadioManager.StartThenStop | radio.py:199-217 | start then stop of a chat leaves every other chat as it was |
| RadioManager.SkipOnlyFlags | radio.py:219-221 | skip changes nothing of the session but its skip flag |
| Catalog.FlattenFromIsLeaves | radio.py:232-237 | the recursive flattening of a category's children lists exactly the leaves below them |
| Catalog.FlattenFromSound | radio.py:232-237 | every pair the flattening lists is a leaf of the tree, with the path to it |
| Catalog.FlattenFromComplete | radio.py:232-237 | every leaf below the children is listed by the flattening |
| Catalog.FlattenIsLeaves | radio.py:230-239 | `all_queries` holds exactly the `(name, query)` leaves of the tree |
| Catalog.Lookup | keyboards.py:21 | `level[key]` finds the node stored under the key, or raises KeyError when no item has that key |
| Catalog.WalkPath | keyboards.py:18-21 | the walk of an empty path stays at the level |
| Catalog.WalkAppend | keyboards.py:20-21 | walking `p + q` is walking `p`, then walking `q` from the category reached |
| Catalog.WalkOne | keyboards.py:20-21 | a one-name walk reaches the child stored under that name |
| Cache.ExpiryFor | cache_service.py:74-78 | no expiry for a missing or non-positive ttl; otherwise an expiry later than now |
| Cache.Get | cache_service.py:37-59 | closed gives None; a value is served iff the entry exists and never expires or expires strictly later; an expired entry is deleted |
| Cache.Set | cache_service.py:61-88 | refused when closed; otherwise inserts or replaces the key with the ttl's expiry and keeps other keys |
| Cache.Delete | cache_service.py:90-102 | refused when closed; otherwise removes only the key |
| Cache.Clear | cache_service.py:104-116 | refused when closed; otherwise removes every entry |
| Cache.DeleteExpired | cache_service.py:118-131 | keeps exactly the entries with no expiry or an expiry later than now |
| Cache.Initialize | cache_service.py:17-29 | opens the store and purges what has expired |
| Cache.Close | cache_service.py:31-35 | closes the store; the rows stay |
| Cache.ExpiredIsNotLive | cache_service.py:118-128 | the purge's filter is the complement of the test `get` serves by (line 50) |
| Cache.PurgeAgreesWithGet | cache_service.py:118-128 | the purge keeps a key exactly when `get` would serve it |
| Cache.ClosedRefusesEverything | cache_service.py:39-121 | before `initialize`, get misses and every write returns False |
| Cache.SetThenGet | cache_service.py:43-85 | set then get before expiry returns the value |
| Cache.SetThenGetAfterExpiry | cache_service.py:50-76 | set then get at or after expiry misses, and the entry is gone afterwards |
| Cache.SetKeepsOtherKeys | cache_service.py:80-83 | set leaves every other key's answer unchanged |
| Cache.DeleteThenGet | cache_service.py:97 | after delete, get misses for that key and answers as before for others |
| Cache.ClearThenGet | cache_service.py:111 | after clear, every get misses |
| Cache.PurgeKeepsForeverEntries | cache_service.py:126 | entries that never expire survive the purge |
| Cache.PurgeIdempotent | cache_service.py:118-131 | purging twice at the same instant is purging once |
| Models.Segment | models.py:31-33 | the id cut from a URL holds no stop character |
| Models.FirstTruthy | models.py:39-45 | the `or` chain picks the first truthy candidate, and only after all earlier ones are falsy |
| Models.ArtistOf | models.py:39-45 | the artist is the first truthy of artist, creator, uploader and channel, else "Unknown" |
| Models.FromYtInfo | models.py:23-64 | no info gives None; a result exists iff an id is resolved; its identifier is that id, its source YouTube, its duration 0 when missing; with a placeholder artist and a " - " in the title, artist and title are the stripped text before and after the first " - ", otherwise they are kept as found |
| Models.WatchUrlGivesId | models.py:28-31 | without an `id`, a `watch?v=` URL gives the text after the marker up to the first "&" |
| Models.ShortUrlGivesId | models.py:28-33 | without an `id` or a `watch?v=` marker, a `youtu.be/` URL gives the text after it up to the first "?" |
| Models.ArtistTitleSplit | models.py:39-53 | with the artist "Unknown" or "Various Artists", "A - B" splits into artist strip(A) and title strip(B) |
| Models.VariousArtistsSplit | models.py:50-53 | a compilation credited to "Various Artists" takes its artist from the title |
| Models.MissingTitleIsUnknown | models.py:38-50 | a missing title becomes "Unknown", which holds no " - ", so the artist is kept |
| Models.FirstSeparatorAfter | models.py:52 | `split(" - ", 1)` cuts at the first " - " |
| Models.KnownArtistKeepsTitle | models.py:39-50 | a real artist keeps the title whole, even when it reads "A - B" |
| Models.MarkersBorderless | models.py:31-33 | the URL markers cannot overlap themselves, so the last occurrence is well defined |
| Downloader.KeysDisjoint | youtube.py:54-82 | search keys and file-id keys never collide |
| Downloader.SearchKeyInjective | youtube.py:54 | with colon-free modes, two searches share a cache entry iff query and mode agree, whatever decade and limit are; the query may hold colons |
| Downloader.ColonInModeCollides | youtube.py:54 | a mode with a colon lets different searches share a key |
| Downloader.ProviderQuery | youtube.py:58 | the query plus " song", except in track mode |
| Downloader.EntryTrack | youtube.py:68-74 | the track of an entry: id, title or "", artists joined by ", ", duration or 0, last thumbnail or None |
| Downloader.EntryTracks | youtube.py:65-74 | every result comes from an entry with a video id |
| Downloader.EntryTracksAppend | youtube.py:66-74 | the mapping keeps entry order and looks at each entry once |
| Downloader.EntryTracksSingle | youtube.py:67 | an entry without a video id is dropped; one with a video id gives exactly its track |
| Downloader.EntryTracksAllKept | youtube.py:66-74 | when every entry has a video id, nothing is lost and order is kept |
| Downloader.Search | youtube.py:52-77 | a cached non-empty list calls no provider; a provider exception gives [] and caches nothing; otherwise the mapped entries are returned and cached for 3600 s |
| Downloader.SearchServedFromCache | youtube.py:54-76 | a second search within the hour is served from the cache without a provider call |
| Downloader.Download | youtube.py:79-104 | info failure gives "Info failed"; a cached file id gives success without download; a download error carries its message; otherwise success with the mp3 path iff it exists, else "File missing" |
| Downloader.CacheFileId | youtube.py:106-107 | the file id is stored under "file_id:" + id with no expiry |
| Downloader.CachedFileIdIsReused | youtube.py:82-107 | on the store `cache_file_id` leaves, a later download never fetches: it reuses the file id once the info extraction succeeds, and fails with "Info failed" when it raises |
| Keyboards.MainMenu | keyboards.py:4-13 | one row per top-level category in order with "cat\|" + name, then the random-mix row |
| Keyboards.MainMenuLeadsToCategory | keyboards.py:10-21 | a main-menu button's path walks to that category's children |
| Keyboards.ChildButton | keyboards.py:28-38 | a folder gets "cat\|path\|name", a leaf "play_cat\|path\|name" |
| Keyboards.ChildRows | keyboards.py:26-38 | at most one row per child of the level |
| Keyboards.ChildRowsAppend | keyboards.py:26-38 | the rows of two runs of children are the rows of the first followed by those of the second: rows follow the children's order |
| Keyboards.ChildRowsOne | keyboards.py:26-38 | one child gives its own button row when its callback data fits in 64 UTF-8 bytes, and no row otherwise |
| Keyboards.ChildRowsFromLevel | keyboards.py:26-38 | every row is a single button for some child of the level, with data Telegram accepts |
| Keyboards.ChildRowsKeepFitting | keyboards.py:26-38 | every child whose callback fits in 64 UTF-8 bytes has its row |
| Keyboards.ChildRowsIffFits | keyboards.py:26-38 | a child's row is there if and only if its callback fits in 64 UTF-8 bytes |
| Keyboards.SubcategoryMenu | keyboards.py:15-43 | a missing name gives the single error button; a path through or onto a leaf raises; otherwise the children's rows and then the back row |
| Keyboards.FolderButtonLeadsDown | keyboards.py:32 | a folder button's callback carries the menu's path plus the folder's name |
| Keyboards.SplitAppendPlain | keyboards.py:28 | appending "\|name" to a path appends one segment |
| Keyboards.TrackSearchKeyboard | keyboards.py:46-59 | one row per track, numbered from 1, labelled with artist (when not empty), title and m:ss, selecting "sel_track\|id" |
| Keyboards.TrackRowAt | keyboards.py:51-58 | the loop's row i shows track i under the number `first + i` and selects it by id |
| Keyboards.TrackRowSelectsTrack | keyboards.py:56-58 | row i's callback splits into "sel_track" and track i's id, and its label starts with "i+1. " |
| Keyboards.TrackTextShowsArtist | keyboards.py:56 | with a non-empty artist, the label after "i. " splits at its first " - " into the artist and the title with its duration |
| Keyboards.TrackTextOmitsArtist | keyboards.py:56 | with an empty artist, the label after "i. " is the title and the duration, with no " - " to read an artist from |
| Keyboards.NoSeparatorBeforeDuration | keyboards.py:56 | appending " (m:ss)" to a title creates no " - " |
| Keyboards.PaginationKeyboard | keyboards.py:61-71 | a prev button iff current > 1, a next button iff current < total, the "current/total" noop button always |
| Keyboards.PageDataRoundTrip | keyboards.py:67-70 | a page callback splits back into "page", the page number and the base value |
| Config.Pieces | config.py:230 | each kept piece is a non-empty stripped part; no more pieces than parts |
| Config.PiecesAppend | config.py:230 | one more part appends its stripped text unless that is empty: the pieces keep the order of the parts |
| Config.PiecesKeep | config.py:230 | every part with text left after stripping is kept |
| Config.BlankPiecesDropped | config.py:230 | text like " 1, ,2 " gives [1, 2]: blank pieces and surrounding spaces are dropped |
| Config.ParseAll | config.py:230-233 | all pieces parse, in order, or the result is None |
| Config.ParseAllShown | config.py:230-233 | the decimal renderings of some ids all parse, back to those ids |
| Config.AdminIds | config.py:227-233 | "" gives []; all integers give their values; one non-integer piece gives [] |
| Config.AdminIdsRoundTrip | config.py:230 | ids written comma-separated read back as the same ids |
| Config.OneBadPieceEmptiesAll | config.py:231-233 | one bad piece empties the whole list |
| Auth.Pairs | auth.py:41-44 | one split pair per "&" chunk, each with a first part |
| Auth.HashIndex | auth.py:48-52 | the first pair whose key is "hash", or none when there is none |
| Auth.Remove | auth.py:51 | `pop(i)` removes exactly that pair and keeps the others in order and sorted |
| Auth.Lines | auth.py:58 | one "k=v" line per remaining pair |
| Auth.Hex | auth.py:62 | `hexdigest` gives two hex digits per byte |
| Auth.UnhexHex | auth.py:62 | a hex digest reads back as the bytes it encodes |
| Auth.ToDict | auth.py:69 | the last pair's key holds the last pair's value |
| Auth.ToDictKeys | auth.py:69 | the dict's keys are exactly the keys of the pairs |
| Auth.ToDictLast | auth.py:69 | a key's value is the value of the last pair with that key |
| Auth.ValidatePairs | auth.py:39-81 | accepted exactly when every chunk is a `k=v` pair, the first sorted "hash" value is non-empty and equals the HMAC of the other pairs' data-check string, and the model builds; the model is what the dict builds |
| Auth.ValidateInitData | auth.py:33-81 | on the decoded text: accepted exactly when the pairs are well formed, signed and build; 500 exactly when a chunk is the bare word "hash"; otherwise 401 |
| Auth.SignedIffHashMatches | auth.py:41-70 | with one hash pair among well-formed others, the data is signed exactly when the hash is the HMAC of the others, sorted |
| Auth.MissingHashRejected | auth.py:54-76 | no "hash" key gives 401 |
| Auth.ServerErrorIffBareHash | auth.py:48-81 | 500 exactly when a chunk is the bare word "hash" (the IndexError of `pair[1]`) |
| Auth.FirstHashIsBare | auth.py:41-50 | in sorted order, the first "hash" pair is the bare one exactly when there is one |
| Auth.SignedPairsVerdict | auth.py:41-70 | one hash pair and well-formed others are accepted iff HMAC(HMAC("WebAppData", token), sorted "k=v" lines) equals the hash and the model builds |
| Auth.SignedHashFound | auth.py:41-52 | with one hash pair, the pop leaves exactly the other pairs, sorted |
| Auth.OrderIrrelevant | auth.py:41-69 | reordering pairs with distinct keys does not change the verdict |
| Auth.SameDict | auth.py:69 | pairs with distinct keys give the same dict in any order |
| Auth.AcceptedHashIsHexDigest | auth.py:61-66 | with SHA-256, an accepted hash is 64 lower-case hex digits |
| Auth.SchemeStripped | auth.py:101-107 | after the "Tma " check, the init data is the text after the first space |
| Auth.GetValidatedUser | auth.py:83-125 | a missing or empty header or another scheme gives 401; otherwise validation's error, 401 without a user, or the user |
| Auth.UserOnlyFromSignedData | auth.py:95-116 | a user comes back only from a "Tma " header whose pairs are signed under the bot token and build a model with that user |
| Ordering.Sort | auth.py:41-44 | `sorted` returns a sorted permutation |
| Ordering.SortIgnoresOrder | auth.py:41-44 | sorting two arrangements of the same pairs gives the same list |
| Ordering.SortedUnique | auth.py:41-44 | the list ordering is total, so a multiset has one sorted arrangement |
| Ordering.ListLeTotal | auth.py:41-44 | Python's list comparison of split pairs is total |
| Ordering.ListLeTransitive | auth.py:41-44 | Python's list comparison of split pairs is transitive |
| Text.Split | config.py:230 | `str.split(sep)` pieces join back to the text, hold no separator, and are several iff the separator occurs |
| Text.SplitJoin | config.py:230 | splitting the join of separator-free pieces gives them back |
| Text.Partition | auth.py:107 | `split(sep, 1)` cuts at the first separator: before the cut is `sep`, and no occurrence starts earlier |
| Text.Strip | config.py:230 | `strip()` is a slice with no surrounding whitespace, and removes only whitespace |
| Text.ParseInt | config.py:230 | `int()` rejects text that is blank after stripping |
| Text.ParseIntSyntax | config.py:230 | `int()` rejects any character other than digits, "_" and a leading sign; a negative value has a leading "-"; plain digits always parse to a non-negative value |
| Text.StripUnique | radio.py:24-25 | any slice with whitespace-only margins and non-whitespace ends is the result of `strip()` |
| Text.ParseShowInt | config.py:230 | `int(str(i)) == i` |
| Text.ParseTwoDigits | radio.py:20 | two digits parse as the number they spell |
| Text.Utf8EncodeLength | keyboards.py:33-37 | `len(cb.encode())` is the sum of per-character UTF-8 lengths |
| Store.Initial | webapp/js/store.js:5-12 | isPlaying false, currentTrackIndex -1, an empty playlist, currentGenre "Aurora", no listeners |
| Store.Subscribe | webapp/js/store.js:14-19 | the callback goes last in the property's list; nothing else changes |
| Store.Notify | webapp/js/store.js:21-25 | each listener of the property is called once, in order, with the value |
| Store.Set | webapp/js/store.js:27-35 | always true; the property then holds the value and others are unchanged; listeners are called in order iff the value differs |
| Store.SetTwiceIsSilent | webapp/js/store.js:29 | setting the same value again is silent and changes nothing |
| Store.SetThenRestore | webapp/js/store.js:28-32 | putting the old value back restores every property, and the listeners hear both changes |
| Store.SubscribeAllAppends | webapp/js/store.js:14-19 | subscribers are kept in subscription order |
| Store.ChangeCallsSubscribersInOrder | webapp/js/store.js:14-33 | a change calls exactly the property's subscribers, in order; other properties' subscribers are not called |
| Player.AudioSrc | webapp/js/player.js:114 | the source is "/audio/" + identifier + ".mp3", with "undefined" for a missing identifier |
| Player.AudioSrcRoundTrip | webapp/js/player.js:114 | the identifier is recovered from the source |
| Player.SafePlay | webapp/js/player.js:57-67 | isPlaying ends as whether the browser allowed the play (the `play` event at line 28 sets it); nothing else changes |
| Player.Pause | webapp/js/player.js:33-38 | pause clears isPlaying |
| Player.PlayTrack | webapp/js/player.js:104-121 | an index out of range changes nothing; otherwise the index, the source and the play state are set and the rest is kept |
| Player.NextTrack | webapp/js/player.js:132-136 | an empty playlist changes nothing |
| Player.PrevTrack | webapp/js/player.js:138-142 | an empty playlist changes nothing |
| Player.TogglePlay | webapp/js/player.js:123-130 | playing pauses; paused with no track chosen plays the first; otherwise resumes |
| Player.ToggleBassBoost | webapp/js/player.js:149-154 | the flag flips, and its new value is returned |
| Player.BassBoostTwice | webapp/js/player.js:150 | two flips restore the deck |
| Player.ActionsKeepValid | webapp/js/player.js:104-154 | every action keeps the index at -1 or above and within the playlist |
| Player.NextIsSuccessorModulo | webapp/js/player.js:132-136 | next goes to (index + 1) mod length |
| Player.PrevIsPredecessorModulo | webapp/js/player.js:138-142 | prev goes to (index - 1) mod length, and from none to the last |
| Player.NextPrevInverse | webapp/js/player.js:132-142 | prev undoes next, and next undoes prev |
| Player.NextTimesModulo | webapp/js/player.js:132-136 | k presses of next move k tracks on, mod length |
| Player.FullCycleReturns | webapp/js/player.js:132-136 | length presses of next return to the same track |
| Ui.RandomQueryAsWritten | webapp/js/ui.js:34-41 | the walk as written, with None where it throws |
| Ui.EmptyFolderThrows | webapp/js/ui.js:36-38 | a folder with an empty `children` array throws instead of falling back |
| Ui.RandomQuery | webapp/js/ui.js:34-41 | the corrected walk returns a query drawable from the node: its own, one from a child's subtree, or "lofi hip hop" |
| Ui.EveryDrawableIsDrawn | webapp/js/ui.js:34-41 | every drawable query is returned by some picks |
| Ui.AsWrittenAgrees | webapp/js/ui.js:34-41 | where the code does not throw, it agrees with the corrected walk |
| Ui.Current | webapp/js/ui.js:48 | the top of the stack, or the root "Frequency" menu when the stack is empty |
| Ui.Back | webapp/js/ui.js:59-62 | back pops one frame, and nothing at the root |
| Ui.ClickItem | webapp/js/ui.js:95-106 | a folder pushes its frame; a leaf calls the load handler with its query, which may be undefined; the random row throws exactly when the walk as written does, and otherwise loads the corrected walk's drawable query |
| Ui.NoEmptyFolderNeverThrows | webapp/js/ui.js:34-41 | on a menu whose query-less folders are non-empty, the walk as written returns the corrected walk's query |
| Ui.RandomClickLoads | webapp/js/ui.js:102-105 | on such a menu the random row always loads |
| Ui.RandomClickThrowsOnEmptyFolder | webapp/js/ui.js:102-105 | a menu that is one empty folder makes the random row throw |
| Ui.BackUndoesOpen | webapp/js/ui.js:59-101 | opening a folder then going back shows the menu shown before |
| Ui.BackToRoot | webapp/js/ui.js:59-62 | as many backs as open folders return to the root |
| Ui.ToggleDrawer | webapp/js/ui.js:147-169 | hiding closes everything; showing genres or the playlist opens it and closes the other |
| Ui.ToggleKeepsValid | webapp/js/ui.js:147-169 | at most one drawer is open, and only over the overlay; hiding after any toggle closes all |
| Ui.RenderPlaylist | webapp/js/ui.js:113-124 | the empty state iff there are no tracks; otherwise one row per track, active iff at the current index |
| Ui.OneActiveRow | webapp/js/ui.js:121-124 | exactly one row is active when the index is in range, none otherwise |
| Ui.PadStart2 | webapp/js/ui.js:244 | `padStart(2, "0")` keeps two-character text and left-pads shorter text to two characters |
| Ui.FormatTime | webapp/js/ui.js:240-245 | NaN gives "0:00"; otherwise floor(s/60) ":" floor(s % 60) padded |
| Ui.WholeSeconds | webapp/js/ui.js:242-243 | for a non-negative time, the minutes and seconds are those of its whole seconds |
| Ui.ClockAgreesWithBot | webapp/js/ui.js:240-245 | the player's clock and the bot's `format_duration` show the same text for the same time |
| WebMain.LogType | webapp/js/main.js:31-36 | error→error, playing→success, loading→loading, anything else→info |
| WebMain.LoadGenre | webapp/js/main.js:67-80 | the drawers close; for a defined query the playlist is replaced and the first track plays iff the list is non-empty; an undefined query throws at `toUpperCase`, leaving the deck unchanged |
| WebMain.LeafClickLoads | webapp/js/main.js:67-72 | clicking a menu leaf and running its handler replaces the playlist when the leaf has a query, and only closes the drawer when it has none |
| WebMain.LoadKeepsValid | webapp/js/main.js:67-80 | loading a genre keeps the page valid |
| WebMain.Swap | webapp/js/main.js:89 | the destructuring swap exchanges two positions and keeps the rest |
| WebMain.SwapPermutes | webapp/js/main.js:89 | a swap is a permutation |
| WebMain.Shuffle | webapp/js/main.js:87-90 | the in-place loop gives a permutation, the Fisher–Yates result for the picks |
| WebMain.EveryOrderReachable | webapp/js/main.js:87-90 | every permutation of the playlist is the shuffle of some picks |
| WebMain.FromIgnoresLaterPicks | webapp/js/main.js:87-88 | the loop from position i down uses only the picks for positions up to i |
| WebMain.ShuffleButton | webapp/js/main.js:84-93 | fewer than 2 tracks change nothing; otherwise a permuted playlist, the index reset, and the first track played |

## Left out

- Concurrency and time: asyncio tasks, locks, the download semaphore and the `wait_for` timeouts. A timeout is an outcome of the pass; cancellation is the `Stop` transition.
- Telegram Bot API calls, status-message editing and deleting, file open and unlink, and the chat-type button markup of `_play_track`. These are I/O against a library the model cannot see; a play is one outcome of the pass.
- yt-dlp and YTMusic. These are foreign calls, and their replies become oracle parameters. A cached value of the wrong kind counts as a miss.
- Cache: database and pickle errors are not modelled. The code catches every exception in `get`, `set`, `delete`, `clear` and `_delete_expired` and answers `None` or `False` (cache_service.py:57-59, 86-88, 100-102, 114-116, 129-131). The model's operations always succeed on an open store, so a corrupt row, a failed commit or an unpicklable value is not covered.
- Store.Subscribe: the listener table is the plain object `{}` (store.js:12), so a property name that `Object.prototype` already has, such as "toString", finds an inherited function and `.push` throws (store.js:15-18). The model's listener map starts empty for every name, and the app only subscribes to its four state fields.
- HMAC-SHA-256 internals. Only the digest length is assumed, in `Auth.AcceptedHashIsHexDigest`.
- Percent-decoding (`unquote`) is a parameter. Because decoding happens before the split, an encoded "&" or "=" in a value changes the pairs. The model shows this through `Auth.ValidateInitData` but does not characterise it.
- pydantic validation of `InitData` is an oracle. A JSON-encoded `user` field in the flat dict is passed to it as a string.
- Randomness: `random.choice`, `random.shuffle`, set iteration order and `Math.random` are picks constrained to their ranges.
- Radio.Trim: which 100 ids are dropped is a parameter, because the code drops them in set order, which Python does not define.
- The Python `int()` model accepts ASCII digits, signs, surrounding whitespace and "_" separators. It does not accept other Unicode decimal digits.
- Durations are whole seconds. A float duration from the provider is not modelled.
- A missing key and a key holding `None` are one case in `YtInfo` and the search entries, and `GetOr` supplies the default for both. The code's TypeError paths are therefore not modelled: `duration: None` reaching `format_duration`, an artists entry without "name" (youtube.py:71, outside any try), and `title: None` in `from_yt_info`.
- Ui.FormatTime: takes the time as an exact real. It does not model double rounding or the exponent notation `toString` uses above 1e21.
- The `canplay`, `error` and `ended` audio events, the Media Session handlers, `seek`, the progress bar, status texts, haptics, the visualizer and the glitch effect. These are DOM, WebAudio and floating-point work.
- Store listeners are returned as a list of calls, not run, so a listener that writes to the store again is not modelled. The player's store fields are modelled as fields of `Player.Deck`. The in-place shuffle mutates the playlist array without a store write, so the model sends no playlist notification for it.
- After `WebMain.LoadGenre` with an empty result, the old index stays. This is harmless while the playlist is empty.
- The start overlay (`handleStart`, main.js:47-65) and the AI prompt modal (main.js:96-112) are left out; they call the visualizer and the AI endpoint.
- `fetchPlaylist` never throws (api.js answers [] on any error), so the "NET ERROR" branch of `loadGenreHandler` is unreachable and is not modelled.
- The `ADMIN_ID_LIST` validator is modelled as a function of the `ADMIN_IDS` text. Whether pydantic runs it on a default value is a library behaviour the model does not decide.
- handlers.py, catalog.py, genres.js and the `MUSIC_CATALOG` literal are not part of this model. The catalog is a parameter of every member that reads it.

## Findings

| source | as written | input that shows it | evidently intended | confidence | as-written member | corrected member |
|---|---|---|---|---|---|---|
| webapp/js/ui.js:36-38 | `if (node.children)` is true for an empty array, so the code indexes `children[0]`, gets `undefined`, and the recursive call reads `undefined.query` and throws a TypeError | a node `{ name: "Empty", children: [] }` with no query | a node with nothing under it yields the "lofi hip hop" fallback, as a node without children does | not executed; the shipped menu has no empty folder | Ui.RandomQueryAsWritten (with Ui.EmptyFolderThrows) | Ui.RandomQuery (with Ui.EveryDrawableIsDrawn) |

=== FILE: auth.dfy ===
/**
 * Checking a Telegram Mini App's init data (auth.py): the `key=value` pairs
 * are sorted, the `hash` pair is taken out, and the rest must be signed by
 * HMAC-SHA256 under a key derived from the bot token. The hash function is
 * a parameter (`Hmac`), and so is the pydantic model build (`Builder`) and
 * percent-decoding (`unquote`).
 */
module Auth {
  import opened Wrappers
  import opened Text
  import opened Ordering

  datatype WebAppUser = WebAppUser(id: int, firstName: string, lastName: Option<string>,
                                   username: Option<string>, languageCode: Option<string>,
                                   isPremium: Option<bool>)

  datatype InitData = InitData(queryId: Option<string>, user: Option<WebAppUser>,
                               startParam: Option<string>, authDate: int, hash: string)

  /** The two ways a check fails: HTTP 401 and HTTP 500. */
  datatype AuthError = Unauthorized | ServerError {
    function Status(): int {
      if Unauthorized? then 401 else 500
    }
  }

  /** `hmac.new(key, msg, sha256).digest()`. */
  type Hmac = (seq<byte>, seq<byte>) -> seq<byte>

  /** `InitData(**fields)`: the model, or `None` where pydantic raises a validation error. */
  type Builder = map<string, string> -> Option<InitData>

  /** An HMAC-SHA256: every digest is 32 bytes. */
  ghost predicate IsSha256(hmac: Hmac) {
    forall k, m :: |hmac(k, m)| == 32
  }

  // ---------------------------------------------------------------------
  // pairs
  // ---------------------------------------------------------------------

  /** Every pair has a first part (`str.split` never returns an empty list). */
  predicate NonEmptyPairs(pairs: seq<seq<string>>) {
    forall i :: 0 <= i < |pairs| ==> |pairs[i]| >= 1
  }

  /** Every pair is exactly a key and a value. */
  predicate AllPairs(pairs: seq<seq<string>>) {
    forall i :: 0 <= i < |pairs| ==> |pairs[i]| == 2
  }

  /** No two pairs share a key. */
  predicate DistinctKeys(pairs: seq<seq<string>>)
    requires NonEmptyPairs(pairs)
  {
    forall i, j :: 0 <= i < j < |pairs| ==> pairs[i][0] != pairs[j][0]
  }

  /** `[chunk.split("=") for chunk in text.split("&")]`. */
  function Pairs(text: string): (r: seq<seq<string>>)
    ensures NonEmptyPairs(r)
    ensures |r| == |Split(text, "&")|
  {
    var chunks := Split(text, "&");
    seq(|chunks|, i requires 0 <= i < |chunks| => Split(chunks[i], "="))
  }

  /** The first pair whose key is "hash", as the `for … break` loop finds it. */
  function HashIndex(pairs: seq<seq<string>>): (r: Option<nat>)
    requires NonEmptyPairs(pairs)
    ensures r.None? <==> forall i :: 0 <= i < |pairs| ==> pairs[i][0] != "hash"
    ensures r.Some? ==> r.value < |pairs| && pairs[r.value][0] == "hash" &&
                        forall j :: 0 <= j < r.value ==> pairs[j][0] != "hash"
    decreases |pairs|
  {
    if |pairs| == 0 then None
    else if pairs[0][0] == "hash" then Some(0)
    else
      match HashIndex(pairs[1..])
      case None => None
      case Some(i) => Some(i + 1)
  }

  /** `pairs.pop(i)`. */
  function Remove(s: seq<seq<string>>, i: nat): (r: seq<seq<string>>)
    requires i < |s|
    ensures |r| == |s| - 1
    ensures multiset(r) == multiset(s) - multiset{s[i]}
    ensures forall j :: 0 <= j < i ==> r[j] == s[j]
    ensures forall j :: i <= j < |r| ==> r[j] == s[j + 1]
    ensures IsSorted(s) ==> IsSorted(r)
  {
    RemoveKeeps(s, i);
    s[..i] + s[i + 1..]
  }

  /** Cutting out one element keeps the others' multiset and their order. */
  lemma RemoveKeeps(s: seq<seq<string>>, i: nat)
    requires i < |s|
    ensures multiset(s[..i] + s[i + 1..]) == multiset(s) - multiset{s[i]}
    ensures IsSorted(s) ==> IsSorted(s[..i] + s[i + 1..])
  {
    var r := s[..i] + s[i + 1..];
    assert s == s[..i] + [s[i]] + s[i + 1..];
    if IsSorted(s) {
      forall j, k | 0 <= j < k < |r| ensures ListLe(r[j], r[k]) {
        var j', k' := if j < i then j else j + 1, if k < i then k else k + 1;
        assert r[j] == s[j'] && r[k] == s[k'];
      }
    }
  }

  /** The lines `f"{k}={v}"` of the data-check string. */
  function Lines(pairs: seq<seq<string>>): (r: seq<string>)
    requires AllPairs(pairs)
    ensures |r| == |pairs|
    ensures forall i :: 0 <= i < |pairs| ==> r[i] == pairs[i][0] + "=" + pairs[i][1]
  {
    seq(|pairs|, i requires 0 <= i < |pairs| => pairs[i][0] + "=" + pairs[i][1])
  }

  /** The data-check string: the lines joined by newlines. */
  function DataCheckString(pairs: seq<seq<string>>): string
    requires AllPairs(pairs)
  {
    Join(Lines(pairs), "\n")
  }

  // ---------------------------------------------------------------------
  // hex digest
  // ---------------------------------------------------------------------

  predicate IsHexDigit(c: char) {
    ('0' <= c <= '9') || ('a' <= c <= 'f')
  }

  function HexValue(c: char): int {
    if '0' <= c <= '9' then c as int - '0' as int
    else if 'a' <= c <= 'f' then c as int - 'a' as int + 10
    else 0
  }

  /** The lower-case hex digit for a nibble: '0' to '9', then 'a' to 'f'. */
  function HexChar(d: nat): (c: char)
    requires d < 16
    ensures IsHexDigit(c) && HexValue(c) == d
  {
    if d < 10 then (48 + d) as char else (87 + d) as char
  }

  /** `hexdigest()`: two lower-case hex digits per byte, high nibble first. */
  function Hex(bs: seq<byte>): (r: string)
    ensures |r| == 2 * |bs|
    ensures forall i :: 0 <= i < |r| ==> IsHexDigit(r[i])
  {
    if |bs| == 0 then ""
    else [HexChar(bs[0] as int / 16), HexChar(bs[0] as int % 16)] + Hex(bs[1..])
  }

  /** Reading two hex digits per byte back. */
  function Unhex(s: string): seq<int>
    decreases |s|
  {
    if |s| < 2 then [] else [16 * HexValue(s[0]) + HexValue(s[1])] + Unhex(s[2..])
  }

  /** A hex digest reads back as the bytes it was made from. */
  lemma {:induction false} UnhexHex(bs: seq<byte>)
    ensures Unhex(Hex(bs)) == seq(|bs|, i requires 0 <= i < |bs| => bs[i] as int)
  {
    if |bs| > 0 {
      var h := Hex(bs);
      var b := bs[0] as int;
      UnhexHex(bs[1..]);
      assert h[2..] == Hex(bs[1..]);
      assert Unhex(h) == [16 * (b / 16) + b % 16] + Unhex(h[2..]);
      var want := seq(|bs|, i requires 0 <= i < |bs| => bs[i] as int);
      assert want == [b] + seq(|bs| - 1, i requires 0 <= i < |bs| - 1 => bs[1..][i] as int);
    }
  }

  /** `calculated_hash`: HMAC of the data-check string under the HMAC of the token keyed by "WebAppData". */
  function CalculatedHash(token: string, dataCheck: string, hmac: Hmac): string {
    var secret := hmac(Utf8Encode("WebAppData"), Utf8Encode(token));
    Hex(hmac(secret, Utf8Encode(dataCheck)))
  }

  // ---------------------------------------------------------------------
  // the dict of fields
  // ---------------------------------------------------------------------

  /** No later pair has the same key as pair `i`. */
  predicate LastWithKey(pairs: seq<seq<string>>, i: int)
    requires NonEmptyPairs(pairs) && 0 <= i < |pairs|
  {
    forall j :: i < j < |pairs| ==> pairs[j][0] != pairs[i][0]
  }

  /** `{k: v for k, v in pairs}`: each pair in turn sets its key to its value. */
  function ToDict(pairs: seq<seq<string>>): (d: map<string, string>)
    requires AllPairs(pairs)
    ensures |pairs| > 0 ==> pairs[|pairs| - 1][0] in d && d[pairs[|pairs| - 1][0]] == pairs[|pairs| - 1][1]
    decreases |pairs|
  {
    if |pairs| == 0 then map[]
    else
      var n := |pairs| - 1;
      ToDict(pairs[..n])[pairs[n][0] := pairs[n][1]]
  }

  /** The dict's keys are exactly the keys of the pairs. */
  lemma {:induction false} ToDictKeys(pairs: seq<seq<string>>)
    requires AllPairs(pairs)
    ensures forall k :: k in ToDict(pairs) <==> exists i :: 0 <= i < |pairs| && pairs[i][0] == k
    decreases |pairs|
  {
    if |pairs| > 0 {
      var n := |pairs| - 1;
      var front := pairs[..n];
      ToDictKeys(front);
      forall k
        ensures k in ToDict(pairs) <==> exists i :: 0 <= i < |pairs| && pairs[i][0] == k
      {
        if k in ToDict(front) {
          var i :| 0 <= i < n && front[i][0] == k;
          assert pairs[i][0] == k;
        }
        if exists i :: 0 <= i < |pairs| && pairs[i][0] == k {
          var i :| 0 <= i < |pairs| && pairs[i][0] == k;
          if i < n {
            assert front[i][0] == k;
          }
        }
      }
    }
  }

  /** A key's value in the dict is the value of its last pair. */
  lemma {:induction false} ToDictLast(pairs: seq<seq<string>>, i: nat)
    requires AllPairs(pairs) && i < |pairs| && LastWithKey(pairs, i)
    ensures pairs[i][0] in ToDict(pairs) && ToDict(pairs)[pairs[i][0]] == pairs[i][1]
    decreases |pairs|
  {
    var n := |pairs| - 1;
    if i < n {
      var front := pairs[..n];
      assert front[i] == pairs[i];
      assert LastWithKey(front, i) by {
        forall j | i < j < n
          ensures front[j][0] != front[i][0]
        {
          assert front[j] == pairs[j];
        }
      }
      ToDictLast(front, i);
      assert pairs[n][0] != pairs[i][0];
    }
  }

  // ---------------------------------------------------------------------
  // validate_init_data
  // ---------------------------------------------------------------------

  /** Sorting keeps every pair, so every sorted pair still has a first part. */
  lemma SortedNonEmpty(pairs: seq<seq<string>>)
    requires NonEmptyPairs(pairs)
    ensures NonEmptyPairs(Sort(pairs))
  {
    var sorted := Sort(pairs);
    forall i | 0 <= i < |sorted| ensures |sorted[i]| >= 1 {
      assert sorted[i] in multiset(pairs);
    }
  }

  /**
   * The pairs carry a valid signature: once sorted, the first "hash" pair
   * has a non-empty value, the other pairs are all `k=v`, and the value is
   * the HMAC of their data-check string.
   */
  predicate Signed(pairs: seq<seq<string>>, token: string, hmac: Hmac)
    requires NonEmptyPairs(pairs)
  {
    SortedNonEmpty(pairs);
    var sorted := Sort(pairs);
    match HashIndex(sorted)
    case None => false
    case Some(i) =>
      |sorted[i]| == 2 && sorted[i][1] != "" && AllPairs(Remove(sorted, i)) &&
      CalculatedHash(token, DataCheckString(Remove(sorted, i)), hmac) == sorted[i][1]
  }

  /**
   * `validate_init_data` after splitting. In order: no "hash" pair is a
   * 401; a "hash" pair without a value raises IndexError, a 500; an empty
   * hash is a 401; a remaining pair that is not `k=v` fails to unpack, a
   * 401; a hash that does not match is a 401; a chunk that is not `k=v`
   * fails to unpack into the dict, a 401; and pydantic may reject the dict.
   */
  function ValidatePairs(pairs: seq<seq<string>>, token: string, hmac: Hmac, build: Builder)
    : (r: Result<InitData, AuthError>)
    requires NonEmptyPairs(pairs)
    ensures r.Ok? ==> AllPairs(pairs) && build(ToDict(pairs)) == Some(r.value)
    ensures r.Ok? ==> exists i :: 0 <= i < |pairs| && pairs[i][0] == "hash" && |pairs[i]| == 2 &&
                                  pairs[i][1] != ""
    ensures r.Ok? <==> AllPairs(pairs) && Signed(pairs, token, hmac) && build(ToDict(pairs)).Some?
  {
    var sorted := Sort(pairs);
    SortedNonEmpty(pairs);
    match HashIndex(sorted)
    case None => Err(Unauthorized)
    case Some(i) =>
      if |sorted[i]| < 2 then Err(ServerError)
      else if sorted[i][1] == "" then Err(Unauthorized)
      else
        var rest := Remove(sorted, i);
        if !AllPairs(rest) then Err(Unauthorized)
        else if CalculatedHash(token, DataCheckString(rest), hmac) != sorted[i][1] then Err(Unauthorized)
        else if !AllPairs(pairs) then Err(Unauthorized)
        else
          assert sorted[i] in multiset(pairs);
          match build(ToDict(pairs))
          case None => Err(Unauthorized)
          case Some(data) => Ok(data)
  }

  /** `validate_init_data(init_data, bot_token)` on the percent-decoded text. */
  function ValidateInitData(initData: string, token: string, unquote: string -> string,
                            hmac: Hmac, build: Builder): (r: Result<InitData, AuthError>)
    ensures var pairs := Pairs(unquote(initData));
            r.Ok? <==> AllPairs(pairs) && Signed(pairs, token, hmac) && build(ToDict(pairs)).Some?
    ensures var pairs := Pairs(unquote(initData));
            r.Ok? ==> AllPairs(pairs) && build(ToDict(pairs)) == Some(r.value)
    ensures r == Err(ServerError) <==> ["hash"] in Pairs(unquote(initData))
    ensures r.Err? ==> r.error == ServerError || r.error == Unauthorized
  {
    var pairs := Pairs(unquote(initData));
    ServerErrorIffBareHash(pairs, token, hmac, build);
    ValidatePairs(pairs, token, hmac, build)
  }

  /** Init data without a "hash" key is refused with 401. */
  lemma MissingHashRejected(pairs: seq<seq<string>>, token: string, hmac: Hmac, build: Builder)
    requires NonEmptyPairs(pairs)
    requires forall i :: 0 <= i < |pairs| ==> pairs[i][0] != "hash"
    ensures ValidatePairs(pairs, token, hmac, build) == Err(Unauthorized)
  {
    var sorted := Sort(pairs);
    SortedNonEmpty(pairs);
    forall i | 0 <= i < |sorted| ensures sorted[i][0] != "hash" {
      assert sorted[i] in multiset(pairs);
    }
  }

  /** The first "hash" pair in sorted order is the bare chunk "hash" exactly when there is one. */
  lemma FirstHashIsBare(sorted: seq<seq<string>>, i: nat)
    requires IsSorted(sorted) && NonEmptyPairs(sorted)
    requires HashIndex(sorted) == Some(i)
    ensures |sorted[i]| < 2 <==> ["hash"] in sorted
  {
    if ["hash"] in sorted {
      var j :| 0 <= j < |sorted| && sorted[j] == ["hash"];
      if i < j {
        SingletonFirst("hash", sorted[i]);
      }
    }
    if |sorted[i]| < 2 {
      assert sorted[i] == ["hash"];
    }
  }

  /** The check fails with 500 exactly when some chunk is the bare word "hash" (pair[1] raises IndexError). */
  lemma ServerErrorIffBareHash(pairs: seq<seq<string>>, token: string, hmac: Hmac, build: Builder)
    requires NonEmptyPairs(pairs)
    ensures ValidatePairs(pairs, token, hmac, build) == Err(ServerError) <==> ["hash"] in pairs
  {
    var sorted := Sort(pairs);
    SortedNonEmpty(pairs);
    assert ["hash"] in pairs <==> ["hash"] in multiset(sorted);
    match HashIndex(sorted)
    case None =>
    case Some(i) =>
      FirstHashIsBare(sorted, i);
  }

  /**
   * For well-formed pairs with one hash: accepted exactly when the hash is
   * the HMAC of the other pairs, sorted, written `k=v` one per line, and
   * pydantic builds the model. The order of the chunks plays no part in
   * the signature.
   */
  lemma SignedPairsVerdict(pairs: seq<seq<string>>, others: seq<seq<string>>, h: string,
                           token: string, hmac: Hmac, build: Builder)
    requires AllPairs(others) && forall i :: 0 <= i < |others| ==> others[i][0] != "hash"
    requires h != ""
    requires multiset(pairs) == multiset(others) + multiset{["hash", h]}
    ensures NonEmptyPairs(pairs) && AllPairs(pairs) && AllPairs(Sort(others))
    ensures ValidatePairs(pairs, token, hmac, build) ==
              if CalculatedHash(token, DataCheckString(Sort(others)), hmac) == h && build(ToDict(pairs)).Some?
              then Ok(build(ToDict(pairs)).value)
              else Err(Unauthorized)
  {
    SignedPairsWellFormed(pairs, others, h);
    SortedAllPairs(others);
    SignedHashFound(pairs, others, h);
    var i := HashIndex(Sort(pairs)).value;
    assert AllPairs(Remove(Sort(pairs), i));
    ValidateWithHashAt(pairs, i, h, token, hmac, build);
  }

  /** For one hash pair `h` among well-formed others: signed exactly when `h` is the HMAC of the others, sorted. */
  lemma SignedIffHashMatches(pairs: seq<seq<string>>, others: seq<seq<string>>, h: string, token: string, hmac: Hmac)
    requires AllPairs(others) && forall i :: 0 <= i < |others| ==> others[i][0] != "hash"
    requires h != ""
    requires multiset(pairs) == multiset(others) + multiset{["hash", h]}
    ensures NonEmptyPairs(pairs) && AllPairs(Sort(others))
    ensures Signed(pairs, token, hmac) <==> CalculatedHash(token, DataCheckString(Sort(others)), hmac) == h
  {
    SignedPairsWellFormed(pairs, others, h);
    SortedAllPairs(others);
    SignedHashFound(pairs, others, h);
  }

  /** Past the hash lookup, the verdict rests on the signature and the model build alone. */
  lemma ValidateWithHashAt(pairs: seq<seq<string>>, i: nat, h: string, token: string, hmac: Hmac, build: Builder)
    requires NonEmptyPairs(pairs) && AllPairs(pairs) && NonEmptyPairs(Sort(pairs))
    requires HashIndex(Sort(pairs)) == Some(i) && Sort(pairs)[i] == ["hash", h] && h != ""
    requires AllPairs(Remove(Sort(pairs), i))
    ensures ValidatePairs(pairs, token, hmac, build) ==
              if CalculatedHash(token, DataCheckString(Remove(Sort(pairs), i)), hmac) == h && build(ToDict(pairs)).Some?
              then Ok(build(ToDict(pairs)).value)
              else Err(Unauthorized)
  {
  }

  /** Sorting pairs keeps them pairs. */
  lemma SortedAllPairs(pairs: seq<seq<string>>)
    requires AllPairs(pairs)
    ensures AllPairs(Sort(pairs))
  {
    var sorted := Sort(pairs);
    forall i | 0 <= i < |sorted| ensures |sorted[i]| == 2 {
      assert sorted[i] in multiset(pairs);
    }
  }

  /** The hash pair and the other pairs together are all pairs. */
  lemma SignedPairsWellFormed(pairs: seq<seq<string>>, others: seq<seq<string>>, h: string)
    requires AllPairs(others)
    requires multiset(pairs) == multiset(others) + multiset{["hash", h]}
    ensures AllPairs(pairs) && NonEmptyPairs(pairs)
  {
    forall i | 0 <= i < |pairs| ensures |pairs[i]| == 2 {
      assert pairs[i] in multiset(pairs);
      if pairs[i] != ["hash", h] {
        assert pairs[i] in multiset(others);
      }
    }
  }

  /** With one hash pair, the sorted pairs' hash pair is it, and what is left is the others, sorted. */
  lemma SignedHashFound(pairs: seq<seq<string>>, others: seq<seq<string>>, h: string)
    requires AllPairs(others) && forall i :: 0 <= i < |others| ==> others[i][0] != "hash"
    requires multiset(pairs) == multiset(others) + multiset{["hash", h]}
    requires NonEmptyPairs(pairs)
    ensures NonEmptyPairs(Sort(pairs))
    ensures HashIndex(Sort(pairs)).Some?
    ensures Sort(pairs)[HashIndex(Sort(pairs)).value] == ["hash", h]
    ensures Remove(Sort(pairs), HashIndex(Sort(pairs)).value) == Sort(others)
  {
    var sorted := Sort(pairs);
    SortedNonEmpty(pairs);
    assert ["hash", h] in multiset(sorted);
    var k :| 0 <= k < |sorted| && sorted[k] == ["hash", h];
    assert sorted[k][0] == "hash";
    var i := HashIndex(sorted).value;
    assert sorted[i] in multiset(pairs);
    var rest := Remove(sorted, i);
    assert multiset(rest) == multiset(others);
    SortedUnique(rest, Sort(others));
  }

  /** Two arrangements of the same pairs, keys all different, get the same verdict. */
  lemma OrderIrrelevant(a: seq<seq<string>>, b: seq<seq<string>>, token: string, hmac: Hmac, build: Builder)
    requires NonEmptyPairs(a) && NonEmptyPairs(b)
    requires DistinctKeys(a) && DistinctKeys(b)
    requires multiset(a) == multiset(b)
    ensures ValidatePairs(a, token, hmac, build) == ValidatePairs(b, token, hmac, build)
  {
    SortIgnoresOrder(a, b);
    assert AllPairs(a) <==> AllPairs(b) by {
      if AllPairs(a) {
        forall i | 0 <= i < |b| ensures |b[i]| == 2 {
          assert b[i] in multiset(a);
        }
      }
      if AllPairs(b) {
        forall i | 0 <= i < |a| ensures |a[i]| == 2 {
          assert a[i] in multiset(b);
        }
      }
    }
    if AllPairs(a) {
      SameDict(a, b);
    }
  }

  /** With keys all different, every pair's value is what the dict holds for its key. */
  lemma DictOfDistinct(a: seq<seq<string>>, i: nat)
    requires AllPairs(a) && DistinctKeys(a) && i < |a|
    ensures a[i][0] in ToDict(a) && ToDict(a)[a[i][0]] == a[i][1]
  {
    assert LastWithKey(a, i);
    ToDictLast(a, i);
  }

  /** Pairs with different keys make the same dict in any order. */
  lemma SameDict(a: seq<seq<string>>, b: seq<seq<string>>)
    requires AllPairs(a) && AllPairs(b)
    requires DistinctKeys(a) && DistinctKeys(b)
    requires multiset(a) == multiset(b)
    ensures ToDict(a) == ToDict(b)
  {
    var da, db := ToDict(a), ToDict(b);
    forall k | k in da ensures k in db && da[k] == db[k] {
      SameKey(a, b, k);
    }
    forall k | k in db ensures k in da {
      SameKey(b, a, k);
    }
  }

  lemma SameKey(a: seq<seq<string>>, b: seq<seq<string>>, k: string)
    requires AllPairs(a) && AllPairs(b)
    requires DistinctKeys(a) && DistinctKeys(b)
    requires multiset(a) == multiset(b)
    requires k in ToDict(a)
    ensures k in ToDict(b) && ToDict(a)[k] == ToDict(b)[k]
  {
    ToDictKeys(a);
    var i :| 0 <= i < |a| && a[i][0] == k;
    assert a[i] in multiset(b);
    var j :| 0 <= j < |b| && b[j] == a[i];
    DictOfDistinct(a, i);
    DictOfDistinct(b, j);
  }

  /** With SHA-256 as the hash, an accepted hash value is 64 lower-case hex digits. */
  lemma AcceptedHashIsHexDigest(pairs: seq<seq<string>>, token: string, hmac: Hmac, build: Builder)
    requires NonEmptyPairs(pairs) && IsSha256(hmac)
    requires ValidatePairs(pairs, token, hmac, build).Ok?
    ensures exists i :: 0 <= i < |pairs| && pairs[i][0] == "hash" && |pairs[i]| == 2 &&
                        |pairs[i][1]| == 64 && forall c :: 0 <= c < 64 ==> IsHexDigit(pairs[i][1][c])
  {
    var sorted := Sort(pairs);
    SortedNonEmpty(pairs);
    var i := HashIndex(sorted).value;
    var rest := Remove(sorted, i);
    var digest := CalculatedHash(token, DataCheckString(rest), hmac);
    assert sorted[i][1] == digest;
    assert sorted[i] in multiset(pairs);
    var j :| 0 <= j < |pairs| && pairs[j] == sorted[i];
    assert |pairs[j][1]| == 64;
  }

  // ---------------------------------------------------------------------
  // get_validated_user
  // ---------------------------------------------------------------------

  const Scheme: string := "Tma "

  /** `authorization.split(" ", 1)[1]` after the "Tma " check: the text after the scheme. */
  lemma SchemeStripped(header: string)
    requires StartsWith(header, Scheme)
    ensures Partition(header, " ") == Some(("Tma", header[4..]))
  {
    assert header == "Tma" + " " + header[4..];
    AbsentChar("Tma", ' ');
    PartitionAfter("Tma", " ", header[4..]);
  }

  /**
   * `get_validated_user`: a missing or empty header, or one not starting
   * "Tma ", is a 401; otherwise the init data after the scheme is
   * validated, its error passed on, and a result without a user is a 401.
   */
  function GetValidatedUser(authorization: Option<string>, token: string, unquote: string -> string,
                            hmac: Hmac, build: Builder): (r: Result<WebAppUser, AuthError>)
    ensures authorization.None? || authorization.value == "" ==> r == Err(Unauthorized)
    ensures authorization.Some? && !StartsWith(authorization.value, Scheme) ==> r == Err(Unauthorized)
    ensures authorization.Some? && StartsWith(authorization.value, Scheme) ==>
              var v := ValidateInitData(authorization.value[4..], token, unquote, hmac, build);
              (v.Err? ==> r == Err(v.error)) &&
              (v.Ok? && v.value.user.None? ==> r == Err(Unauthorized)) &&
              (v.Ok? && v.value.user.Some? ==> r == Ok(v.value.user.value))
  {
    if authorization.None? || authorization.value == "" then Err(Unauthorized)
    else if !StartsWith(authorization.value, Scheme) then Err(Unauthorized)
    else
      SchemeStripped(authorization.value);
      match Partition(authorization.value, " ")
      // Unreachable: the header holds a space.
      case None => Err(ServerError)
      case Some((_, initData)) =>
        match ValidateInitData(initData, token, unquote, hmac, build)
        case Err(e) => Err(e)
        case Ok(data) => if data.user.None? then Err(Unauthorized) else Ok(data.user.value)
  }

  /** A user comes back only from a "Tma " header whose init data carries a valid hash and a user. */
  lemma UserOnlyFromSignedData(authorization: Option<string>, token: string, unquote: string -> string,
                               hmac: Hmac, build: Builder)
    requires GetValidatedUser(authorization, token, unquote, hmac, build).Ok?
    ensures authorization.Some? && StartsWith(authorization.value, Scheme)
    ensures var pairs := Pairs(unquote(authorization.value[4..]));
            AllPairs(pairs) && Signed(pairs, token, hmac) &&
            (exists i :: 0 <= i < |pairs| && pairs[i][0] == "hash" && pairs[i][1] != "") &&
            exists d :: build(ToDict(pairs)) == Some(d) &&
                        d.user == Some(GetValidatedUser(authorization, token, unquote, hmac, build).value)
  {
    var v := ValidateInitData(authorization.value[4..], token, unquote, hmac, build);
    assert v.Ok?;
  }
}

=== FILE: cache.dfy ===
/**
 * The TTL key-value cache (cache_service.py) as a map from key to value and
 * optional expiry instant, over an integer clock in seconds. `open` records
 * whether `initialize` has connected the store; every operation on a store
 * that is not open is refused.
 */
module Cache {
  import opened Wrappers

  datatype Entry<V> = Entry(value: V, expiresAt: Option<int>)

  datatype Store<V> = Store(open: bool, entries: map<string, Entry<V>>)

  /** A closed store with nothing in it: the service before `initialize`. */
  function Empty<V>(): Store<V> {
    Store(false, map[])
  }

  /** `get` serves an entry at `now` iff it never expires or expires strictly later. */
  predicate Live<V>(e: Entry<V>, now: int) {
    e.expiresAt.None? || e.expiresAt.value > now
  }

  /** The row filter of `_delete_expired`: `expires_at IS NOT NULL AND expires_at <= now`. */
  predicate Expired<V>(e: Entry<V>, now: int) {
    e.expiresAt.Some? && e.expiresAt.value <= now
  }

  /** The expiry `set` stores: none for a missing or non-positive ttl, else `now + ttl`. */
  function ExpiryFor(ttl: Option<int>, now: int): (x: Option<int>)
    ensures x.None? <==> ttl.None? || ttl.value <= 0
    ensures x.Some? ==> x.value > now
  {
    if ttl.Some? && ttl.value > 0 then Some(now + ttl.value) else None
  }

  /** The answer of `get` and the store after it. */
  datatype GetOutcome<V> = GetOutcome(value: Option<V>, store: Store<V>)

  /**
   * `get(key)`: the stored value while the entry is live; an expired entry
   * is deleted on the way and reported as missing.
   */
  function Get<V>(c: Store<V>, key: string, now: int): (r: GetOutcome<V>)
    ensures !c.open ==> r.value.None? && r.store == c
    ensures c.open ==> (r.value.Some? <==> key in c.entries && Live(c.entries[key], now))
    ensures r.value.Some? ==> r.value.value == c.entries[key].value
    ensures r.store.open == c.open
    ensures c.open && key in c.entries && !Live(c.entries[key], now)
            ==> r.store.entries == c.entries - {key}
    ensures !(c.open && key in c.entries && !Live(c.entries[key], now)) ==> r.store == c
  {
    if !c.open then GetOutcome(None, c)
    else if key in c.entries then
      var e := c.entries[key];
      if e.expiresAt.None? || e.expiresAt.value > now then GetOutcome(Some(e.value), c)
      else GetOutcome(None, c.(entries := c.entries - {key}))
    else GetOutcome(None, c)
  }

  /** The answer of a mutating operation (`True`/`False`) and the store after it. */
  datatype WriteOutcome<V> = WriteOutcome(ok: bool, store: Store<V>)

  /** `set(key, value, ttl)`: insert or replace the entry for `key`. */
  function Set<V>(c: Store<V>, key: string, v: V, ttl: Option<int>, now: int): (r: WriteOutcome<V>)
    ensures r.ok == c.open
    ensures !c.open ==> r.store == c
    ensures c.open ==> r.store.open && r.store.entries.Keys == c.entries.Keys + {key}
    ensures c.open ==> r.store.entries[key] == Entry(v, ExpiryFor(ttl, now))
    ensures forall k :: k != key && k in c.entries ==> k in r.store.entries && r.store.entries[k] == c.entries[k]
  {
    if !c.open then WriteOutcome(false, c)
    else WriteOutcome(true, c.(entries := c.entries[key := Entry(v, ExpiryFor(ttl, now))]))
  }

  /** `delete(key)`: drop the entry for `key`, if any. */
  function Delete<V>(c: Store<V>, key: string): (r: WriteOutcome<V>)
    ensures r.ok == c.open
    ensures !c.open ==> r.store == c
    ensures c.open ==> r.store.open && key !in r.store.entries
    ensures c.open ==> forall k :: k != key ==> (k in r.store.entries <==> k in c.entries)
    ensures forall k :: k in r.store.entries ==> k in c.entries && r.store.entries[k] == c.entries[k]
  {
    if !c.open then WriteOutcome(false, c)
    else WriteOutcome(true, c.(entries := c.entries - {key}))
  }

  /** `clear()`: drop every entry. */
  function Clear<V>(c: Store<V>): (r: WriteOutcome<V>)
    ensures r.ok == c.open
    ensures !c.open ==> r.store == c
    ensures c.open ==> r.store.open && |r.store.entries| == 0
  {
    if !c.open then WriteOutcome(false, c)
    else WriteOutcome(true, c.(entries := map[]))
  }

  /** `_delete_expired()`: drop every entry whose expiry is set and not later than `now`. */
  function DeleteExpired<V>(c: Store<V>, now: int): (r: WriteOutcome<V>)
    ensures r.ok == c.open
    ensures !c.open ==> r.store == c
    ensures c.open ==> r.store.open
    ensures c.open ==> forall k :: k in r.store.entries <==> k in c.entries && !Expired(c.entries[k], now)
    ensures forall k :: k in r.store.entries ==> k in c.entries && r.store.entries[k] == c.entries[k]
  {
    if !c.open then WriteOutcome(false, c)
    else WriteOutcome(true, c.(entries := map k | k in c.entries && !Expired(c.entries[k], now) :: c.entries[k]))
  }

  /** `initialize()`: open the store, then purge what has expired. */
  function Initialize<V>(c: Store<V>, now: int): (r: Store<V>)
    ensures r.open
    ensures forall k :: k in r.entries <==> k in c.entries && !Expired(c.entries[k], now)
  {
    DeleteExpired(c.(open := true), now).store
  }

  /** `close()`: disconnect; the stored rows stay where they are. */
  function Close<V>(c: Store<V>): (r: Store<V>)
    ensures !r.open && r.entries == c.entries
  {
    c.(open := false)
  }

  // ---------------------------------------------------------------------
  // Properties relating the operations
  // ---------------------------------------------------------------------

  /** An entry is expired exactly when it is not live: `get` and the purge agree. */
  lemma ExpiredIsNotLive<V>(e: Entry<V>, now: int)
    ensures Expired(e, now) <==> !Live(e, now)
  {
  }

  /**
   * The purge removes exactly the entries that `get` would refuse at the same
   * instant, and keeps exactly those `get` would serve.
   */
  lemma PurgeAgreesWithGet<V>(c: Store<V>, now: int, key: string)
    requires c.open
    ensures key in DeleteExpired(c, now).store.entries <==> Get(c, key, now).value.Some?
  {
  }

  /** Before `initialize`, nothing is served and every write is refused. */
  lemma ClosedRefusesEverything<V>(key: string, v: V, ttl: Option<int>, now: int)
    ensures Get(Empty<V>(), key, now).value.None?
    ensures !Set(Empty<V>(), key, v, ttl, now).ok
    ensures !Delete(Empty<V>(), key).ok
    ensures !Clear(Empty<V>()).ok
    ensures !DeleteExpired(Empty<V>(), now).ok
  {
  }

  /** `set` then `get` before the expiry returns the value just stored. */
  lemma SetThenGet<V>(c: Store<V>, key: string, v: V, ttl: Option<int>, now: int, later: int)
    requires c.open
    requires ttl.None? || ttl.value <= 0 || later < now + ttl.value
    ensures Get(Set(c, key, v, ttl, now).store, key, later).value == Some(v)
  {
  }

  /** `set` then `get` at or after the expiry misses, and the entry is gone afterwards. */
  lemma SetThenGetAfterExpiry<V>(c: Store<V>, key: string, v: V, ttl: int, now: int, later: int)
    requires c.open && ttl > 0
    requires later >= now + ttl
    ensures Get(Set(c, key, v, Some(ttl), now).store, key, later).value.None?
    ensures key !in Get(Set(c, key, v, Some(ttl), now).store, key, later).store.entries
  {
  }

  /** A `set` leaves what `get` answers for every other key unchanged. */
  lemma SetKeepsOtherKeys<V>(c: Store<V>, key: string, other: string, v: V, ttl: Option<int>, now: int, later: int)
    requires other != key
    ensures Get(Set(c, key, v, ttl, now).store, other, later).value == Get(c, other, later).value
  {
  }

  /** After `delete(key)`, `get(key)` misses; other keys answer as before. */
  lemma DeleteThenGet<V>(c: Store<V>, key: string, other: string, now: int)
    requires c.open && other != key
    ensures Get(Delete(c, key).store, key, now).value.None?
    ensures Get(Delete(c, key).store, other, now).value == Get(c, other, now).value
  {
  }

  /** After `clear()`, every `get` misses. */
  lemma ClearThenGet<V>(c: Store<V>, key: string, now: int)
    ensures Get(Clear(c).store, key, now).value.None?
  {
  }

  /** The purge never drops an entry that never expires. */
  lemma PurgeKeepsForeverEntries<V>(c: Store<V>, now: int, key: string)
    requires c.open && key in c.entries && c.entries[key].expiresAt.None?
    ensures key in DeleteExpired(c, now).store.entries
  {
  }

  /** Purging, then purging again at the same instant, changes nothing more. */
  lemma PurgeIdempotent<V>(c: Store<V>, now: int)
    ensures DeleteExpired(DeleteExpired(c, now).store, now) == DeleteExpired(c, now)
  {
    var once := DeleteExpired(c, now).store;
    if c.open {
      assert DeleteExpired(once, now).store.entries == once.entries;
    }
  }
}

=== FILE: catalog.dfy ===
/**
 * The genre catalog (`MUSIC_CATALOG`): a tree whose inner nodes map names to
 * sub-trees, in insertion order, and whose leaves are search queries. The
 * concrete tree is data and is passed in; only its traversals are modelled.
 */
module Catalog {
  import opened Wrappers

  datatype Node = Category(children: seq<(string, Node)>) | Leaf(query: string)

  /** One level of the catalog: the `(name, node)` items of a dict, in order. */
  type Level = seq<(string, Node)>

  /**
   * The `(name, query)` pairs of every leaf, depth first in catalog order
   * (`_flatten_queries`).
   */
  function Flatten(level: Level): seq<(string, string)> {
    FlattenFrom(Category(level), 0)
  }

  /** `Flatten` of the children of `node` from the `i`-th on. */
  function FlattenFrom(node: Node, i: nat): seq<(string, string)>
    requires node.Category? && i <= |node.children|
    decreases node, |node.children| - i
  {
    if i == |node.children| then []
    else
      var (name, child) := node.children[i];
      assert node.children[i] in node.children;
      var head :=
        match child
        case Leaf(q) => [(name, q)]
        case Category(_) => FlattenFrom(child, 0);
      head + FlattenFrom(node, i + 1)
  }

  /** `level` holds, at some depth, a leaf named `name` with query `query`. */
  ghost predicate HasLeaf(level: Level, name: string, query: string) {
    exists path :: LeafAt(Category(level), path, name, query)
  }

  /**
   * Following the child indices of `path` down from `node` ends on a leaf
   * named `name` whose query is `query`.
   */
  predicate LeafAt(node: Node, path: seq<nat>, name: string, query: string)
    decreases |path|
  {
    && node.Category?
    && |path| > 0
    && path[0] < |node.children|
    && var (n, child) := node.children[path[0]];
       if |path| == 1 then child == Leaf(query) && n == name
       else LeafAt(child, path[1..], name, query)
  }

  /** The flattening of the children from `i` on lists exactly the leaves below them. */
  lemma FlattenFromIsLeaves(node: Node, i: nat, name: string, query: string)
    requires node.Category? && i <= |node.children|
    ensures (name, query) in FlattenFrom(node, i) <==>
            exists path :: LeafAt(node, path, name, query) && path[0] >= i
  {
    if (name, query) in FlattenFrom(node, i) {
      var path := FlattenFromSound(node, i, name, query);
    }
    if exists path :: LeafAt(node, path, name, query) && path[0] >= i {
      var path :| LeafAt(node, path, name, query) && path[0] >= i;
      FlattenFromComplete(node, i, path, name, query);
    }
  }

  /** Each pair the flattening lists is a leaf, reached by the path returned. */
  lemma {:induction false} FlattenFromSound(node: Node, i: nat, name: string, query: string)
    returns (path: seq<nat>)
    requires node.Category? && i <= |node.children|
    requires (name, query) in FlattenFrom(node, i)
    ensures LeafAt(node, path, name, query) && path[0] >= i
    decreases node, |node.children| - i
  {
    var (n, child) := node.children[i];
    assert node.children[i] in node.children;
    if child.Leaf? && (name, query) == (n, child.query) {
      path := [i];
    } else if child.Category? && (name, query) in FlattenFrom(child, 0) {
      var p := FlattenFromSound(child, 0, name, query);
      path := [i] + p;
      assert path[1..] == p;
    } else {
      path := FlattenFromSound(node, i + 1, name, query);
    }
  }

  /** Every leaf at or after child `i` is listed by the flattening from `i`. */
  lemma {:induction false} FlattenFromComplete(node: Node, i: nat, path: seq<nat>, name: string, query: string)
    requires node.Category? && i <= |node.children|
    requires LeafAt(node, path, name, query) && path[0] >= i
    ensures (name, query) in FlattenFrom(node, i)
    decreases node, |node.children| - i
  {
    var (n, child) := node.children[i];
    assert node.children[i] in node.children;
    if path[0] == i {
      if |path| > 1 {
        FlattenFromComplete(child, 0, path[1..], name, query);
      }
    } else {
      FlattenFromComplete(node, i + 1, path, name, query);
    }
  }

  /** The flattening lists exactly the leaves of the tree. */
  lemma FlattenIsLeaves(level: Level, name: string, query: string)
    ensures (name, query) in Flatten(level) <==> HasLeaf(level, name, query)
  {
    FlattenFromIsLeaves(Category(level), 0, name, query);
  }

  /** The node stored under `key` in one level: Python's `level[key]`, or `None` for a `KeyError`. */
  function Lookup(level: Level, key: string): (r: Option<Node>)
    ensures r.Some? <==> exists i :: 0 <= i < |level| && level[i].0 == key
    ensures r.Some? ==> exists i :: 0 <= i < |level| && level[i] == (key, r.value)
  {
    if |level| == 0 then None
    else if level[0].0 == key then Some(level[0].1)
    else
      var r := Lookup(level[1..], key);
      assert forall i :: 0 <= i < |level| - 1 ==> level[1..][i] == level[i + 1];
      r
  }

  /** Where `current = current[p]` for each `p` of a path ends up. */
  datatype Walk =
    | AtLevel(level: Level)     // a category: the walk ends on a dict
    | AtLeaf(query: string)     // the walk ends on a leaf string
    | NoSuchKey                 // some step raised `KeyError`
    | IndexedLeaf               // a step indexed a leaf string by name: `TypeError`

  /** Follow `path` from `level`, one name per step. */
  function WalkPath(level: Level, path: seq<string>): (w: Walk)
    ensures |path| == 0 ==> w == AtLevel(level)
    decreases |path|
  {
    if |path| == 0 then AtLevel(level)
    else
      match Lookup(level, path[0])
      case None => NoSuchKey
      case Some(Category(cs)) => WalkPath(cs, path[1..])
      case Some(Leaf(q)) => if |path| == 1 then AtLeaf(q) else IndexedLeaf
  }

  /** Walking `p + q` is walking `p` and then, from the category reached, walking `q`. */
  lemma {:induction false} WalkAppend(level: Level, p: seq<string>, q: seq<string>)
    requires WalkPath(level, p).AtLevel?
    ensures WalkPath(level, p + q) == WalkPath(WalkPath(level, p).level, q)
    decreases |p|
  {
    if |p| > 0 {
      assert (p + q)[0] == p[0];
      assert (p + q)[1..] == p[1..] + q;
      var cs := Lookup(level, p[0]).value.children;
      assert Lookup(level, p[0]) == Some(Category(cs));
      assert WalkPath(level, p) == WalkPath(cs, p[1..]);
      assert WalkPath(level, p + q) == WalkPath(cs, p[1..] + q);
      WalkAppend(cs, p[1..], q);
    } else {
      assert p + q == q;
    }
  }

  /** A one-name walk reaches exactly the child stored under that name. */
  lemma WalkOne(level: Level, name: string, node: Node)
    requires Lookup(level, name) == Some(node)
    ensures node.Category? ==> WalkPath(level, [name]) == AtLevel(node.children)
    ensures node.Leaf? ==> WalkPath(level, [name]) == AtLeaf(node.query)
  {
    assert [name][1..] == [];
  }
}

=== FILE: config.dfy ===
/**
 * The one piece of logic in the settings (config.py): turning the
 * `ADMIN_IDS` text into the list of admin chat ids, all or nothing.
 */
module Config {
  import opened Wrappers
  import opened Text

  /** What one piece contributes: its stripped text, or nothing when that is empty. */
  function Kept(part: string): (r: seq<string>)
    ensures |r| <= 1 && (|r| == 1 <==> Strip(part) != "") && (|r| == 1 ==> r[0] == Strip(part))
  {
    if Strip(part) == "" then [] else [Strip(part)]
  }

  /** The comma-separated pieces that count: stripped, and only the non-empty ones, in order. */
  function Pieces(parts: seq<string>): (r: seq<string>)
    ensures |r| <= |parts|
    ensures forall i :: 0 <= i < |r| ==> r[i] != "" && exists j :: 0 <= j < |parts| && r[i] == Strip(parts[j])
  {
    if |parts| == 0 then []
    else
      var rest := Pieces(parts[1..]);
      var r := Kept(parts[0]) + rest;
      assert forall i :: 0 <= i < |rest| ==> exists j :: 0 <= j < |parts| && rest[i] == Strip(parts[j]) by {
        forall i | 0 <= i < |rest| ensures exists j :: 0 <= j < |parts| && rest[i] == Strip(parts[j]) {
          var j :| 0 <= j < |parts| - 1 && rest[i] == Strip(parts[1..][j]);
          assert parts[1..][j] == parts[j + 1];
        }
      }
      r
  }

  /** Reading one more piece appends what it contributes: the pieces keep their order. */
  lemma {:induction false} PiecesAppend(parts: seq<string>, p: string)
    ensures Pieces(parts + [p]) == Pieces(parts) + Kept(p)
    decreases |parts|
  {
    if |parts| == 0 {
      assert parts + [p] == [p];
      assert [p][1..] == [];
    } else {
      var whole := parts + [p];
      assert whole[0] == parts[0];
      assert whole[1..] == parts[1..] + [p];
      PiecesAppend(parts[1..], p);
      assert Pieces(whole) == Kept(parts[0]) + (Pieces(parts[1..]) + Kept(p));
    }
  }

  /** Every piece with text left after stripping is kept. */
  lemma {:induction false} PiecesKeep(parts: seq<string>, j: nat)
    requires j < |parts| && Strip(parts[j]) != ""
    ensures Strip(parts[j]) in Pieces(parts)
    decreases |parts|
  {
    if j > 0 {
      assert parts[1..][j - 1] == parts[j];
      PiecesKeep(parts[1..], j - 1);
    }
  }

  /** All the values when every result is present, else `None`. */
  function Collect(xs: seq<Option<int>>): (r: Option<seq<int>>)
    ensures r.Some? <==> forall i :: 0 <= i < |xs| ==> xs[i].Some?
    ensures r.Some? ==> |r.value| == |xs| && forall i :: 0 <= i < |xs| ==> Some(r.value[i]) == xs[i]
  {
    if |xs| == 0 then Some([])
    else
      var rest := Collect(xs[1..]);
      assert forall i :: 1 <= i < |xs| ==> xs[1..][i - 1] == xs[i];
      if xs[0].Some? && rest.Some? then
        var vs := [xs[0].value] + rest.value;
        assert forall i :: 1 <= i < |xs| ==> vs[i] == rest.value[i - 1];
        Some(vs)
      else None
  }

  /** `int` applied to every piece: the list of values, or `None` as soon as one piece is not an integer. */
  function ParseAll(pieces: seq<string>): (r: Option<seq<int>>)
    ensures r.Some? <==> forall i :: 0 <= i < |pieces| ==> ParseInt(pieces[i]).Some?
    ensures r.Some? ==> |r.value| == |pieces| &&
                        forall i :: 0 <= i < |pieces| ==> Some(r.value[i]) == ParseInt(pieces[i])
  {
    var results := seq(|pieces|, i requires 0 <= i < |pieces| => ParseInt(pieces[i]));
    assert forall i :: 0 <= i < |pieces| ==> results[i] == ParseInt(pieces[i]);
    Collect(results)
  }

  /**
   * `_assemble_admin_ids`: [] for empty text; otherwise the integer of each
   * non-empty stripped piece between commas, or [] if any piece is not one.
   */
  function AdminIds(text: string): (ids: seq<int>)
    ensures text == "" ==> ids == []
    ensures text != "" && ParseAll(Pieces(Split(text, ","))).Some? ==>
              ids == ParseAll(Pieces(Split(text, ","))).value
    ensures (exists i :: 0 <= i < |Pieces(Split(text, ","))| && ParseInt(Pieces(Split(text, ","))[i]).None?)
              ==> ids == []
  {
    if text == "" then []
    else
      match ParseAll(Pieces(Split(text, ",")))
      case None => []
      case Some(ids) => ids
  }

  /** The comma-joined decimal renderings of some ids. */
  function ShowIds(ids: seq<int>): (r: seq<string>)
    ensures |r| == |ids|
    ensures forall i :: 0 <= i < |ids| ==> r[i] == ShowInt(ids[i])
  {
    if |ids| == 0 then [] else [ShowInt(ids[0])] + ShowIds(ids[1..])
  }

  /** A decimal rendering holds no comma and is its own strip. */
  lemma ShowIntPiece(i: int)
    ensures !Contains(ShowInt(i), ",")
    ensures Strip(ShowInt(i)) == ShowInt(i) && ShowInt(i) != ""
  {
    var s := ShowInt(i);
    ShowIntChars(i);
    AbsentChar(s, ',');
    assert !IsSpace(s[0]) && !IsSpace(s[|s| - 1]);
  }

  /** Pieces already stripped and non-empty pass through unchanged. */
  lemma {:induction false} PiecesOfPlain(parts: seq<string>)
    requires forall i :: 0 <= i < |parts| ==> parts[i] != "" && Strip(parts[i]) == parts[i]
    ensures Pieces(parts) == parts
  {
    if |parts| > 0 {
      PiecesOfPlain(parts[1..]);
      assert parts == [parts[0]] + parts[1..];
    }
  }

  /** Writing ids out comma-separated and reading them back gives the same ids. */
  lemma AdminIdsRoundTrip(ids: seq<int>)
    ensures AdminIds(Join(ShowIds(ids), ",")) == ids
  {
    if |ids| > 0 {
      var parts := ShowIds(ids);
      var text := Join(parts, ",");
      ShownPiecesArePlain(ids);
      SplitJoin(parts, ",");
      JoinNonEmpty(parts, ",");
      PiecesOfPlain(parts);
      ParseAllShown(ids);
      assert Pieces(Split(text, ",")) == parts;
    }
  }

  lemma ShownPiecesArePlain(ids: seq<int>)
    ensures forall i :: 0 <= i < |ids| ==>
              !Contains(ShowIds(ids)[i], ",") && ShowIds(ids)[i] != "" && Strip(ShowIds(ids)[i]) == ShowIds(ids)[i]
  {
    forall i | 0 <= i < |ids|
      ensures !Contains(ShowIds(ids)[i], ",") && ShowIds(ids)[i] != "" && Strip(ShowIds(ids)[i]) == ShowIds(ids)[i]
    {
      ShowIntPiece(ids[i]);
    }
  }

  /** Every rendering reads back as its id, so the whole list does. */
  lemma ParseAllShown(ids: seq<int>)
    ensures ParseAll(ShowIds(ids)) == Some(ids)
  {
    var parts := ShowIds(ids);
    forall i | 0 <= i < |ids|
      ensures ParseInt(parts[i]) == Some(ids[i])
    {
      ParseShowInt(ids[i]);
    }
    var r := ParseAll(parts);
    assert r.Some?;
    assert r.value == ids;
  }

  /** Joining a list that starts with a non-empty piece gives non-empty text. */
  lemma JoinNonEmpty(parts: seq<string>, sep: string)
    requires |parts| > 0 && parts[0] != ""
    ensures Join(parts, sep) != ""
  {
    JoinStartsWithHead(parts, sep);
  }

  /** A space on either side of text with no space at its ends is stripped off. */
  lemma StripPadded(s: string)
    requires s != "" && !IsSpace(s[0]) && !IsSpace(s[|s| - 1])
    ensures Strip(" " + s) == s && Strip(s + " ") == s
  {
    var left, right := " " + s, s + " ";
    assert left[1..|left|] == s && StripsTo(left, 1, |left|);
    assert IsStripOf(left, s);
    StripUnique(left, s);
    assert right[0..|s|] == s && StripsTo(right, 0, |s|);
    assert IsStripOf(right, s);
    StripUnique(right, s);
  }

  /** A lone space strips to nothing. */
  lemma StripSpace()
    ensures Strip(" ") == ""
  {
    assert " "[1..1] == "" && StripsTo(" ", 1, 1);
    StripUnique(" ", "");
  }

  /** Three pieces contribute in order. */
  lemma PiecesOfThree(a: string, b: string, c: string)
    ensures Pieces([a, b, c]) == Kept(a) + Kept(b) + Kept(c)
  {
    var abc := [a, b, c];
    assert abc[1..] == [b, c] && abc[1..][1..] == [c] && abc[1..][1..][1..] == [];
    assert Pieces(abc[1..][1..]) == Kept(c);
    assert Pieces(abc[1..]) == Kept(b) + Kept(c);
  }

  /** Two comma-free texts around a blank piece split into the padded first, the blank and the padded second. */
  lemma BlankPieceSplit(sx: string, sy: string)
    requires !Contains(sx, ",") && !Contains(sy, ",")
    ensures Split(" " + sx + ", ," + sy + " ", ",") == [" " + sx, " ", sy + " "]
  {
    CommaFreePadded(sx);
    CommaFreePadded(sy);
    AbsentChar(" ", ',');
    SplitThree(" " + sx, " ", sy + " ");
    BlankPieceJoin(sx, sy);
  }

  /** Three comma-free pieces joined by commas split back into themselves. */
  lemma SplitThree(a: string, b: string, c: string)
    requires !Contains(a, ",") && !Contains(b, ",") && !Contains(c, ",")
    ensures Split(Join([a, b, c], ","), ",") == [a, b, c]
  {
    var parts := [a, b, c];
    forall i | 0 <= i < |parts|
      ensures !Contains(parts[i], ",")
    {
      if i == 0 {
        assert parts[i] == a;
      } else if i == 1 {
        assert parts[i] == b;
      } else {
        assert parts[i] == c;
      }
    }
    SplitJoin(parts, ",");
  }

  /** The pieces joined by commas give back the text. */
  lemma BlankPieceJoin(sx: string, sy: string)
    ensures Join([" " + sx, " ", sy + " "], ",") == " " + sx + ", ," + sy + " "
  {
    var text := " " + sx + ", ," + sy + " ";
    JoinThree(" " + sx, " ", sy + " ", ",");
    var joined := (" " + sx) + "," + (" " + "," + (sy + " "));
    assert |joined| == |text|;
    forall k | 0 <= k < |text| ensures joined[k] == text[k] {
      if k == 0 {
      } else if k <= |sx| {
        assert joined[k] == sx[k - 1] == text[k];
      } else if k <= |sx| + 3 {
      } else if k < |sx| + 4 + |sy| {
        assert joined[k] == sy[k - |sx| - 4] == text[k];
      }
    }
  }

  /** A space on either side keeps comma-free text free of commas. */
  lemma CommaFreePadded(s: string)
    requires !Contains(s, ",")
    ensures !Contains(" " + s, ",") && !Contains(s + " ", ",")
  {
    forall j | 0 <= j < |s| ensures s[j] != ',' {
      assert !OccursAt(s, ",", j);
      assert s[j..j + 1] == [s[j]];
    }
    AbsentChar(" " + s, ',');
    AbsentChar(s + " ", ',');
  }

  /**
   * Blank pieces and the spaces around the others are dropped: text such
   * as " 1, ,2 " gives the two ids.
   */
  lemma BlankPiecesDropped(x: int, y: int)
    ensures AdminIds(" " + ShowInt(x) + ", ," + ShowInt(y) + " ") == [x, y]
  {
    var sx, sy := ShowInt(x), ShowInt(y);
    var text := " " + sx + ", ," + sy + " ";
    ShowIntPiece(x);
    ShowIntPiece(y);
    BlankPieceSplit(sx, sy);
    PiecesAroundBlank(sx, sy);
    ParseTwo(x, y);
    assert text[0] == ' ';
  }

  /** Stripped, the padded pieces give back the two texts and the blank one gives nothing. */
  lemma PiecesAroundBlank(sx: string, sy: string)
    requires sx != "" && !IsSpace(sx[0]) && !IsSpace(sx[|sx| - 1])
    requires sy != "" && !IsSpace(sy[0]) && !IsSpace(sy[|sy| - 1])
    ensures Pieces([" " + sx, " ", sy + " "]) == [sx, sy]
  {
    StripPadded(sx);
    StripPadded(sy);
    StripSpace();
    PiecesOfThree(" " + sx, " ", sy + " ");
  }

  /** Two renderings read back as their ids. */
  lemma ParseTwo(x: int, y: int)
    ensures ParseAll([ShowInt(x), ShowInt(y)]) == Some([x, y])
  {
    ParseAllShown([x, y]);
    assert [x, y][1..] == [y] && [y][1..] == [];
    assert ShowIds([x, y]) == [ShowInt(x), ShowInt(y)];
  }

  /** One bad piece empties the whole list, whatever the other pieces are. */
  lemma OneBadPieceEmptiesAll(good: seq<int>, bad: string)
    requires !Contains(bad, ",") && Strip(bad) == bad && bad != ""
    requires ParseInt(bad).None?
    ensures AdminIds(Join(ShowIds(good) + [bad], ",")) == []
  {
    var parts := ShowIds(good) + [bad];
    forall i | 0 <= i < |parts|
      ensures !Contains(parts[i], ",") && parts[i] != "" && Strip(parts[i]) == parts[i]
    {
      if i < |good| {
        ShowIntPiece(good[i]);
      }
    }
    SplitJoin(parts, ",");
    assert parts[|parts| - 1] == bad;
    JoinEndsWithLast(parts, ",");
    PiecesOfPlain(parts);
  }
}

=== FILE: keyboards.dfy ===
/**
 * The inline keyboards of keyboards.py as rows of `(label, callback data)`
 * buttons. The Telegram Bot API accepts a button's callback data only when
 * it is 1 to 64 bytes long in UTF-8; the genre menus drop the buttons whose
 * data would be longer.
 */
module Keyboards {
  import opened Wrappers
  import opened Text
  import opened Catalog
  import opened Models
  import Radio

  datatype Button = Button(text: string, callbackData: string)

  type Row = seq<Button>

  type Keyboard = seq<Row>

  const MaxCallbackBytes := 64

  /** Callback data the Bot API accepts: 1 to 64 bytes once encoded. */
  predicate FitsCallback(data: string) {
    1 <= |Utf8Encode(data)| <= MaxCallbackBytes
  }

  const RandomLabel := "\U{1F3B2} Случайный микс"
  const ErrorLabel := "\U{274C} Ошибка меню"
  const BackLabel := "\U{1F519} Назад"
  const FolderIcon := "\U{1F4C2} "
  const PlayIcon := "\U{25B6}\U{FE0F} "
  const PrevLabel := "\U{25C0}\U{FE0F}"
  const NextLabel := "\U{25B6}\U{FE0F}"
  const PageIcon := "\U{1F4C4} "

  // ---------------------------------------------------------------------
  // Genre menus
  // ---------------------------------------------------------------------

  /** `get_main_menu_keyboard`: a row per top-level category, then the random-mix row. */
  function MainMenu(catalog: Level): (k: Keyboard)
    ensures |k| == |catalog| + 1
    ensures forall i :: 0 <= i < |catalog| ==> k[i] == [Button(catalog[i].0, "cat|" + catalog[i].0)]
    ensures k[|catalog|] == [Button(RandomLabel, "play_random")]
  {
    CategoryRows(catalog) + [[Button(RandomLabel, "play_random")]]
  }

  function CategoryRows(catalog: Level): (rows: Keyboard)
    ensures |rows| == |catalog|
    ensures forall i :: 0 <= i < |catalog| ==> rows[i] == [Button(catalog[i].0, "cat|" + catalog[i].0)]
  {
    if |catalog| == 0 then []
    else [[Button(catalog[0].0, "cat|" + catalog[0].0)]] + CategoryRows(catalog[1..])
  }

  /** The path a `cat|` or `play_cat|` callback carries, as the handler splits it. */
  function CallbackPath(data: string, prefix: string): Option<seq<string>>
  {
    if StartsWith(data, prefix) then Some(Split(data[|prefix|..], "|")) else None
  }

  /** A name with no `|` in it survives being a path segment. */
  predicate PlainName(name: string) {
    !Contains(name, "|")
  }

  /**
   * The category button of the main menu leads back to that category: its
   * path walks to the node the catalog holds under the name.
   */
  lemma MainMenuLeadsToCategory(catalog: Level, i: nat)
    requires i < |catalog| && PlainName(catalog[i].0)
    requires catalog[i].1.Category?
    requires Lookup(catalog, catalog[i].0) == Some(catalog[i].1)
    ensures CallbackPath(MainMenu(catalog)[i][0].callbackData, "cat|") == Some([catalog[i].0])
    ensures WalkPath(catalog, [catalog[i].0]) == AtLevel(catalog[i].1.children)
  {
    var name := catalog[i].0;
    var data := "cat|" + name;
    assert data[..4] == "cat|";
    assert data[4..] == name;
    SplitPlain(name);
    WalkOne(catalog, name, catalog[i].1);
  }

  /** Splitting text with no separator in it gives the text back whole. */
  lemma SplitPlain(s: string)
    requires PlainName(s)
    ensures Split(s, "|") == [s]
  {
    SplitJoin([s], "|");
  }

  /** The button for one child of a menu: a folder or a play button, with the child's full path. */
  function ChildButton(pathStr: string, name: string, node: Node): (b: Button)
    ensures node.Category? ==> b == Button(FolderIcon + name, "cat|" + pathStr + "|" + name)
    ensures node.Leaf? ==> b == Button(PlayIcon + name, "play_cat|" + pathStr + "|" + name)
  {
    var fullPath := pathStr + "|" + name;
    if node.Category? then Button(FolderIcon + name, "cat|" + fullPath)
    else Button(PlayIcon + name, "play_cat|" + fullPath)
  }

  /** The rows for the children of a menu level, in order, skipping those whose data is over 64 bytes. */
  function ChildRows(pathStr: string, level: Level): (rows: Keyboard)
    ensures |rows| <= |level|
    decreases |level|
  {
    if |level| == 0 then []
    else
      var b := ChildButton(pathStr, level[0].0, level[0].1);
      (if |Utf8Encode(b.callbackData)| <= MaxCallbackBytes then [[b]] else []) + ChildRows(pathStr, level[1..])
  }

  /** A child's callback data is never empty, so the 64-byte test is the whole of `FitsCallback`. */
  lemma ChildFits(pathStr: string, name: string, node: Node)
    ensures var b := ChildButton(pathStr, name, node);
            FitsCallback(b.callbackData) <==> |Utf8Encode(b.callbackData)| <= MaxCallbackBytes
  {
    Utf8EncodeLength(ChildButton(pathStr, name, node).callbackData);
    Utf8LenAppend(if node.Category? then "cat|" else "play_cat|", pathStr + "|" + name);
  }

  /** The rows of a level followed by more children are the rows of each part, in order. */
  lemma {:induction false} ChildRowsAppend(pathStr: string, a: Level, b: Level)
    ensures ChildRows(pathStr, a + b) == ChildRows(pathStr, a) + ChildRows(pathStr, b)
    decreases |a|
  {
    if |a| == 0 {
      assert a + b == b;
    } else {
      assert (a + b)[0] == a[0] && (a + b)[1..] == a[1..] + b;
      ChildRowsAppend(pathStr, a[1..], b);
    }
  }

  /** One child gives its own row when its data fits and no row otherwise. */
  lemma ChildRowsOne(pathStr: string, name: string, node: Node)
    ensures var b := ChildButton(pathStr, name, node);
            ChildRows(pathStr, [(name, node)]) == if FitsCallback(b.callbackData) then [[b]] else []
  {
    ChildFits(pathStr, name, node);
    assert [(name, node)][1..] == [];
  }

  /** Every row holds one button, for a child of the level, whose data fits. */
  lemma {:induction false} ChildRowsFromLevel(pathStr: string, level: Level)
    ensures forall r: Row :: r in ChildRows(pathStr, level) ==>
              |r| == 1 && FitsCallback(r[0].callbackData) &&
              exists j :: 0 <= j < |level| && r == [ChildButton(pathStr, level[j].0, level[j].1)]
    decreases |level|
  {
    if |level| > 0 {
      var b := ChildButton(pathStr, level[0].0, level[0].1);
      var rest := ChildRows(pathStr, level[1..]);
      ChildFits(pathStr, level[0].0, level[0].1);
      ChildRowsFromLevel(pathStr, level[1..]);
      forall r: Row | r in ChildRows(pathStr, level)
        ensures |r| == 1 && FitsCallback(r[0].callbackData)
        ensures exists j :: 0 <= j < |level| && r == [ChildButton(pathStr, level[j].0, level[j].1)]
      {
        if r in rest {
          var j :| 0 <= j < |level| - 1 && r == [ChildButton(pathStr, level[1..][j].0, level[1..][j].1)];
          assert level[1..][j] == level[j + 1];
        } else {
          assert r == [b];
        }
      }
    }
  }

  /** Every child whose data fits has its row. */
  lemma {:induction false} ChildRowsKeepFitting(pathStr: string, level: Level)
    ensures forall j :: 0 <= j < |level| && FitsCallback(ChildButton(pathStr, level[j].0, level[j].1).callbackData) ==>
              [ChildButton(pathStr, level[j].0, level[j].1)] in ChildRows(pathStr, level)
    decreases |level|
  {
    if |level| > 0 {
      var rest := ChildRows(pathStr, level[1..]);
      ChildFits(pathStr, level[0].0, level[0].1);
      ChildRowsKeepFitting(pathStr, level[1..]);
      forall j | 0 <= j < |level| && FitsCallback(ChildButton(pathStr, level[j].0, level[j].1).callbackData)
        ensures [ChildButton(pathStr, level[j].0, level[j].1)] in ChildRows(pathStr, level)
      {
        if j > 0 {
          assert level[1..][j - 1] == level[j];
          assert [ChildButton(pathStr, level[j].0, level[j].1)] in rest;
        }
      }
    }
  }

  /** A child of the level has its row exactly when its callback data fits. */
  lemma ChildRowsIffFits(pathStr: string, level: Level, j: nat)
    requires j < |level|
    ensures var b := ChildButton(pathStr, level[j].0, level[j].1);
            [b] in ChildRows(pathStr, level) <==> FitsCallback(b.callbackData)
  {
    ChildRowsFromLevel(pathStr, level);
    ChildRowsKeepFitting(pathStr, level);
  }

  /** What `get_subcategory_keyboard` produces, or that it raised. */
  datatype SubMenu = Menu(keyboard: Keyboard) | MenuRaised

  /**
   * `get_subcategory_keyboard`: walk the `|`-separated path. A missing name
   * gives the single error button; a path that runs through or ends on a
   * leaf raises (`TypeError` or `AttributeError`, which are not caught);
   * otherwise the children's rows, then the back button.
   */
  function SubcategoryMenu(catalog: Level, pathStr: string): (r: SubMenu)
    ensures WalkPath(catalog, Split(pathStr, "|")).NoSuchKey? <==>
            r == Menu([[Button(ErrorLabel, "main_menu")]])
    ensures r.MenuRaised? <==> !WalkPath(catalog, Split(pathStr, "|")).AtLevel? &&
                                !WalkPath(catalog, Split(pathStr, "|")).NoSuchKey?
    ensures WalkPath(catalog, Split(pathStr, "|")).AtLevel? ==>
              var k := r.keyboard;
              |k| >= 1 && k[|k| - 1] == [Button(BackLabel, "main_menu_genres")] &&
              k[..|k| - 1] == ChildRows(pathStr, WalkPath(catalog, Split(pathStr, "|")).level)
  {
    match WalkPath(catalog, Split(pathStr, "|"))
    case NoSuchKey => Menu([[Button(ErrorLabel, "main_menu")]])
    case IndexedLeaf => MenuRaised
    case AtLeaf(_) => MenuRaised
    case AtLevel(level) =>
      var rows := ChildRows(pathStr, level);
      var k := rows + [[Button(BackLabel, "main_menu_genres")]];
      assert k[..|k| - 1] == rows;
      assert k != [[Button(ErrorLabel, "main_menu")]] by {
        assert k[|k| - 1] != [Button(ErrorLabel, "main_menu")];
      }
      Menu(k)
  }

  /**
   * A folder button the menu shows leads one level down: the path it carries
   * is the menu's path with the folder's name appended.
   */
  lemma FolderButtonLeadsDown(pathStr: string, name: string, node: Node)
    requires PlainName(name) && node.Category?
    ensures CallbackPath(ChildButton(pathStr, name, node).callbackData, "cat|") ==
            Some(Split(pathStr, "|") + [name])
  {
    var data := "cat|" + pathStr + "|" + name;
    assert data[..4] == "cat|";
    assert data[4..] == pathStr + "|" + name;
    SplitPlain(name);
    SplitAppendPlain(pathStr, name);
  }

  /** Appending `"|" + name` to a path appends `name` to its segments. */
  lemma SplitAppendPlain(s: string, name: string)
    requires PlainName(name)
    ensures Split(s + "|" + name, "|") == Split(s, "|") + [name]
  {
    var front := Split(s, "|");
    var parts := front + [name];
    JoinAppend(front, name);
    assert forall i :: 0 <= i < |parts| ==> !Contains(parts[i], "|") by {
      forall i | 0 <= i < |parts| ensures !Contains(parts[i], "|") {
        if i < |front| {
          assert parts[i] == front[i];
        }
      }
    }
    SplitJoin(parts, "|");
  }

  /** `Join` of a non-empty list and one more piece. */
  lemma {:induction false} JoinAppend(parts: seq<string>, last: string)
    requires |parts| > 0
    ensures Join(parts + [last], "|") == Join(parts, "|") + "|" + last
  {
    if |parts| > 1 {
      assert (parts + [last])[1..] == parts[1..] + [last];
      JoinAppend(parts[1..], last);
    } else {
      assert parts + [last] == [parts[0], last];
    }
  }

  // ---------------------------------------------------------------------
  // Search results
  // ---------------------------------------------------------------------

  /** The text of the `idx`-th result: "i. artist - title (m:ss)", or "i. title (m:ss)" without an artist. */
  function TrackText(idx: nat, t: TrackInfo): string {
    var dur := " (" + Radio.FormatDuration(t.duration) + ")";
    if t.artist != "" then ShowNat(idx) + ". " + t.artist + " - " + t.title + dur
    else ShowNat(idx) + ". " + t.title + dur
  }

  /** `get_track_search_keyboard`: one row per track, numbered from 1, selecting it by id. */
  function TrackSearchKeyboard(tracks: seq<TrackInfo>): (k: Keyboard)
    ensures |k| == |tracks|
    ensures forall i :: 0 <= i < |tracks| ==>
              k[i] == [Button(TrackText(i + 1, tracks[i]), "sel_track|" + tracks[i].identifier)]
  {
    var k := TrackRows(tracks, 1);
    assert forall i :: 0 <= i < |tracks| ==>
             k[i] == [Button(TrackText(i + 1, tracks[i]), "sel_track|" + tracks[i].identifier)] by {
      forall i | 0 <= i < |tracks|
        ensures k[i] == [Button(TrackText(i + 1, tracks[i]), "sel_track|" + tracks[i].identifier)]
      {
        TrackRowAt(tracks, 1, i);
      }
    }
    k
  }

  /** The loop `for i, track in enumerate(tracks, first)`: one row per track. */
  function TrackRows(tracks: seq<TrackInfo>, first: nat): (k: Keyboard)
    ensures |k| == |tracks|
    decreases |tracks|
  {
    if |tracks| == 0 then []
    else [[Button(TrackText(first, tracks[0]), "sel_track|" + tracks[0].identifier)]] + TrackRows(tracks[1..], first + 1)
  }

  /** Row `i` of the loop shows track `i` under the number `first + i`. */
  lemma {:induction false} TrackRowAt(tracks: seq<TrackInfo>, first: nat, i: nat)
    requires i < |tracks|
    ensures TrackRows(tracks, first)[i] == [Button(TrackText(first + i, tracks[i]), "sel_track|" + tracks[i].identifier)]
    decreases i
  {
    if i > 0 {
      TrackRowAt(tracks[1..], first + 1, i - 1);
      assert tracks[1..][i - 1] == tracks[i];
    }
  }

  /**
   * Each result row leads back to its track: the text after the first `|`
   * of its callback is the track's id, and its text starts with its number.
   */
  lemma TrackRowSelectsTrack(tracks: seq<TrackInfo>, i: nat)
    requires i < |tracks|
    ensures Partition(TrackSearchKeyboard(tracks)[i][0].callbackData, "|") == Some(("sel_track", tracks[i].identifier))
    ensures StartsWith(TrackSearchKeyboard(tracks)[i][0].text, ShowNat(i + 1) + ". ")
  {
    SelectionData(tracks[i].identifier);
    TrackTextNumbered(i + 1, tracks[i]);
  }

  lemma SelectionData(id: string)
    ensures Partition("sel_track|" + id, "|") == Some(("sel_track", id))
  {
    AbsentChar("sel_track", '|');
    assert "sel_track|" + id == "sel_track" + "|" + id;
    PartitionAfter("sel_track", "|", id);
  }

  lemma TrackTextNumbered(idx: nat, t: TrackInfo)
    ensures StartsWith(TrackText(idx, t), ShowNat(idx) + ". ")
  {
    var dur := " (" + Radio.FormatDuration(t.duration) + ")";
    var head := ShowNat(idx) + ". ";
    var rest := if t.artist != "" then t.artist + " - " + t.title + dur else t.title + dur;
    assert TrackText(idx, t) == head + rest;
    Radio.StartsWithConcat(head, rest);
  }

  /** The number prefix of a result's text, "i. ". */
  function NumberPrefix(idx: nat): string {
    ShowNat(idx) + ". "
  }

  /** The duration suffix of a result's text, " (m:ss)". */
  function DurationSuffix(t: TrackInfo): string {
    " (" + Radio.FormatDuration(t.duration) + ")"
  }

  /** Text that neither holds " - " nor ends in " -" (so nothing appended after a space completes one). */
  predicate NoLooseSeparator(s: string) {
    !Contains(s, TitleSeparator) && !(|s| >= 2 && s[|s| - 2..] == " -")
  }

  /**
   * A result's text read back: after its "i. " prefix, the first " - "
   * ends a non-empty artist, so the label splits into the artist and the
   * title with its duration.
   */
  lemma TrackTextShowsArtist(idx: nat, t: TrackInfo)
    requires t.artist != "" && NoLooseSeparator(t.artist)
    ensures var text := TrackText(idx, t);
            StartsWith(text, NumberPrefix(idx)) &&
            Partition(text[|NumberPrefix(idx)|..], TitleSeparator) == Some((t.artist, t.title + DurationSuffix(t)))
  {
    var p, rest := NumberPrefix(idx), t.title + DurationSuffix(t);
    var body := t.artist + TitleSeparator + rest;
    assert TrackText(idx, t) == p + body;
    assert (p + body)[..|p|] == p && (p + body)[|p|..] == body;
    SplitAfterArtist(t.artist, rest);
  }

  /** `a + " - " + b` splits at the " - " after `a` when `a` has no loose separator. */
  lemma SplitAfterArtist(a: string, b: string)
    requires NoLooseSeparator(a)
    ensures Partition(a + TitleSeparator + b, TitleSeparator) == Some((a, b))
  {
    var s := a + TitleSeparator + b;
    FirstSeparatorAfter(a, b);
    assert s[..|a|] == a;
    assert s[|a| + |TitleSeparator|..] == b;
  }

  /**
   * Without an artist the text after the prefix is the title and the
   * duration, with no " - " in it for a title that has none of its own:
   * nothing reads as an artist.
   */
  lemma TrackTextOmitsArtist(idx: nat, t: TrackInfo)
    requires t.artist == "" && NoLooseSeparator(t.title)
    ensures var text := TrackText(idx, t);
            StartsWith(text, NumberPrefix(idx)) &&
            text[|NumberPrefix(idx)|..] == t.title + DurationSuffix(t) &&
            Partition(text[|NumberPrefix(idx)|..], TitleSeparator).None?
  {
    var p, body := NumberPrefix(idx), t.title + DurationSuffix(t);
    assert TrackText(idx, t) == p + body;
    assert (p + body)[..|p|] == p && (p + body)[|p|..] == body;
    var d := Radio.FormatDuration(t.duration);
    Radio.FormatDurationChars(t.duration);
    assert forall j :: 0 <= j < |d| ==> d[j] != ' ';
    NoSeparatorBeforeDuration(t.title, d);
    assert body == t.title + " (" + d + ")";
  }

  /** " (" + d + ")" with no space in `d` cannot complete or hold a " - " after a clean title. */
  lemma NoSeparatorBeforeDuration(title: string, d: string)
    requires NoLooseSeparator(title)
    requires forall j :: 0 <= j < |d| ==> d[j] != ' '
    ensures !Contains(title + " (" + d + ")", TitleSeparator)
  {
    var s := title + " (" + d + ")";
    var n := |title|;
    forall i | 0 <= i <= |s| ensures !OccursAt(s, TitleSeparator, i) {
      if i + 3 <= |s| {
        if i + 3 <= n {
          assert s[i..i + 3] == title[i..i + 3];
          assert !OccursAt(title, TitleSeparator, i);
        } else if i == n - 2 {
          assert s[i..i + 3][..2] == title[n - 2..];
        } else if i == n - 1 {
          assert s[i..i + 3][1] == s[n] == ' ';
        } else if i == n {
          assert s[i..i + 3][1] == s[n + 1] == '(';
        } else if i == n + 1 {
          assert s[i..i + 3][0] == s[n + 1] == '(';
        } else {
          assert s[i..i + 3][0] == s[i] == d[i - n - 2];
        }
      }
    }
  }

  // ---------------------------------------------------------------------
  // Pagination
  // ---------------------------------------------------------------------

  /** The callback of the button for page `page`: "page|<page>|<base>". */
  function PageData(page: int, base: string): string {
    "page|" + ShowInt(page) + "|" + base
  }

  /**
   * `get_pagination_keyboard`: one row holding a previous-page button iff
   * there is an earlier page, the "current/total" button, and a next-page
   * button iff there is a later page.
   */
  function PaginationKeyboard(current: int, total: int, base: string): (k: Keyboard)
    ensures |k| == 1
    ensures |k[0]| == 1 + (if current > 1 then 1 else 0) + (if current < total then 1 else 0)
    ensures (current > 1) == (k[0][0] == Button(PrevLabel, PageData(current - 1, base)))
    ensures (current < total) == (k[0][|k[0]| - 1] == Button(NextLabel, PageData(current + 1, base)))
    ensures Button(PageIcon + ShowInt(current) + "/" + ShowInt(total), "noop") in k[0]
  {
    var prev := if current > 1 then [Button(PrevLabel, PageData(current - 1, base))] else [];
    var middle := [Button(PageIcon + ShowInt(current) + "/" + ShowInt(total), "noop")];
    var next := if current < total then [Button(NextLabel, PageData(current + 1, base))] else [];
    var row := prev + middle + next;
    assert row[|prev|] == middle[0];
    [row]
  }

  /** A page callback carries its page number and the base value back out. */
  lemma PageDataRoundTrip(page: int, base: string)
    ensures Partition(PageData(page, base), "|") == Some(("page", ShowInt(page) + "|" + base))
    ensures Partition(ShowInt(page) + "|" + base, "|") == Some((ShowInt(page), base))
    ensures ParseInt(ShowInt(page)) == Some(page)
  {
    AbsentChar("page", '|');
    assert PageData(page, base) == "page" + "|" + (ShowInt(page) + "|" + base);
    PartitionAfter("page", "|", ShowInt(page) + "|" + base);
    ShowIntChars(page);
    AbsentChar(ShowInt(page), '|');
    PartitionAfter(ShowInt(page), "|", base);
    ParseShowInt(page);
  }
}

=== FILE: models.dfy ===
/**
 * Track metadata (models.py): the `TrackInfo` record, the `DownloadResult`
 * record and the normalisation of a yt-dlp info dictionary into a
 * `TrackInfo` (`TrackInfo.from_yt_info`).
 */
module Models {
  import opened Wrappers
  import opened Text

  datatype Source = YouTube | Spotify | SoundCloud

  /** A track descriptor; `duration` is in whole seconds, 0 meaning unknown. */
  datatype TrackInfo = TrackInfo(
    identifier: string,
    title: string,
    artist: string,
    duration: int,
    source: Source,
    thumbnailUrl: Option<string>)

  /** The outcome of resolving a track id into something playable. */
  datatype DownloadResult = DownloadResult(
    success: bool,
    filePath: Option<string>,
    fileId: Option<string>,
    trackInfo: Option<TrackInfo>,
    errorMessage: Option<string>)

  /**
   * The keys of a yt-dlp info dictionary that `from_yt_info` reads.
   * `None` stands for a missing key.
   */
  datatype YtInfo = YtInfo(
    id: Option<string>,
    url: Option<string>,
    title: Option<string>,
    artist: Option<string>,
    creator: Option<string>,
    uploader: Option<string>,
    channel: Option<string>,
    duration: Option<int>,
    thumbnail: Option<string>)

  /** Python truthiness of an optional string: present and non-empty. */
  predicate Truthy(o: Option<string>) {
    o.Some? && o.value != ""
  }

  const WatchMarker := "watch?v="
  const ShortMarker := "youtu.be/"

  /** The text after the last `marker` in `url`, cut at the first `stop` (`url.split(marker)[-1].split(stop)[0]`). */
  function Segment(url: string, marker: string, stop: string): (id: string)
    requires |marker| > 0 && |stop| > 0
    ensures !Contains(id, stop)
  {
    var after := Split(url, marker);
    Split(after[|after| - 1], stop)[0]
  }

  /**
   * The video id `from_yt_info` settles on, or "" when none: the `id` key,
   * else the `watch?v=` parameter of the url, else its `youtu.be/` path.
   */
  function VideoId(info: YtInfo): string {
    if Truthy(info.id) then info.id.value
    else
      var url := info.url.GetOr("");
      if Contains(url, WatchMarker) then Segment(url, WatchMarker, "&")
      else if Contains(url, ShortMarker) then Segment(url, ShortMarker, "?")
      else ""
  }

  /** The index of the first truthy candidate (Python's `a or b or ...`), if any. */
  function FirstTruthy(cands: seq<Option<string>>): (r: Option<nat>)
    ensures r.Some? ==> r.value < |cands| && Truthy(cands[r.value])
    ensures r.Some? ==> forall j :: 0 <= j < r.value ==> !Truthy(cands[j])
    ensures r.None? ==> forall j :: 0 <= j < |cands| ==> !Truthy(cands[j])
  {
    if |cands| == 0 then None
    else if Truthy(cands[0]) then Some(0)
    else match FirstTruthy(cands[1..])
      case None => None
      case Some(i) => Some(i + 1)
  }

  /** `info.get('artist') or info.get('creator') or info.get('uploader') or info.get('channel') or 'Unknown'`. */
  function ArtistOf(info: YtInfo): (r: string)
    ensures Truthy(info.artist) ==> r == info.artist.value
    ensures !Truthy(info.artist) && Truthy(info.creator) ==> r == info.creator.value
    ensures !Truthy(info.artist) && !Truthy(info.creator) && Truthy(info.uploader) ==> r == info.uploader.value
    ensures !Truthy(info.artist) && !Truthy(info.creator) && !Truthy(info.uploader) && Truthy(info.channel) ==>
              r == info.channel.value
    ensures !Truthy(info.artist) && !Truthy(info.creator) && !Truthy(info.uploader) && !Truthy(info.channel) ==>
              r == "Unknown"
    ensures r != ""
  {
    var cands := [info.artist, info.creator, info.uploader, info.channel];
    assert cands[0] == info.artist && cands[1] == info.creator;
    assert cands[2] == info.uploader && cands[3] == info.channel;
    match FirstTruthy(cands)
    case Some(i) => cands[i].value
    case None => "Unknown"
  }

  const TitleSeparator := " - "

  /** The title `from_yt_info` settles on before any split: the `title` key, or "Unknown". */
  function TitleOf(info: YtInfo): string {
    info.title.GetOr("Unknown")
  }

  /** Whether the title is read as "Artist - Title": it holds " - " and the artist is a placeholder. */
  predicate SplitsTitle(title: string, artist: string) {
    Contains(title, TitleSeparator) && artist in ["Unknown", "Various Artists"]
  }

  /**
   * `TrackInfo.from_yt_info`: `None` for a falsy dictionary or when no video
   * id can be found; otherwise a YouTube track whose "Artist - Title" title
   * is split when the artist is unknown.
   */
  function FromYtInfo(info: Option<YtInfo>): (r: Option<TrackInfo>)
    ensures info.None? ==> r.None?
    ensures r.Some? <==> info.Some? && VideoId(info.value) != ""
    ensures r.Some? ==> r.value.identifier == VideoId(info.value)
    ensures r.Some? ==> r.value.source == YouTube && r.value.thumbnailUrl == info.value.thumbnail
    ensures r.Some? ==> r.value.duration == (if info.value.duration.Some? then info.value.duration.value else 0)
    ensures r.Some? && !SplitsTitle(TitleOf(info.value), ArtistOf(info.value)) ==>
              r.value.artist == ArtistOf(info.value) && r.value.title == TitleOf(info.value)
    ensures r.Some? && SplitsTitle(TitleOf(info.value), ArtistOf(info.value)) ==>
              var title := TitleOf(info.value);
              var i := Find(title, TitleSeparator).value;
              i + |TitleSeparator| <= |title| &&
              r.value.artist == Strip(title[..i]) && r.value.title == Strip(title[i + |TitleSeparator|..])
  {
    match info
    case None => None
    case Some(i) =>
      var vid := VideoId(i);
      if vid == "" then None
      else
        var title := i.title.GetOr("Unknown");
        var artist := ArtistOf(i);
        var duration := i.duration.GetOr(0);
        var (artist', title') :=
          if Contains(title, TitleSeparator) && artist in ["Unknown", "Various Artists"] then
            var (a, t) := Partition(title, TitleSeparator).value;
            (Strip(a), Strip(t))
          else (artist, title);
        Some(TrackInfo(vid, title', artist', duration, YouTube, i.thumbnail))
  }

  lemma MarkersBorderless()
    ensures Borderless(WatchMarker) && Borderless(ShortMarker)
    ensures Borderless("&") && Borderless("?")
  {
    assert Borderless(WatchMarker) by {
      forall k | 0 < k < |WatchMarker|
        ensures WatchMarker[..k] != WatchMarker[|WatchMarker| - k..]
      {
        assert WatchMarker[..k][0] == 'w';
        assert WatchMarker[|WatchMarker| - k..][0] != 'w';
      }
    }
    assert Borderless(ShortMarker) by {
      forall k | 0 < k < |ShortMarker|
        ensures ShortMarker[..k] != ShortMarker[|ShortMarker| - k..]
      {
        assert ShortMarker[..k][0] == 'y';
        assert ShortMarker[|ShortMarker| - k..][0] != 'y';
      }
    }
  }

  /**
   * A watch URL `prefix + "watch?v=" + id + rest`, where `rest` is empty or
   * starts a further `&` parameter, yields the track id `id` when the
   * dictionary has no `id` key.
   */
  lemma WatchUrlGivesId(info: YtInfo, prefix: string, id: string, rest: string)
    requires !Truthy(info.id)
    requires info.url == Some(prefix + WatchMarker + id + rest)
    requires id != "" && !Contains(id, "&")
    requires rest == "" || StartsWith(rest, "&")
    requires !Contains(id + rest, WatchMarker)
    ensures FromYtInfo(Some(info)).Some?
    ensures FromYtInfo(Some(info)).value.identifier == id
  {
    MarkersBorderless();
    var url := prefix + WatchMarker + id + rest;
    assert url == prefix + WatchMarker + (id + rest);
    assert url[|prefix|..|prefix| + |WatchMarker|] == WatchMarker;
    assert OccursAt(url, WatchMarker, |prefix|);
    SplitLastAfter(prefix, WatchMarker, id + rest);
    SplitHeadBefore(id, rest, "&");
  }

  /**
   * A short URL `prefix + "youtu.be/" + id + rest`, with no `watch?v=` in it
   * and `rest` empty or starting a `?` query, yields the track id `id`.
   */
  lemma ShortUrlGivesId(info: YtInfo, prefix: string, id: string, rest: string)
    requires !Truthy(info.id)
    requires info.url == Some(prefix + ShortMarker + id + rest)
    requires !Contains(prefix + ShortMarker + id + rest, WatchMarker)
    requires id != "" && !Contains(id, "?")
    requires rest == "" || StartsWith(rest, "?")
    requires !Contains(id + rest, ShortMarker)
    ensures FromYtInfo(Some(info)).Some?
    ensures FromYtInfo(Some(info)).value.identifier == id
  {
    MarkersBorderless();
    var url := prefix + ShortMarker + id + rest;
    assert url == prefix + ShortMarker + (id + rest);
    assert url[|prefix|..|prefix| + |ShortMarker|] == ShortMarker;
    assert OccursAt(url, ShortMarker, |prefix|);
    SplitLastAfter(prefix, ShortMarker, id + rest);
    SplitHeadBefore(id, rest, "?");
  }

  /**
   * With a placeholder artist ("Unknown", as when no artist, creator,
   * uploader or channel is given, or "Various Artists"), a title "A - B"
   * where A holds no " - " becomes artist A and title B, both stripped.
   */
  lemma ArtistTitleSplit(info: YtInfo, a: string, b: string)
    requires VideoId(info) != ""
    requires ArtistOf(info) in ["Unknown", "Various Artists"]
    requires info.title == Some(a + TitleSeparator + b)
    requires !Contains(a, TitleSeparator)
    requires !(|a| >= 2 && a[|a| - 2..] == " -")
    ensures FromYtInfo(Some(info)).Some?
    ensures FromYtInfo(Some(info)).value.artist == Strip(a)
    ensures FromYtInfo(Some(info)).value.title == Strip(b)
  {
    var title := a + TitleSeparator + b;
    FirstSeparatorAfter(a, b);
    assert title[..|a|] == a;
    assert title[|a| + |TitleSeparator|..] == b;
  }

  /** A compilation credited to "Various Artists" takes its artist from the title. */
  lemma VariousArtistsSplit(info: YtInfo, a: string, b: string)
    requires VideoId(info) != ""
    requires info.artist == Some("Various Artists")
    requires info.title == Some(a + TitleSeparator + b)
    requires !Contains(a, TitleSeparator)
    requires !(|a| >= 2 && a[|a| - 2..] == " -")
    ensures FromYtInfo(Some(info)).value.artist == Strip(a)
    ensures FromYtInfo(Some(info)).value.title == Strip(b)
  {
    ArtistTitleSplit(info, a, b);
  }

  /** A dictionary with no `title` key gives the title "Unknown" and keeps its artist. */
  lemma MissingTitleIsUnknown(info: YtInfo)
    requires VideoId(info) != "" && info.title.None?
    ensures FromYtInfo(Some(info)).value.title == "Unknown"
    ensures FromYtInfo(Some(info)).value.artist == ArtistOf(info)
  {
    assert !Contains("Unknown", TitleSeparator) by {
      LacksCharOfSep("Unknown", TitleSeparator, 1);
    }
  }

  /** In `a + " - " + b` the first " - " is the one after `a`, given `a` neither holds nor ends in one. */
  lemma FirstSeparatorAfter(a: string, b: string)
    requires !Contains(a, TitleSeparator)
    requires !(|a| >= 2 && a[|a| - 2..] == " -")
    ensures Find(a + TitleSeparator + b, TitleSeparator) == Some(|a|)
  {
    var title := a + TitleSeparator + b;
    assert title[|a|..|a| + |TitleSeparator|] == TitleSeparator;
    assert OccursAt(title, TitleSeparator, |a|);
    forall j | 0 <= j < |a|
      ensures !OccursAt(title, TitleSeparator, j)
    {
      if j + 3 <= |a| {
        assert title[j..j + 3] == a[j..j + 3];
        assert !OccursAt(a, TitleSeparator, j);
      } else if j + 2 == |a| {
        assert title[j..j + 2] == a[|a| - 2..];
        assert title[j..j + 3][..2] == title[j..j + 2];
      } else {
        assert title[j + 1] == ' ';
        assert title[j..j + 3][1] == title[j + 1];
      }
    }
  }

  /** A known artist keeps the title whole, even when it reads "A - B". */
  lemma KnownArtistKeepsTitle(info: YtInfo)
    requires VideoId(info) != ""
    requires Truthy(info.artist) && info.artist.value != "Unknown" && info.artist.value != "Various Artists"
    ensures FromYtInfo(Some(info)).Some?
    ensures FromYtInfo(Some(info)).value.artist == info.artist.value
    ensures FromYtInfo(Some(info)).value.title == info.title.GetOr("Unknown")
  {
    var cands := [info.artist, info.creator, info.uploader, info.channel];
    assert FirstTruthy(cands) == Some(0);
    assert ArtistOf(info) == info.artist.value;
    assert ArtistOf(info) !in ["Unknown", "Various Artists"];
  }
}

=== FILE: ordering.dfy ===
/**
 * Python's built-in ordering of strings and of lists of strings, and
 * `sorted` on lists of string lists, as auth.py uses them to order the
 * `key=value` pairs of a Mini App's init data.
 */
module Ordering {

  /** `a <= b` on Python strings: code point by code point, a prefix first. */
  predicate StrLe(a: string, b: string)
    decreases |a|
  {
    |a| == 0 || (|b| > 0 && (a[0] < b[0] || (a[0] == b[0] && StrLe(a[1..], b[1..]))))
  }

  /** `a < b` on Python strings. */
  predicate StrLt(a: string, b: string) {
    StrLe(a, b) && a != b
  }

  lemma {:induction false} StrLeTotal(a: string, b: string)
    ensures StrLe(a, b) || StrLe(b, a)
    decreases |a|
  {
    if |a| > 0 && |b| > 0 && a[0] == b[0] {
      StrLeTotal(a[1..], b[1..]);
    }
  }

  lemma {:induction false} StrLeAntisymmetric(a: string, b: string)
    requires StrLe(a, b) && StrLe(b, a)
    ensures a == b
    decreases |a|
  {
    if |a| > 0 {
      StrLeAntisymmetric(a[1..], b[1..]);
      assert a == [a[0]] + a[1..] && b == [b[0]] + b[1..];
    }
  }

  lemma {:induction false} StrLeTransitive(a: string, b: string, c: string)
    requires StrLe(a, b) && StrLe(b, c)
    ensures StrLe(a, c)
    decreases |a|
  {
    if |a| > 0 && a[0] == b[0] && b[0] == c[0] {
      StrLeTransitive(a[1..], b[1..], c[1..]);
    }
  }

  /** `a <= b` on Python lists of strings: element by element, a prefix first. */
  predicate ListLe(a: seq<string>, b: seq<string>)
    decreases |a|
  {
    |a| == 0 || (|b| > 0 && (StrLt(a[0], b[0]) || (a[0] == b[0] && ListLe(a[1..], b[1..]))))
  }

  lemma {:induction false} ListLeTotal(a: seq<string>, b: seq<string>)
    ensures ListLe(a, b) || ListLe(b, a)
    decreases |a|
  {
    if |a| > 0 && |b| > 0 {
      StrLeTotal(a[0], b[0]);
      if a[0] == b[0] {
        ListLeTotal(a[1..], b[1..]);
      }
    }
  }

  lemma {:induction false} ListLeAntisymmetric(a: seq<string>, b: seq<string>)
    requires ListLe(a, b) && ListLe(b, a)
    ensures a == b
    decreases |a|
  {
    if |a| > 0 {
      if StrLt(a[0], b[0]) || StrLt(b[0], a[0]) {
        StrLeAntisymmetric(a[0], b[0]);
      } else {
        ListLeAntisymmetric(a[1..], b[1..]);
        assert a == [a[0]] + a[1..] && b == [b[0]] + b[1..];
      }
    }
  }

  lemma {:induction false} ListLeTransitive(a: seq<string>, b: seq<string>, c: seq<string>)
    requires ListLe(a, b) && ListLe(b, c)
    ensures ListLe(a, c)
    decreases |a|
  {
    if |a| > 0 {
      if a[0] == b[0] && b[0] == c[0] {
        ListLeTransitive(a[1..], b[1..], c[1..]);
      } else {
        StrLeTotal(a[0], a[0]);
        StrLeTotal(b[0], b[0]);
        assert StrLe(a[0], b[0]) && StrLe(b[0], c[0]);
        StrLeTransitive(a[0], b[0], c[0]);
        if a[0] == c[0] {
          StrLeAntisymmetric(b[0], c[0]);
        }
      }
    }
  }

  /** A list whose first element is `k` sorts after the one-element list `[k]` and only equals it when it is it. */
  lemma SingletonFirst(k: string, a: seq<string>)
    requires |a| >= 1 && a[0] == k
    ensures ListLe([k], a)
    ensures ListLe(a, [k]) ==> a == [k]
  {
    assert [k][1..] == [];
    if ListLe(a, [k]) {
      ListLeAntisymmetric(a, [k]);
    }
  }

  // ---------------------------------------------------------------------
  // sorted
  // ---------------------------------------------------------------------

  predicate IsSorted(s: seq<seq<string>>) {
    forall i, j :: 0 <= i < j < |s| ==> ListLe(s[i], s[j])
  }

  /** Insert `x` into sorted `s`, before the first element it does not come after. */
  function Insert(x: seq<string>, s: seq<seq<string>>): (r: seq<seq<string>>)
    requires IsSorted(s)
    ensures IsSorted(r)
    ensures multiset(r) == multiset(s) + multiset{x}
    ensures |r| == |s| + 1
  {
    if |s| == 0 then [x]
    else if ListLe(x, s[0]) then
      forall j | 0 < j < |s| + 1
        ensures ListLe(([x] + s)[0], ([x] + s)[j])
      {
        if j > 1 {
          ListLeTransitive(x, s[0], s[j - 1]);
        }
      }
      [x] + s
    else
      ListLeTotal(x, s[0]);
      var rest := Insert(x, s[1..]);
      var r := [s[0]] + rest;
      assert s == [s[0]] + s[1..];
      forall j | 0 < j < |r|
        ensures ListLe(s[0], r[j])
      {
        assert r[j] in multiset(rest);
        assert r[j] == x || r[j] in s[1..];
      }
      r
  }

  /** Python's `sorted` on a list of string lists. */
  function Sort(s: seq<seq<string>>): (r: seq<seq<string>>)
    ensures IsSorted(r)
    ensures multiset(r) == multiset(s)
    ensures |r| == |s|
  {
    if |s| == 0 then []
    else
      assert s == [s[0]] + s[1..];
      Insert(s[0], Sort(s[1..]))
  }

  /** A sorted list's first element comes no later than anything in it. */
  lemma SortedHeadIsLeast(s: seq<seq<string>>, x: seq<string>)
    requires IsSorted(s) && x in s
    ensures ListLe(s[0], x)
  {
    var i :| 0 <= i < |s| && s[i] == x;
    if i == 0 {
      ListLeTotal(x, x);
    }
  }

  /** The ordering is total, so there is one sorted arrangement of any list: `sorted` ignores the input order. */
  lemma {:induction false} SortedUnique(a: seq<seq<string>>, b: seq<seq<string>>)
    requires IsSorted(a) && IsSorted(b) && multiset(a) == multiset(b)
    ensures a == b
    decreases |a|
  {
    assert |a| == |multiset(a)| == |multiset(b)| == |b|;
    if |a| > 0 {
      SortedSameHead(a, b);
      DropHead(a, b);
      SortedTail(a);
      SortedTail(b);
      SortedUnique(a[1..], b[1..]);
      assert a == [a[0]] + a[1..] && b == [b[0]] + b[1..];
    }
  }

  /** Two sorted arrangements of the same elements start with the same element. */
  lemma SortedSameHead(a: seq<seq<string>>, b: seq<seq<string>>)
    requires IsSorted(a) && IsSorted(b) && multiset(a) == multiset(b) && |a| > 0
    ensures |b| > 0 && a[0] == b[0]
  {
    assert a[0] in multiset(a);
    assert a[0] in b;
    assert b[0] in multiset(b);
    assert b[0] in a;
    SortedHeadIsLeast(a, b[0]);
    SortedHeadIsLeast(b, a[0]);
    ListLeAntisymmetric(a[0], b[0]);
  }

  /** Removing an equal first element keeps the contents equal. */
  lemma DropHead<T>(a: seq<T>, b: seq<T>)
    requires multiset(a) == multiset(b) && |a| > 0 && |b| > 0 && a[0] == b[0]
    ensures multiset(a[1..]) == multiset(b[1..])
  {
    assert a == [a[0]] + a[1..] && b == [b[0]] + b[1..];
    RemovePrepended(a[0], a[1..]);
    RemovePrepended(a[0], b[1..]);
  }

  lemma RemovePrepended<T>(e: T, s: seq<T>)
    ensures multiset([e] + s) - multiset{e} == multiset(s)
  {
    assert multiset([e] + s) == multiset{e} + multiset(s);
  }

  lemma SortedTail(a: seq<seq<string>>)
    requires IsSorted(a) && |a| > 0
    ensures IsSorted(a[1..])
  {
    forall i, j | 0 <= i < j < |a| - 1
      ensures ListLe(a[1..][i], a[1..][j])
    {
      assert a[1..][i] == a[i + 1] && a[1..][j] == a[j + 1];
    }
  }

  /** Sorting two arrangements of the same elements gives the same list. */
  lemma SortIgnoresOrder(a: seq<seq<string>>, b: seq<seq<string>>)
    requires multiset(a) == multiset(b)
    ensures Sort(a) == Sort(b)
  {
    SortedUnique(Sort(a), Sort(b));
  }
}

=== FILE: player.dfy ===
/**
 * The web player's transport (webapp/js/player.js): which track is
 * current, whether it plays, the audio element's source, and the bass
 * boost flag. The store fields the player reads and writes
 * (`isPlaying`, `currentTrackIndex`, `playlist`) are fields of `Deck`.
 * Whether the browser lets `audio.play()` start is a parameter: `allowed`.
 */
module Player {
  import opened Wrappers
  import opened Text

  /** A track as the web player receives it; the tracks the AI endpoint makes have no identifier. */
  datatype WebTrack = WebTrack(identifier: Option<string>, title: string, artist: string)

  datatype Deck = Deck(isPlaying: bool, index: int, playlist: seq<WebTrack>,
                       src: string, paused: bool, bassBoosted: bool)

  /** The store's start-up values and a fresh audio element. */
  const Initial: Deck := Deck(false, -1, [], "", true, false)

  /**
   * The index is -1 or above, and names a track whenever there are tracks.
   * Loading an empty playlist may leave a stale index behind, which is
   * harmless while the list is empty.
   */
  predicate Valid(d: Deck) {
    d.index >= -1 && (|d.playlist| > 0 ==> d.index < |d.playlist|)
  }

  const AudioPrefix: string := "/audio/"
  const AudioSuffix: string := ".mp3"

  /** `${track.identifier}` in a template literal: a missing identifier reads "undefined". */
  function IdText(t: WebTrack): string {
    t.identifier.GetOr("undefined")
  }

  /** `/audio/${track.identifier}.mp3`. */
  function AudioSrc(t: WebTrack): (src: string)
    ensures StartsWith(src, AudioPrefix)
    ensures |src| == |AudioPrefix| + |IdText(t)| + |AudioSuffix|
  {
    AudioPrefix + IdText(t) + AudioSuffix
  }

  /** The identifier text back out of an audio source. */
  function AudioId(src: string): Option<string> {
    if |src| >= |AudioPrefix| + |AudioSuffix| && StartsWith(src, AudioPrefix) &&
       src[|src| - |AudioSuffix|..] == AudioSuffix
    then Some(src[|AudioPrefix|..|src| - |AudioSuffix|])
    else None
  }

  /** The source names the track's identifier and nothing else, so two tracks share a source only if they share it. */
  lemma AudioSrcRoundTrip(t: WebTrack)
    ensures AudioId(AudioSrc(t)) == Some(IdText(t))
  {
    var src := AudioSrc(t);
    assert src[|AudioPrefix|..|src| - |AudioSuffix|] == IdText(t);
    assert src[|src| - |AudioSuffix|..] == AudioSuffix;
  }

  /** `safePlay`: the `play` event sets `isPlaying`; a refused play clears it. */
  function SafePlay(d: Deck, allowed: bool): (r: Deck)
    ensures r.isPlaying == allowed && r.paused == (d.paused && !allowed)
    ensures r.(isPlaying := d.isPlaying, paused := d.paused) == d
  {
    if allowed then d.(paused := false, isPlaying := true) else d.(isPlaying := false)
  }

  /** `audio.pause()`; the `pause` event clears `isPlaying`. */
  function Pause(d: Deck): (r: Deck)
    ensures r.paused && !r.isPlaying
    ensures r.(isPlaying := d.isPlaying, paused := d.paused) == d
  {
    d.(paused := true, isPlaying := false)
  }

  /**
   * `playTrack(index)`: an index outside the playlist changes nothing;
   * otherwise the track becomes current, its source is loaded and it plays
   * if the browser allows.
   */
  function PlayTrack(d: Deck, i: int, allowed: bool): (r: Deck)
    ensures (i < 0 || i >= |d.playlist|) ==> r == d
    ensures 0 <= i < |d.playlist| ==>
              r.index == i && r.src == AudioSrc(d.playlist[i]) &&
              r.isPlaying == allowed && r.paused == !allowed &&
              r.playlist == d.playlist && r.bassBoosted == d.bassBoosted
  {
    if i < 0 || i >= |d.playlist| then d
    else
      var loaded := d.(index := i, isPlaying := true, src := AudioSrc(d.playlist[i]), paused := true);
      SafePlay(loaded, allowed)
  }

  /** `nextTrack`: one on, from the last track back to the first. */
  function NextTrack(d: Deck, allowed: bool): (r: Deck)
    ensures |d.playlist| == 0 ==> r == d
  {
    var next := d.index + 1;
    PlayTrack(d, if next >= |d.playlist| then 0 else next, allowed)
  }

  /** `prevTrack`: one back, from the first track (or none) to the last. */
  function PrevTrack(d: Deck, allowed: bool): (r: Deck)
    ensures |d.playlist| == 0 ==> r == d
  {
    var prev := d.index - 1;
    PlayTrack(d, if prev < 0 then |d.playlist| - 1 else prev, allowed)
  }

  /** `togglePlay`: when paused, start the first track if none was chosen, else resume; when playing, pause. */
  function TogglePlay(d: Deck, allowed: bool): (r: Deck)
    ensures !d.paused ==> r == Pause(d)
    ensures d.paused && d.index == -1 && |d.playlist| > 0 ==> r.index == 0 && r.src == AudioSrc(d.playlist[0])
    ensures d.paused && !(d.index == -1 && |d.playlist| > 0) ==> r == SafePlay(d, allowed)
  {
    if d.paused then
      if d.index == -1 && |d.playlist| > 0 then PlayTrack(d, 0, allowed) else SafePlay(d, allowed)
    else Pause(d)
  }

  /** `toggleBassBoost`: flip the flag and return its new value. */
  function ToggleBassBoost(d: Deck): (r: (Deck, bool))
    ensures r.1 == r.0.bassBoosted && r.1 != d.bassBoosted
    ensures r.0.(bassBoosted := d.bassBoosted) == d
  {
    var on := !d.bassBoosted;
    (d.(bassBoosted := on), on)
  }

  /** Two flips give back the deck as it was. */
  lemma BassBoostTwice(d: Deck)
    ensures ToggleBassBoost(ToggleBassBoost(d).0).0 == d
  {
  }

  /** Every transport action keeps the index valid. */
  lemma ActionsKeepValid(d: Deck, i: int, allowed: bool)
    requires Valid(d)
    ensures Valid(PlayTrack(d, i, allowed))
    ensures Valid(NextTrack(d, allowed)) && Valid(PrevTrack(d, allowed))
    ensures Valid(TogglePlay(d, allowed)) && Valid(ToggleBassBoost(d).0)
  {
  }

  /** With tracks, `nextTrack` moves to the index after, modulo the playlist length. */
  lemma NextIsSuccessorModulo(d: Deck, allowed: bool)
    requires Valid(d) && |d.playlist| > 0
    ensures NextTrack(d, allowed).index == (d.index + 1) % |d.playlist|
  {
  }

  /** With a track chosen, `prevTrack` moves to the index before, modulo the playlist length; from none it goes to the last. */
  lemma PrevIsPredecessorModulo(d: Deck, allowed: bool)
    requires Valid(d) && |d.playlist| > 0
    ensures d.index >= 0 ==> PrevTrack(d, allowed).index == (d.index - 1) % |d.playlist|
    ensures d.index == -1 ==> PrevTrack(d, allowed).index == |d.playlist| - 1
  {
  }

  /** `prevTrack` undoes `nextTrack`, and the other way round, once a track is chosen. */
  lemma NextPrevInverse(d: Deck, allowed: bool)
    requires Valid(d) && 0 <= d.index < |d.playlist|
    ensures PrevTrack(NextTrack(d, allowed), allowed).index == d.index
    ensures NextTrack(PrevTrack(d, allowed), allowed).index == d.index
  {
    NextIsSuccessorModulo(d, allowed);
    PrevIsPredecessorModulo(d, allowed);
  }

  /** `nextTrack` pressed `k` times. */
  function NextTimes(d: Deck, k: nat, allowed: bool): (r: Deck)
    ensures r.playlist == d.playlist
    decreases k
  {
    if k == 0 then d else NextTimes(NextTrack(d, allowed), k - 1, allowed)
  }

  /** Pressing next `k` times from a chosen track lands `k` tracks on, modulo the length. */
  lemma {:induction false} NextTimesModulo(d: Deck, k: nat, allowed: bool)
    requires Valid(d) && 0 <= d.index < |d.playlist|
    ensures NextTimes(d, k, allowed).index == (d.index + k) % |d.playlist|
    decreases k
  {
    if k > 0 {
      var n := |d.playlist|;
      var d1 := NextTrack(d, allowed);
      NextIsSuccessorModulo(d, allowed);
      ActionsKeepValid(d, 0, allowed);
      NextTimesModulo(d1, k - 1, allowed);
      assert (((d.index + 1) % n) + (k - 1)) % n == (d.index + k) % n by {
        ModuloShift(d.index + 1, k - 1, n);
      }
    }
  }

  lemma ModuloShift(a: int, b: int, n: int)
    requires n > 0
    ensures ((a % n) + b) % n == (a + b) % n
  {
    var y := a % n + b;
    var q := a / n;
    assert a + b == y + q * n;
    assert y == (y / n) * n + y % n;
    assert a + b == (y / n + q) * n + y % n;
    ModuloUnique(a + b, n, y / n + q, y % n);
  }

  /** Euclidean division has one quotient and remainder. */
  lemma ModuloUnique(x: int, n: int, q: int, r: int)
    requires n > 0 && 0 <= r < n && x == q * n + r
    ensures x % n == r
  {
    var q2, r2 := x / n, x % n;
    assert x == q2 * n + r2 && 0 <= r2 < n;
    var d := q - q2;
    assert q * n - q2 * n == d * n;
    assert d * n == r2 - r;
    if d >= 1 {
      MulAtLeast(d, n);
    } else if d <= -1 {
      MulAtLeast(-d, n);
    }
  }

  lemma MulAtLeast(d: int, n: int)
    requires d >= 1 && n > 0
    ensures d * n >= n
  {
    assert d * n == (d - 1) * n + n;
    assert (d - 1) * n >= 0;
  }

  /** Pressing next as many times as there are tracks comes back to the same track. */
  lemma FullCycleReturns(d: Deck, allowed: bool)
    requires Valid(d) && 0 <= d.index < |d.playlist|
    ensures NextTimes(d, |d.playlist|, allowed).index == d.index
  {
    NextTimesModulo(d, |d.playlist|, allowed);
    ModuloUnique(d.index + |d.playlist|, |d.playlist|, 1, d.index);
  }
}

=== FILE: radio.dfy ===
/**
 * One radio station (radio.py, `RadioSession`): the caption helpers and the
 * station's `_radio_loop`, cut into one pure step per pass of the loop.
 *
 * Everything the loop waits for is an input of the step (`Env`): what the two
 * searches returned, the order `random.shuffle` chose, which fallback query
 * `random.choice` picked, which ids the history trim dropped, how the play
 * attempt ended and whether a skip arrived while the track was on. Status
 * messages and the Telegram calls are not modelled; the two messages sent
 * right before the loop gives up are (`Notice`).
 */
module Radio {
  import opened Wrappers
  import opened Text
  import opened Models

  // ---------------------------------------------------------------------
  // Captions
  // ---------------------------------------------------------------------

  /**
   * `format_duration`: whole minutes, a colon and the remaining seconds as
   * two digits. `divmod` floors, which Dafny's `/` and `%` agree with for
   * the positive divisor 60, so negative inputs are covered too.
   */
  function FormatDuration(seconds: int): (s: string)
    ensures |s| >= 4 && s[|s| - 3] == ':'
    ensures IsDigit(s[|s| - 2]) && IsDigit(s[|s| - 1])
    ensures DigitValue(s[|s| - 2]) * 10 + DigitValue(s[|s| - 1]) == seconds % 60
  {
    var secs := Pad2(seconds % 60);
    Pad2Digits(seconds % 60);
    ShowInt(seconds / 60) + ":" + secs
  }

  /** A number below 100 zero-padded to two digits spells out its tens and units. */
  lemma Pad2Digits(n: nat)
    requires n < 100
    ensures |Pad2(n)| == 2 && IsDigit(Pad2(n)[0]) && IsDigit(Pad2(n)[1])
    ensures DigitValue(Pad2(n)[0]) == n / 10 && DigitValue(Pad2(n)[1]) == n % 10
    ensures ParseInt(Pad2(n)) == Some(n)
  {
    var p := Pad2(n);
    if n >= 10 {
      assert ShowNat(n / 10) == [DigitChar(n / 10)];
    }
    assert p == [DigitChar(n / 10), DigitChar(n % 10)];
    ParseTwoDigits(n / 10, n % 10);
  }

  /** Reads an "m:ss" duration back: the inverse of `FormatDuration`. */
  function ParseDuration(s: string): Option<int> {
    ReadHalves(Partition(s, ":"))
  }

  /** The minutes and the seconds on either side of the colon, read as numbers. */
  function ReadHalves(halves: Option<(string, string)>): Option<int> {
    if halves.None? then None
    else
      var minutes, secs := ParseInt(halves.value.0), ParseInt(halves.value.1);
      if minutes.Some? && secs.Some? then Some(minutes.value * 60 + secs.value) else None
  }

  lemma ShowIntNoColon(i: int)
    ensures !Contains(ShowInt(i), ":")
  {
    ShowIntChars(i);
    AbsentChar(ShowInt(i), ':');
  }

  /** Every duration reads back as itself. */
  lemma FormatDurationRoundTrip(seconds: int)
    ensures ParseDuration(FormatDuration(seconds)) == Some(seconds)
  {
    var a, b := seconds / 60, seconds % 60;
    assert a * 60 + b == seconds;
    var m, ss := ShowInt(a), Pad2(b);
    var s := FormatDuration(seconds);
    assert s == m + ":" + ss;
    ShowIntNoColon(a);
    PartitionAfter(m, ":", ss);
    ParseShowInt(a);
    Pad2Digits(b);
    ParseDurationOf(m, ss, a, b, seconds);
  }

  /** "m:ss" reads as m minutes and ss seconds once both halves read as numbers. */
  lemma ParseDurationOf(m: string, ss: string, a: int, b: int, n: int)
    requires ParseInt(m) == Some(a) && ParseInt(ss) == Some(b) && n == a * 60 + b
    ensures ReadHalves(Some((m, ss))) == Some(n)
  {
  }

  /** The caption icons `get_now_playing_message` picks from. */
  const Icons: seq<string> := ["\U{1F3A7}", "\U{1F3B5}", "\U{1F3B6}", "\U{1F4FB}", "\U{1F4BF}"]

  /** Python's `s[:n]`. */
  function Take(s: string, n: nat): (r: string)
    ensures |r| == if |s| < n then |s| else n
    ensures r == s[..|r|]
  {
    if |s| <= n then s else s[..n]
  }

  /** The title line of the caption: the first 40 characters, then stripped. */
  function ShownTitle(track: TrackInfo): (r: string)
    ensures |r| <= 40
    ensures IsStripOf(Take(track.title, 40), r)
  {
    Strip(Take(track.title, 40))
  }

  /** The artist line of the caption: the first 30 characters, then stripped. */
  function ShownArtist(track: TrackInfo): (r: string)
    ensures |r| <= 30
    ensures IsStripOf(Take(track.artist, 30), r)
  {
    Strip(Take(track.artist, 30))
  }

  /** The era suffix: " (decade)" when a decade is set and contains an "s". */
  function EraInfo(decade: Option<string>): (r: string)
    ensures r != "" <==> Truthy(decade) && Contains(decade.value, "s")
    ensures r != "" ==> r == " (" + decade.value + ")"
  {
    if Truthy(decade) && Contains(decade.value, "s") then " (" + decade.value + ")" else ""
  }

  const ArtistMark: string := "\U{1F464} "
  const ClockMark: string := "\U{23F1} "
  const GenreMark: string := "\U{1F4FB} _"

  /** The three lines of the caption: icon and bold title; artist; duration, genre and era. */
  function CaptionLines(track: TrackInfo, genreName: string, decade: Option<string>, icon: nat): seq<string>
    requires icon < |Icons|
  {
    [Icons[icon] + " *" + ShownTitle(track) + "*",
     ArtistMark + ShownArtist(track),
     DurationLine(track.duration, GenreText(genreName, decade))]
  }

  /** The third caption line: the clock, the duration, a bar and then `rest`. */
  function DurationLine(seconds: int, rest: string): string {
    ClockMark + FormatDuration(seconds) + " | " + rest
  }

  /** The genre part of the third line: the stripped genre name and the era, in italics. */
  function GenreText(genreName: string, decade: Option<string>): string {
    GenreMark + Strip(genreName) + EraInfo(decade) + "_"
  }

  /** `get_now_playing_message`, with the icon `random.choice` drew given by its index. */
  function NowPlaying(track: TrackInfo, genreName: string, decade: Option<string>, icon: nat): (m: string)
    requires icon < |Icons|
    ensures StartsWith(m, Icons[icon] + " *" + ShownTitle(track) + "*" + "\n")
  {
    var lines := CaptionLines(track, genreName, decade, icon);
    JoinThree(lines[0], lines[1], lines[2], "\n");
    StartsWithConcat(lines[0] + "\n", lines[1] + "\n" + lines[2]);
    Join(lines, "\n")
  }

  lemma StartsWithConcat(a: string, b: string)
    ensures StartsWith(a + b, a)
  {
    assert (a + b)[..|a|] == a;
  }

  /** No line break anywhere in `s`. */
  predicate OneLine(s: string) {
    forall j :: 0 <= j < |s| ==> s[j] != '\n'
  }

  /** Stripping a text without line breaks leaves one without line breaks. */
  lemma StripOneLine(s: string)
    requires OneLine(s)
    ensures OneLine(Strip(s))
  {
    var lo, hi :| 0 <= lo <= hi <= |s| && Strip(s) == s[lo..hi] && StripsTo(s, lo, hi);
    assert forall j :: 0 <= j < hi - lo ==> Strip(s)[j] == s[lo + j];
  }

  /** Cutting and stripping a text without line breaks leaves one without line breaks. */
  lemma ShownOneLine(s: string, n: nat)
    requires OneLine(s)
    ensures OneLine(Strip(Take(s, n)))
  {
    var cut := Take(s, n);
    assert forall j :: 0 <= j < |cut| ==> cut[j] == s[j];
    StripOneLine(cut);
  }

  /** A duration is written with digits, a minus sign and the colon only. */
  lemma FormatDurationChars(seconds: int)
    ensures forall j :: 0 <= j < |FormatDuration(seconds)| ==>
              var c := FormatDuration(seconds)[j]; IsDigit(c) || c == '-' || c == ':'
  {
    var m, ss := ShowInt(seconds / 60), Pad2(seconds % 60);
    ShowIntChars(seconds / 60);
    Pad2Digits(seconds % 60);
    assert FormatDuration(seconds) == m + ":" + ss;
  }

  /**
   * The caption is three lines: the icon and title, the artist, and the
   * duration with genre and era. When the track's texts, the genre and the
   * decade hold no line break, splitting at line breaks gives them back.
   */
  lemma NowPlayingLines(track: TrackInfo, genreName: string, decade: Option<string>, icon: nat)
    requires icon < |Icons|
    requires OneLine(track.title) && OneLine(track.artist) && OneLine(genreName)
    requires decade.Some? ==> OneLine(decade.value)
    ensures Split(NowPlaying(track, genreName, decade, icon), "\n") == CaptionLines(track, genreName, decade, icon)
  {
    CaptionLinesOneLine(track, genreName, decade, icon);
    var lines := CaptionLines(track, genreName, decade, icon);
    assert lines == [lines[0], lines[1], lines[2]];
    SplitLines(lines[0], lines[1], lines[2]);
  }

  /** With single-line fields, each caption line is a single line. */
  lemma CaptionLinesOneLine(track: TrackInfo, genreName: string, decade: Option<string>, icon: nat)
    requires icon < |Icons|
    requires OneLine(track.title) && OneLine(track.artist) && OneLine(genreName)
    requires decade.Some? ==> OneLine(decade.value)
    ensures var lines := CaptionLines(track, genreName, decade, icon);
            OneLine(lines[0]) && OneLine(lines[1]) && OneLine(lines[2])
  {
    TitleLineOneLine(track, icon);
    ShownOneLine(track.artist, 30);
    OneLineConcat(ArtistMark, ShownArtist(track));
    DurationLineOneLine(track, genreName, decade);
  }

  /** Three lines without line breaks, joined by line breaks, split back into those lines. */
  lemma SplitLines(a: string, b: string, c: string)
    requires OneLine(a) && OneLine(b) && OneLine(c)
    ensures Split(Join([a, b, c], "\n"), "\n") == [a, b, c]
  {
    var lines := [a, b, c];
    forall i | 0 <= i < |lines|
      ensures !Contains(lines[i], "\n")
    {
      AbsentChar(lines[i], '\n');
    }
    SplitJoin(lines, "\n");
  }

  /** Line breaks in neither part, none in the whole. */
  lemma OneLineConcat(a: string, b: string)
    requires OneLine(a) && OneLine(b)
    ensures OneLine(a + b)
  {
    forall j | 0 <= j < |a + b|
      ensures (a + b)[j] != '\n'
    {
      if j < |a| {
        assert (a + b)[j] == a[j];
      } else {
        assert (a + b)[j] == b[j - |a|];
      }
    }
  }

  lemma TitleLineOneLine(track: TrackInfo, icon: nat)
    requires icon < |Icons| && OneLine(track.title)
    ensures OneLine(Icons[icon] + " *" + ShownTitle(track) + "*")
  {
    ShownOneLine(track.title, 40);
    assert OneLine(Icons[icon]) by {
      assert |Icons[icon]| == 1 && Icons[icon][0] != '\n';
    }
    OneLineConcat(Icons[icon], " *");
    OneLineConcat(Icons[icon] + " *", ShownTitle(track));
    OneLineConcat(Icons[icon] + " *" + ShownTitle(track), "*");
  }

  lemma DurationLineOneLine(track: TrackInfo, genreName: string, decade: Option<string>)
    requires OneLine(genreName) && (decade.Some? ==> OneLine(decade.value))
    ensures OneLine(DurationLine(track.duration, GenreText(genreName, decade)))
  {
    GenreTextOneLine(genreName, decade);
    FormatDurationChars(track.duration);
    var d := FormatDuration(track.duration);
    assert OneLine(d);
    OneLineConcat(ClockMark, d);
    OneLineConcat(ClockMark + d, " | ");
    OneLineConcat(ClockMark + d + " | ", GenreText(genreName, decade));
  }

  lemma GenreTextOneLine(genreName: string, decade: Option<string>)
    requires OneLine(genreName) && (decade.Some? ==> OneLine(decade.value))
    ensures OneLine(GenreText(genreName, decade))
  {
    StripOneLine(genreName);
    assert OneLine(EraInfo(decade)) by {
      if EraInfo(decade) != "" {
        OneLineConcat(" (", decade.value);
        OneLineConcat(" (" + decade.value, ")");
      }
    }
    OneLineConcat(GenreMark, Strip(genreName));
    OneLineConcat(GenreMark + Strip(genreName), EraInfo(decade));
    OneLineConcat(GenreMark + Strip(genreName) + EraInfo(decade), "_");
  }

  /** The duration line reads back as the track's duration: the text between the clock and " | ". */
  lemma NowPlayingDuration(track: TrackInfo, genreName: string, decade: Option<string>, icon: nat)
    requires icon < |Icons|
    requires OneLine(track.title) && OneLine(track.artist) && OneLine(genreName)
    requires decade.Some? ==> OneLine(decade.value)
    ensures var lines := Split(NowPlaying(track, genreName, decade, icon), "\n");
            |lines| == 3 &&
            var halves := Partition(lines[2], " | ");
            halves.Some? && |halves.value.0| >= |ClockMark| &&
            ParseDuration(halves.value.0[|ClockMark|..]) == Some(track.duration)
  {
    NowPlayingLines(track, genreName, decade, icon);
    DurationLineReadsBack(track.duration, GenreText(genreName, decade));
  }

  /** "⏱ m:ss | …": the text between the clock and the first " | " parses back to the duration. */
  lemma DurationLineReadsBack(seconds: int, rest: string)
    ensures var halves := Partition(DurationLine(seconds, rest), " | ");
            halves.Some? && |halves.value.0| >= |ClockMark| &&
            ParseDuration(halves.value.0[|ClockMark|..]) == Some(seconds)
  {
    var a := ClockMark + FormatDuration(seconds);
    ClockTextBarFree(seconds);
    FirstBarAfter(a, rest);
    assert a[|ClockMark|..] == FormatDuration(seconds);
    FormatDurationRoundTrip(seconds);
  }

  /** The clock mark and the m:ss text hold no bar. */
  lemma ClockTextBarFree(seconds: int)
    ensures var a := ClockMark + FormatDuration(seconds);
            forall j :: 0 <= j < |a| ==> a[j] != '|'
  {
    var a := ClockMark + FormatDuration(seconds);
    FormatDurationChars(seconds);
    forall j | 0 <= j < |a| ensures a[j] != '|' {
      if j >= |ClockMark| {
        assert a[j] == FormatDuration(seconds)[j - |ClockMark|];
      }
    }
  }

  /** In `a + " | " + b` with no bar in `a`, the first " | " is the one right after `a`. */
  lemma FirstBarAfter(a: string, b: string)
    requires forall j :: 0 <= j < |a| ==> a[j] != '|'
    ensures Partition(a + " | " + b, " | ") == Some((a, b))
  {
    var s := a + " | " + b;
    assert s[|a|..|a| + 3] == " | ";
    forall j | 0 <= j < |a|
      ensures !OccursAt(s, " | ", j)
    {
      if j + 1 < |a| {
        assert s[j + 1] == a[j + 1];
      } else {
        assert s[j + 1] == ' ';
      }
      if j + 3 <= |s| {
        assert s[j..j + 3][1] == s[j + 1];
      }
    }
    assert OccursAt(s, " | ", |a|);
    var f := Find(s, " | ");
    assert f.Some? && f.value <= |a|;
    assert f.value == |a|;
    assert s[..|a|] == a && s[|a| + 3..] == b;
  }

  /** A short, already stripped title appears in the caption unchanged. */
  lemma ShortTitleShownWhole(track: TrackInfo)
    requires 0 < |track.title| <= 40
    requires !IsSpace(track.title[0]) && !IsSpace(track.title[|track.title| - 1])
    ensures ShownTitle(track) == track.title
  {
  }

  /**
   * A title longer than 40 characters never appears whole; when neither its
   * first nor its 40th character is whitespace, exactly its first 40 show.
   */
  lemma LongTitleCut(track: TrackInfo)
    requires |track.title| > 40
    ensures ShownTitle(track) != track.title
    ensures !IsSpace(track.title[0]) && !IsSpace(track.title[39]) ==> ShownTitle(track) == track.title[..40]
  {
  }

  // ---------------------------------------------------------------------
  // The station
  // ---------------------------------------------------------------------

  const RefillBelow := 5
  const SearchLimit := 20
  const EmergencyLimit := 10
  const HistoryCap := 200
  const HistoryDrop := 100
  const MaxErrorStreak := 5
  const EmergencyQueries: seq<string> := ["Lo-Fi Hip Hop", "Top Hits 2025", "Classic Rock Radio"]

  /**
   * A station. `errorStreak` is the loop's local `error_streak`, kept with the
   * station so that one pass can be a function; `skipRequested` is whether
   * `skip_event` is set.
   */
  datatype Session = Session(
    chatId: int,
    query: string,
    displayName: string,
    chatType: Option<string>,
    decade: Option<string>,
    running: bool,
    playlist: seq<TrackInfo>,
    playedIds: set<string>,
    skipRequested: bool,
    tracksPlayed: nat,
    errorStreak: nat)

  /** A freshly constructed `RadioSession`: not running, nothing queued or played. */
  function NewSession(chatId: int, query: string, displayName: string, chatType: Option<string>,
                      decade: Option<string>): (s: Session)
    ensures !s.running && s.playlist == [] && s.playedIds == {}
    ensures !s.skipRequested && s.tracksPlayed == 0 && s.errorStreak == 0
    ensures s.chatId == chatId && s.query == query && s.displayName == displayName
    ensures s.chatType == chatType && s.decade == decade
  {
    Session(chatId, query, displayName, chatType, decade, false, [], {}, false, 0, 0)
  }

  /** `start`: nothing when running; otherwise mark running and begin a loop with a zero streak. */
  function Start(s: Session): (r: Session)
    ensures r.running
    ensures s.running ==> r == s
    ensures !s.running ==> r.errorStreak == 0 && r.(running := false, errorStreak := s.errorStreak) == s
  {
    if s.running then s else s.(running := true, errorStreak := 0)
  }

  /** `stop`: nothing when not running; otherwise mark the station stopped. */
  function Stop(s: Session): (r: Session)
    ensures !r.running
    ensures r.(running := s.running) == s
  {
    if !s.running then s else s.(running := false)
  }

  /** `skip`: set the skip flag, whether or not the station is running. */
  function Skip(s: Session): (r: Session)
    ensures r.skipRequested
    ensures r.(skipRequested := s.skipRequested) == s
  {
    s.(skipRequested := true)
  }

  /** Stopping twice is stopping once. */
  lemma StopIdempotent(s: Session)
    ensures Stop(Stop(s)) == Stop(s)
  {
  }

  /** Starting a running station changes nothing, so starting twice is starting once. */
  lemma StartIdempotent(s: Session)
    ensures Start(Start(s)) == Start(s)
  {
  }

  /** Stopping a station that was just started restores it, but for the streak of the new loop. */
  lemma StopUndoesStart(s: Session)
    requires !s.running
    ensures Stop(Start(s)) == s.(errorStreak := 0)
  {
  }

  // ---------------------------------------------------------------------
  // One pass of the loop
  // ---------------------------------------------------------------------

  /** What a search call ended with: an exception, or a list of tracks. */
  datatype SearchReply = SearchRaised | SearchReturned(tracks: seq<TrackInfo>)

  /**
   * How the play attempt ended: `_play_track` returned True, it returned
   * False (or raised), or the 150 s `wait_for` around it timed out.
   */
  datatype PlayOutcome = Delivered | NotDelivered | PlayTimedOut

  /** Everything one pass of the loop learns from the outside world. */
  datatype Env = Env(
    primary: SearchReply,       // `search(query, decade, limit=20)` in `_fill_playlist`
    shuffled: seq<TrackInfo>,   // the new tracks in the order `random.shuffle` left them
    emergencyPick: nat,         // the index `random.choice` drew from the fallbacks
    emergency: SearchReply,     // `search(fallback, limit=10)` in `_fill_emergency_playlist`
    dropped: set<string>,       // the ids `list(played_ids)[:100]` happened to hold
    play: PlayOutcome,
    skipInWindow: bool)         // a skip arrived before the 90 s window ended

  /** The messages the station sends as it gives up. */
  datatype Notice = NoMusic | TooManyErrors

  /** What a pass did that the outside world sees. */
  datatype Effect =
    | Searched(query: string, decade: Option<string>, limit: nat)
    | Played(track: TrackInfo)
    | Notified(notice: Notice)

  datatype Iteration = Iteration(session: Session, effects: seq<Effect>)

  /** The search tracks whose id has not been played: `new_tracks` of `_fill_playlist`. */
  function Fresh(ts: seq<TrackInfo>, played: set<string>): (r: seq<TrackInfo>)
    ensures forall t :: multiset(r)[t] == if t.identifier in played then 0 else multiset(ts)[t]
    ensures forall t :: t in r <==> t in ts && t.identifier !in played
  {
    if |ts| == 0 then []
    else
      var rest := Fresh(ts[1..], played);
      var head := if ts[0].identifier in played then [] else [ts[0]];
      assert multiset(ts) == multiset([ts[0]]) + multiset(ts[1..]) by {
        assert ts == [ts[0]] + ts[1..];
      }
      var r := head + rest;
      assert multiset(r) == multiset(head) + multiset(rest);
      assert forall t :: t in r <==> multiset(r)[t] > 0;
      r
  }

  /** `random.shuffle` may leave the new tracks in any order, and in no other way. */
  predicate ShuffleFits(s: Session, reply: SearchReply, shuffled: seq<TrackInfo>) {
    reply.SearchReturned? ==> multiset(shuffled) == multiset(Fresh(reply.tracks, s.playedIds))
  }

  /**
   * `_fill_playlist`: the playlist after the primary search. A search that
   * raises leaves it alone; otherwise the unplayed results are appended in
   * shuffled order (nothing, when there are none).
   */
  function Refilled(s: Session, reply: SearchReply, shuffled: seq<TrackInfo>): (p: seq<TrackInfo>)
    requires ShuffleFits(s, reply, shuffled)
    ensures reply.SearchRaised? ==> p == s.playlist
    ensures |p| >= |s.playlist| && p[..|s.playlist|] == s.playlist
    ensures reply.SearchReturned? ==>
              multiset(p[|s.playlist|..]) == multiset(Fresh(reply.tracks, s.playedIds))
    ensures reply.SearchReturned? ==>
              forall i :: |s.playlist| <= i < |p| ==> p[i] in reply.tracks && p[i].identifier !in s.playedIds
  {
    match reply
    case SearchRaised => s.playlist
    case SearchReturned(ts) =>
      var p := s.playlist + shuffled;
      assert p[|s.playlist|..] == shuffled;
      forall i | |s.playlist| <= i < |p|
        ensures p[i] in ts && p[i].identifier !in s.playedIds
      {
        assert p[i] == shuffled[i - |s.playlist|];
        assert multiset(shuffled)[p[i]] > 0;
      }
      p
  }

  /** The playlist once the refill step has run: refilled iff fewer than 5 tracks were queued. */
  function AfterRefill(s: Session, env: Env): seq<TrackInfo>
    requires ShuffleFits(s, env.primary, env.shuffled)
  {
    if |s.playlist| < RefillBelow then Refilled(s, env.primary, env.shuffled) else s.playlist
  }

  /**
   * The playlist a track is popped from: the refilled playlist, or, when that
   * is empty, the emergency results unfiltered (nothing, if that search raised).
   */
  function Queue(s: Session, env: Env): seq<TrackInfo>
    requires ShuffleFits(s, env.primary, env.shuffled)
  {
    var p := AfterRefill(s, env);
    if |p| > 0 then p
    else match env.emergency
      case SearchRaised => []
      case SearchReturned(ts) => ts
  }

  /**
   * `set(list(h)[100:])` keeps all but some 100 ids of `h`; `dropped` says which.
   * A history of at most 200 ids is left alone.
   */
  predicate TrimFits(h: set<string>, dropped: set<string>) {
    |h| > HistoryCap ==> dropped <= h && |dropped| == HistoryDrop
  }

  /** The history trim of radio.py:121. */
  function Trim(h: set<string>, dropped: set<string>): (r: set<string>)
    requires TrimFits(h, dropped)
    ensures r <= h
    ensures |h| <= HistoryCap ==> r == h
    ensures |h| > HistoryCap ==> |r| == |h| - HistoryDrop
  {
    if |h| > HistoryCap then
      assert h == (h - dropped) + dropped;
      h - dropped
    else h
  }

  /** The inputs of a pass are ones the outside world can produce for station `s`. */
  predicate EnvFits(s: Session, env: Env) {
    && ShuffleFits(s, env.primary, env.shuffled)
    && env.emergencyPick < |EmergencyQueries|
    && (var q := Queue(s, env);
        |q| > 0 ==> TrimFits(s.playedIds + {q[0].identifier}, env.dropped))
  }

  /** The searches a pass issues before it pops a track. */
  function SearchEffects(s: Session, env: Env): seq<Effect>
    requires ShuffleFits(s, env.primary, env.shuffled)
    requires env.emergencyPick < |EmergencyQueries|
  {
    var primary := if |s.playlist| < RefillBelow then [Searched(s.query, s.decade, SearchLimit)] else [];
    var emergency :=
      if |AfterRefill(s, env)| == 0 then [Searched(EmergencyQueries[env.emergencyPick], None, EmergencyLimit)]
      else [];
    primary + emergency
  }

  /** The search `_fill_playlist` issues. */
  predicate IsPrimarySearch(s: Session, e: Effect) {
    e == Searched(s.query, s.decade, SearchLimit)
  }

  /** A search `_fill_emergency_playlist` issues. */
  predicate IsEmergencySearch(e: Effect) {
    e.Searched? && e.query in EmergencyQueries && e.decade.None? && e.limit == EmergencyLimit
  }

  /**
   * One pass of `_radio_loop`. A stopped station does nothing. Otherwise the
   * station refills, falls back to an emergency search when still empty,
   * gives up when that finds nothing, and else pops and plays the head track.
   */
  function Iterate(s: Session, env: Env): (r: Iteration)
    requires EnvFits(s, env)
    ensures !s.running ==> r == Iteration(s, [])
    ensures s.running && |Queue(s, env)| == 0 ==>
              && !r.session.running
              && r.session.playlist == []
              && r.session.playedIds == s.playedIds
              && r.session.errorStreak == s.errorStreak
              && (Notified(NoMusic) in r.effects <==> env.emergency.SearchReturned?)
    ensures s.running && |Queue(s, env)| > 0 ==>
              && r.session.playlist == Queue(s, env)[1..]
              && Played(Queue(s, env)[0]) in r.effects
              && r.session.playedIds == Trim(s.playedIds + {Queue(s, env)[0].identifier}, env.dropped)
              && !r.session.skipRequested
  {
    if !s.running then Iteration(s, [])
    else
      var q := Queue(s, env);
      var fx := SearchEffects(s, env);
      if |q| == 0 then
        var notice := if env.emergency.SearchReturned? then [Notified(NoMusic)] else [];
        Iteration(s.(running := false, playlist := []), fx + notice)
      else
        PlayHead(s, q, fx, env)
  }

  /**
   * Pop and play the head of `q`: record its id (trimming the history), clear
   * the skip flag, and settle the error streak by how the attempt ended.
   */
  function PlayHead(s: Session, q: seq<TrackInfo>, fx: seq<Effect>, env: Env): (r: Iteration)
    requires |q| > 0 && TrimFits(s.playedIds + {q[0].identifier}, env.dropped)
    ensures r.session.playlist == q[1..] && !r.session.skipRequested
    ensures |r.effects| > |fx| && r.effects[..|fx|] == fx && Played(q[0]) in r.effects
    ensures r.session.playedIds == Trim(s.playedIds + {q[0].identifier}, env.dropped)
    ensures env.play == Delivered ==>
              && r.session.running == s.running
              && r.session.tracksPlayed == s.tracksPlayed + 1
              && r.session.errorStreak == (if s.skipRequested || env.skipInWindow then 0 else 1)
    ensures env.play != Delivered ==>
              && r.session.tracksPlayed == s.tracksPlayed
              && r.session.errorStreak == s.errorStreak + 1
              && (r.session.running <==> s.running && s.errorStreak + 1 < MaxErrorStreak)
  {
    var t := q[0];
    var base := s.(playlist := q[1..], playedIds := Trim(s.playedIds + {t.identifier}, env.dropped),
                   skipRequested := false);
    var played := fx + [Played(t)];
    assert played[|fx|] == Played(t);
    if env.play == Delivered then
      var cutShort := s.skipRequested || env.skipInWindow;
      Iteration(base.(tracksPlayed := s.tracksPlayed + 1, errorStreak := if cutShort then 0 else 1), played)
    else
      var streak := s.errorStreak + 1;
      if streak >= MaxErrorStreak then
        Iteration(base.(running := false, errorStreak := streak), played + [Notified(TooManyErrors)])
      else
        Iteration(base.(errorStreak := streak), played)
  }

  // ---------------------------------------------------------------------
  // Properties of one pass
  // ---------------------------------------------------------------------

  /** A refill is attempted exactly when fewer than 5 tracks are queued. */
  lemma RefillIffShort(s: Session, env: Env)
    requires EnvFits(s, env) && s.running
    ensures |s.playlist| < RefillBelow <==>
            |Iterate(s, env).effects| > 0 && IsPrimarySearch(s, Iterate(s, env).effects[0])
  {
    var r := Iterate(s, env);
    var fx := SearchEffects(s, env);
    if |Queue(s, env)| > 0 {
      assert r.effects[..|fx|] == fx;
    }
    if |s.playlist| >= RefillBelow {
      assert |AfterRefill(s, env)| > 0;
      assert fx == [];
      assert r.effects[0] == Played(Queue(s, env)[0]);
    }
  }

  /** The emergency search runs exactly when the playlist is still empty after the refill step. */
  lemma EmergencyIffEmpty(s: Session, env: Env)
    requires EnvFits(s, env) && s.running
    ensures (exists i :: 0 <= i < |Iterate(s, env).effects| && IsEmergencySearch(Iterate(s, env).effects[i]))
            <==> |AfterRefill(s, env)| == 0
  {
    var r := Iterate(s, env);
    var fx := SearchEffects(s, env);
    var q := Queue(s, env);
    if |AfterRefill(s, env)| == 0 {
      assert IsEmergencySearch(fx[|fx| - 1]);
      if |q| > 0 {
        assert r.effects[..|fx|] == fx;
        assert r.effects[|fx| - 1] == fx[|fx| - 1];
      } else {
        assert r.effects[|fx| - 1] == fx[|fx| - 1];
      }
    } else {
      assert q == AfterRefill(s, env);
      forall i | 0 <= i < |r.effects|
        ensures !IsEmergencySearch(r.effects[i])
      {
        if env.play != Delivered && s.errorStreak + 1 >= MaxErrorStreak && i == |fx| + 1 {
          assert r.effects[i] == Notified(TooManyErrors);
        }
      }
    }
  }

  /** The emergency results are queued as found, even tracks already played. */
  lemma EmergencyNotFiltered(s: Session, env: Env)
    requires EnvFits(s, env) && s.running
    requires |AfterRefill(s, env)| == 0
    requires env.emergency.SearchReturned? && |env.emergency.tracks| > 0
    ensures Played(env.emergency.tracks[0]) in Iterate(s, env).effects
    ensures Iterate(s, env).session.playlist == env.emergency.tracks[1..]
  {
  }

  /** A track that comes from the primary refill has not been played before. */
  lemma RefilledTrackIsNew(s: Session, env: Env)
    requires EnvFits(s, env) && s.running
    requires |s.playlist| == 0 && |AfterRefill(s, env)| > 0
    ensures Queue(s, env)[0].identifier !in s.playedIds
    ensures Queue(s, env)[0] in env.primary.tracks
  {
    assert env.primary.SearchReturned?;
  }

  /** The loop leaves the station running unless the emergency fill failed or the fifth error in a row hit. */
  lemma KeepsRunningUnlessGivingUp(s: Session, env: Env)
    requires EnvFits(s, env) && s.running
    ensures Iterate(s, env).session.running <==>
            |Queue(s, env)| > 0 && (env.play == Delivered || s.errorStreak + 1 < MaxErrorStreak)
  {
  }

  /**
   * The error streak after playing: 0 when the track was delivered and the
   * window ended by a skip, 1 when it was delivered but the 90 s window ran
   * out (the timeout raises and is counted), one more otherwise.
   */
  lemma StreakRule(s: Session, env: Env)
    requires EnvFits(s, env) && s.running && |Queue(s, env)| > 0
    ensures env.play == Delivered && (s.skipRequested || env.skipInWindow) ==>
              Iterate(s, env).session.errorStreak == 0
    ensures env.play == Delivered && !s.skipRequested && !env.skipInWindow ==>
              Iterate(s, env).session.errorStreak == 1
    ensures env.play != Delivered ==> Iterate(s, env).session.errorStreak == s.errorStreak + 1
    ensures Iterate(s, env).session.tracksPlayed ==
              if env.play == Delivered then s.tracksPlayed + 1 else s.tracksPlayed
  {
  }

  /**
   * The popped track's id joins the history. It stays there unless that very
   * pass overflows the history and the arbitrary trim happens to drop it;
   * with room in the history it is always kept.
   */
  lemma PlayedIdRecorded(s: Session, env: Env)
    requires EnvFits(s, env) && s.running && |Queue(s, env)| > 0
    ensures var id := Queue(s, env)[0].identifier;
            var h := s.playedIds + {id};
            && (id in Iterate(s, env).session.playedIds <==> |h| <= HistoryCap || id !in env.dropped)
            && (|h| <= HistoryCap ==> Iterate(s, env).session.playedIds == h)
            && s.playedIds - env.dropped <= Iterate(s, env).session.playedIds
  {
    var id := Queue(s, env)[0].identifier;
    var h := s.playedIds + {id};
    var r := Iterate(s, env).session.playedIds;
    assert r == Trim(h, env.dropped);
    if |h| > HistoryCap {
      assert r == h - env.dropped;
    }
  }

  /** The fifth failure in a row stops the station with the "too many errors" notice. */
  lemma FifthErrorStops(s: Session, env: Env)
    requires EnvFits(s, env) && s.running && |Queue(s, env)| > 0
    requires env.play != Delivered && s.errorStreak + 1 >= MaxErrorStreak
    ensures !Iterate(s, env).session.running
    ensures Iterate(s, env).effects[|Iterate(s, env).effects| - 1] == Notified(TooManyErrors)
  {
  }

  /** What every reachable station satisfies: a bounded history and a streak below 5 while running. */
  predicate Inv(s: Session) {
    |s.playedIds| <= HistoryCap && (s.running ==> s.errorStreak < MaxErrorStreak)
  }

  lemma IterateKeepsInv(s: Session, env: Env)
    requires EnvFits(s, env) && Inv(s)
    ensures Inv(Iterate(s, env).session)
  {
    if s.running && |Queue(s, env)| > 0 {
      var h := s.playedIds + {Queue(s, env)[0].identifier};
      assert |h| <= |s.playedIds| + 1;
    }
  }

  lemma NewSessionInv(chatId: int, query: string, displayName: string, chatType: Option<string>,
                      decade: Option<string>)
    ensures Inv(Start(NewSession(chatId, query, displayName, chatType, decade)))
  {
  }

  // ---------------------------------------------------------------------
  // Runs of several passes
  // ---------------------------------------------------------------------

  /** Each pass of `envs` fits the station the earlier passes left behind. */
  predicate RunFits(s: Session, envs: seq<Env>)
    decreases |envs|
  {
    |envs| == 0 || (EnvFits(s, envs[0]) && RunFits(Iterate(s, envs[0]).session, envs[1..]))
  }

  /** The station after the passes `envs`, and everything they did, in order. */
  function Run(s: Session, envs: seq<Env>): (r: Iteration)
    requires RunFits(s, envs)
    decreases |envs|
  {
    if |envs| == 0 then Iteration(s, [])
    else
      var first := Iterate(s, envs[0]);
      var rest := Run(first.session, envs[1..]);
      Iteration(rest.session, first.effects + rest.effects)
  }

  /** The number of play attempts among some effects. */
  function Plays(fx: seq<Effect>): nat {
    if |fx| == 0 then 0 else (if fx[0].Played? then 1 else 0) + Plays(fx[1..])
  }

  lemma {:induction false} PlaysAppend(a: seq<Effect>, b: seq<Effect>)
    ensures Plays(a + b) == Plays(a) + Plays(b)
  {
    if |a| > 0 {
      assert (a + b)[1..] == a[1..] + b;
      PlaysAppend(a[1..], b);
    } else {
      assert a + b == b;
    }
  }

  /** The invariant holds after any run from a station that satisfies it. */
  lemma {:induction false} RunKeepsInv(s: Session, envs: seq<Env>)
    requires RunFits(s, envs) && Inv(s)
    ensures Inv(Run(s, envs).session)
    decreases |envs|
  {
    if |envs| > 0 {
      IterateKeepsInv(s, envs[0]);
      RunKeepsInv(Iterate(s, envs[0]).session, envs[1..]);
    }
  }

  /** A stopped station stays stopped and does nothing, however long it is driven. */
  lemma {:induction false} StoppedStaysStopped(s: Session, envs: seq<Env>)
    requires RunFits(s, envs) && !s.running
    ensures Run(s, envs) == Iteration(s, [])
    decreases |envs|
  {
    if |envs| > 0 {
      StoppedStaysStopped(s, envs[1..]);
    }
  }

  /** A pass that ends in a failed play, playing from a non-empty queue. */
  predicate FailingPass(env: Env) {
    env.play != Delivered && env.emergency.SearchReturned? && |env.emergency.tracks| > 0
  }

  /** One failing pass plays once and adds one to the streak; the pass that reaches 5 stops with the notice. */
  lemma OneFailingPass(s: Session, env: Env)
    requires EnvFits(s, env) && s.running && s.errorStreak < MaxErrorStreak
    requires FailingPass(env)
    ensures var r := Iterate(s, env);
            && r.session.errorStreak == s.errorStreak + 1
            && Plays(r.effects) == 1
            && (r.session.running <==> s.errorStreak + 1 < MaxErrorStreak)
            && (s.errorStreak + 1 >= MaxErrorStreak ==> r.effects[|r.effects| - 1] == Notified(TooManyErrors))
  {
    var q := Queue(s, env);
    var fx := SearchEffects(s, env);
    assert |q| > 0;
    assert Plays([Played(q[0])]) == 1;
    assert Plays([Notified(TooManyErrors)]) == 0;
    assert Plays(fx) == 0 by {
      if |s.playlist| < RefillBelow {
        assert Plays(fx) == Plays(fx[1..]);
      }
    }
    PlaysAppend(fx, [Played(q[0])]);
    if s.errorStreak + 1 >= MaxErrorStreak {
      PlaysAppend(fx + [Played(q[0])], [Notified(TooManyErrors)]);
    }
  }

  /**
   * When every attempt fails, a running station with error streak `k` makes
   * exactly `5 - k` play attempts, then stops with a streak of 5 and the
   * "too many errors" notice as its last effect.
   */
  lemma FailuresStopAfterFive(s: Session, envs: seq<Env>)
    requires FailingRun(s, envs)
    ensures !Run(s, envs).session.running
    ensures Run(s, envs).session.errorStreak == MaxErrorStreak
    ensures Plays(Run(s, envs).effects) == MaxErrorStreak - s.errorStreak
    ensures |Run(s, envs).effects| > 0 && Run(s, envs).effects[|Run(s, envs).effects| - 1] == Notified(TooManyErrors)
  {
    FailingRunStops(s, envs);
    FailingRunPlays(s, envs);
    FailingRunEndsWithNotice(s, envs);
  }

  /** A running station with error streak `k`, driven by `5 - k` failing passes. */
  predicate FailingRun(s: Session, envs: seq<Env>) {
    && s.running && s.errorStreak < MaxErrorStreak
    && |envs| == MaxErrorStreak - s.errorStreak
    && RunFits(s, envs)
    && forall i :: 0 <= i < |envs| ==> FailingPass(envs[i])
  }

  /** After the first failing pass of a longer failing run, the rest is a failing run. */
  lemma FailingRunRest(s: Session, envs: seq<Env>)
    requires FailingRun(s, envs) && |envs| > 1
    ensures FailingRun(Iterate(s, envs[0]).session, envs[1..])
    ensures Plays(Iterate(s, envs[0]).effects) == 1
    ensures Iterate(s, envs[0]).session.errorStreak == s.errorStreak + 1
  {
    var rest := envs[1..];
    OneFailingPass(s, envs[0]);
    assert forall i :: 0 <= i < |rest| ==> rest[i] == envs[i + 1];
  }

  lemma {:induction false} FailingRunStops(s: Session, envs: seq<Env>)
    requires FailingRun(s, envs)
    ensures !Run(s, envs).session.running && Run(s, envs).session.errorStreak == MaxErrorStreak
    decreases |envs|
  {
    RunCons(s, envs);
    if |envs| == 1 {
      LastFailureStops(s, envs);
    } else {
      FailingRunRest(s, envs);
      FailingRunStops(Iterate(s, envs[0]).session, envs[1..]);
    }
  }

  lemma {:induction false} FailingRunPlays(s: Session, envs: seq<Env>)
    requires FailingRun(s, envs)
    ensures Plays(Run(s, envs).effects) == MaxErrorStreak - s.errorStreak
    decreases |envs|
  {
    RunCons(s, envs);
    if |envs| == 1 {
      LastFailureStops(s, envs);
    } else {
      FailingRunRest(s, envs);
      var first := Iterate(s, envs[0]);
      FailingRunPlays(first.session, envs[1..]);
      PlaysAppend(first.effects, Run(first.session, envs[1..]).effects);
    }
  }

  lemma {:induction false} FailingRunEndsWithNotice(s: Session, envs: seq<Env>)
    requires FailingRun(s, envs)
    ensures |Run(s, envs).effects| > 0 && Run(s, envs).effects[|Run(s, envs).effects| - 1] == Notified(TooManyErrors)
    decreases |envs|
  {
    RunCons(s, envs);
    if |envs| == 1 {
      LastFailureStops(s, envs);
    } else {
      FailingRunRest(s, envs);
      var first := Iterate(s, envs[0]);
      FailingRunEndsWithNotice(first.session, envs[1..]);
      LastOfAppend(first.effects, Run(first.session, envs[1..]).effects);
    }
  }

  lemma LastOfAppend(a: seq<Effect>, b: seq<Effect>)
    requires |b| > 0
    ensures (a + b)[|a + b| - 1] == b[|b| - 1]
  {
  }

  /** A run is its first pass followed by the run of the rest. */
  lemma RunCons(s: Session, envs: seq<Env>)
    requires RunFits(s, envs) && |envs| > 0
    ensures RunFits(Iterate(s, envs[0]).session, envs[1..])
    ensures Run(s, envs).session == Run(Iterate(s, envs[0]).session, envs[1..]).session
    ensures Run(s, envs).effects == Iterate(s, envs[0]).effects + Run(Iterate(s, envs[0]).session, envs[1..]).effects
  {
  }

  /** The pass that makes the fifth failure in a row is the last. */
  lemma LastFailureStops(s: Session, envs: seq<Env>)
    requires s.running && s.errorStreak + 1 == MaxErrorStreak
    requires |envs| == 1 && RunFits(s, envs) && FailingPass(envs[0])
    ensures !Run(s, envs).session.running
    ensures Run(s, envs).session.errorStreak == MaxErrorStreak
    ensures Plays(Run(s, envs).effects) == 1
    ensures |Run(s, envs).effects| > 0 && Run(s, envs).effects[|Run(s, envs).effects| - 1] == Notified(TooManyErrors)
  {
    var first := Iterate(s, envs[0]);
    OneFailingPass(s, envs[0]);
    assert envs[1..] == [];
    assert first.effects + [] == first.effects;
    assert Run(s, envs) == first;
  }
}

=== FILE: radio_manager.dfy ===
/**
 * The registry of stations, one per chat (radio.py, `RadioManager`), and the
 * random pick of a station from the genre catalog. The per-chat locks only
 * serialise these operations, which are modelled as atomic.
 */
module RadioManager {
  import opened Wrappers
  import opened Catalog
  import Radio

  datatype Manager = Manager(sessions: map<int, Radio.Session>)

  /** Every station sits under its own chat id. */
  predicate Valid(m: Manager) {
    forall c :: c in m.sessions ==> m.sessions[c].chatId == c
  }

  /** The station `_get_random_query` falls back to when the catalog has no leaf. */
  const FallbackStation: (string, Option<string>, string) := ("80s synth pop", None, "Synth-Pop")

  /** `random.choice` over the catalog's leaves may return any of them, and nothing else. */
  predicate PickFits(catalog: Level, pick: nat) {
    |Flatten(catalog)| == 0 || pick < |Flatten(catalog)|
  }

  /**
   * `_get_random_query`: the query, no decade, and the leaf's name as the
   * display name, for the leaf at position `pick` of the flattening.
   */
  function RandomQuery(catalog: Level, pick: nat): (r: (string, Option<string>, string))
    requires PickFits(catalog, pick)
    ensures |Flatten(catalog)| == 0 ==> r == FallbackStation
    ensures |Flatten(catalog)| > 0 ==> (r.2, r.0) in Flatten(catalog) && r.1 == None
  {
    var all := Flatten(catalog);
    if |all| == 0 then FallbackStation
    else (all[pick].1, None, all[pick].0)
  }

  /** The random station is a leaf of the catalog tree, or the fallback when the tree has none. */
  lemma RandomQueryIsLeaf(catalog: Level, pick: nat)
    requires PickFits(catalog, pick)
    ensures var r := RandomQuery(catalog, pick);
            HasLeaf(catalog, r.2, r.0) || (|Flatten(catalog)| == 0 && r == FallbackStation)
  {
    var r := RandomQuery(catalog, pick);
    FlattenIsLeaves(catalog, r.2, r.0);
  }

  /** Any leaf of the catalog can be drawn. */
  lemma EveryLeafCanBeDrawn(catalog: Level, name: string, query: string)
    requires HasLeaf(catalog, name, query)
    ensures exists pick :: PickFits(catalog, pick) && RandomQuery(catalog, pick) == (query, None, name)
  {
    FlattenIsLeaves(catalog, name, query);
    var all := Flatten(catalog);
    var i :| 0 <= i < |all| && all[i] == (name, query);
    assert RandomQuery(catalog, i) == (query, None, name);
  }

  /** What `start` was asked to play, after a "random" request has been resolved. */
  function Resolve(query: string, displayName: Option<string>, decade: Option<string>,
                   catalog: Level, pick: nat): (r: (string, Option<string>, Option<string>))
    requires PickFits(catalog, pick)
    ensures query != "random" ==> r == (query, displayName, decade)
    ensures query == "random" ==>
              var d := RandomQuery(catalog, pick);
              r == (d.0, Some(d.2), d.1)
  {
    if query == "random" then
      var (q, d, name) := RandomQuery(catalog, pick);
      (q, Some(name), d)
    else (query, displayName, decade)
  }

  /** `display_name or query`. */
  function DisplayName(displayName: Option<string>, query: string): (r: string)
    ensures displayName.Some? && displayName.value != "" ==> r == displayName.value
    ensures displayName.None? || displayName.value == "" ==> r == query
  {
    if displayName.Some? && displayName.value != "" then displayName.value else query
  }

  /**
   * `start`: stop the chat's station if there is one, then register and
   * start a new one. The stopped station is returned alongside.
   */
  function StartStation(m: Manager, chatId: int, query: string, chatType: Option<string>,
                        displayName: Option<string>, decade: Option<string>,
                        catalog: Level, pick: nat): (r: (Manager, Option<Radio.Session>))
    requires PickFits(catalog, pick)
    ensures chatId in r.0.sessions && r.0.sessions[chatId].running
    ensures r.0.sessions.Keys == m.sessions.Keys + {chatId}
    ensures forall c :: c in m.sessions && c != chatId ==> r.0.sessions[c] == m.sessions[c]
    ensures r.1.Some? <==> chatId in m.sessions
    ensures r.1.Some? ==> r.1.value == Radio.Stop(m.sessions[chatId]) && !r.1.value.running
    ensures Valid(m) ==> Valid(r.0)
    ensures var st := r.0.sessions[chatId];
            && st.chatId == chatId && st.chatType == chatType
            && st.playlist == [] && st.playedIds == {} && !st.skipRequested
            && st.tracksPlayed == 0 && st.errorStreak == 0
    ensures query != "random" ==>
              var st := r.0.sessions[chatId];
              st.query == query && st.decade == decade && st.displayName == DisplayName(displayName, query)
    ensures query == "random" ==>
              var st := r.0.sessions[chatId];
              var drawn := RandomQuery(catalog, pick);
              st.query == drawn.0 && st.decade == None && st.displayName == DisplayName(Some(drawn.2), drawn.0)
  {
    var previous := if chatId in m.sessions then Some(Radio.Stop(m.sessions[chatId])) else None;
    var (q, name, d) := Resolve(query, displayName, decade, catalog, pick);
    var station := Radio.Start(Radio.NewSession(chatId, q, DisplayName(name, q), chatType, d));
    (Manager(m.sessions[chatId := station]), previous)
  }

  /**
   * A "random" start plays a leaf of the catalog with no decade, named after
   * that leaf, or the fallback station when the catalog has no leaf.
   */
  lemma RandomStartPlaysLeaf(m: Manager, chatId: int, chatType: Option<string>,
                             displayName: Option<string>, decade: Option<string>,
                             catalog: Level, pick: nat)
    requires PickFits(catalog, pick)
    ensures var st := StartStation(m, chatId, "random", chatType, displayName, decade, catalog, pick).0.sessions[chatId];
            && st.decade == None
            && (|Flatten(catalog)| > 0 ==>
                  exists name :: HasLeaf(catalog, name, st.query) && (name != "" ==> st.displayName == name))
            && (|Flatten(catalog)| == 0 ==> st.query == FallbackStation.0 && st.displayName == FallbackStation.2)
  {
    var st := StartStation(m, chatId, "random", chatType, displayName, decade, catalog, pick).0.sessions[chatId];
    var drawn := RandomQuery(catalog, pick);
    RandomQueryIsLeaf(catalog, pick);
    if |Flatten(catalog)| > 0 {
      assert HasLeaf(catalog, drawn.2, st.query) && (drawn.2 != "" ==> st.displayName == drawn.2);
    }
  }

  /** `stop`: unregister the chat's station, stopping it, if there is one. */
  function StopStation(m: Manager, chatId: int): (r: (Manager, Option<Radio.Session>))
    ensures chatId !in r.0.sessions
    ensures r.0.sessions == m.sessions - {chatId}
    ensures r.1.Some? <==> chatId in m.sessions
    ensures r.1.Some? ==> r.1.value == Radio.Stop(m.sessions[chatId])
    ensures Valid(m) ==> Valid(r.0)
  {
    var previous := if chatId in m.sessions then Some(Radio.Stop(m.sessions[chatId])) else None;
    (Manager(m.sessions - {chatId}), previous)
  }

  /** `skip`: flag a skip on the chat's station; nothing for a chat without one. */
  function SkipStation(m: Manager, chatId: int): (r: Manager)
    ensures chatId !in m.sessions ==> r == m
    ensures chatId in m.sessions ==> r.sessions == m.sessions[chatId := Radio.Skip(m.sessions[chatId])]
    ensures r.sessions.Keys == m.sessions.Keys
    ensures Valid(m) ==> Valid(r)
  {
    if chatId in m.sessions then Manager(m.sessions[chatId := Radio.Skip(m.sessions[chatId])]) else m
  }

  /**
   * `stop_all`: `stop` for every registered chat, in turn. The order does not
   * matter (`StopCommutes`), so the chats are taken in the order `ids` lists them.
   */
  function StopEach(m: Manager, ids: seq<int>): (r: Manager)
    ensures r.sessions == m.sessions - set c | c in ids
    decreases |ids|
  {
    if |ids| == 0 then m
    else StopEach(StopStation(m, ids[0]).0, ids[1..])
  }

  /** The chat ids of a registry in some order. */
  predicate ListsAll(m: Manager, ids: seq<int>) {
    m.sessions.Keys == set c | c in ids
  }

  /** `stop_all` leaves the registry empty. */
  lemma StopAllEmpties(m: Manager, ids: seq<int>)
    requires ListsAll(m, ids)
    ensures StopEach(m, ids).sessions == map[]
  {
  }

  /** Stopping two chats in either order gives the same registry. */
  lemma StopCommutes(m: Manager, a: int, b: int)
    ensures StopStation(StopStation(m, a).0, b).0 == StopStation(StopStation(m, b).0, a).0
  {
  }

  /** Starting a chat's station and then stopping it leaves every other chat as it was. */
  lemma StartThenStop(m: Manager, chatId: int, query: string, chatType: Option<string>,
                      displayName: Option<string>, decade: Option<string>, catalog: Level, pick: nat)
    requires PickFits(catalog, pick)
    ensures StopStation(StartStation(m, chatId, query, chatType, displayName, decade, catalog, pick).0, chatId).0
            == StopStation(m, chatId).0
  {
  }

  /** A `skip` changes nothing of the chat's station but its skip flag. */
  lemma SkipOnlyFlags(m: Manager, chatId: int)
    requires chatId in m.sessions
    ensures SkipStation(m, chatId).sessions[chatId].skipRequested
    ensures SkipStation(m, chatId).sessions[chatId].(skipRequested := m.sessions[chatId].skipRequested)
            == m.sessions[chatId]
  {
  }
}

=== FILE: store.dfy ===
/**
 * The web player's reactive store (webapp/js/store.js): a state object
 * behind a Proxy whose `set` stores a value and calls that property's
 * listeners only when the value is not `===` the current one. Listener
 * calls are returned as a list rather than run, so a listener that
 * writes to the store again is not modelled.
 */
module Store {

  /**
   * A stored value. Lists are objects, so `!==` compares them by identity:
   * a list is represented by its reference alone, and datatype equality is
   * then exactly `===` (numbers are integers here, so there is no NaN).
   */
  datatype Value = Undefined | Bool(b: bool) | Num(n: int) | Str(s: string) | List(ref: nat)

  /** A listener is known by its identity. */
  type Listener = nat

  datatype Store = Store(state: map<string, Value>, listeners: map<string, seq<Listener>>)

  /** One `callback(value)` made by `notify`. */
  datatype Call = Call(listener: Listener, value: Value)

  /** The state at start-up; the empty playlist is the list with reference 0. */
  function Initial(): (s: Store)
    ensures Get(s, "isPlaying") == Bool(false) && Get(s, "currentTrackIndex") == Num(-1)
    ensures Get(s, "playlist") == List(0) && Get(s, "currentGenre") == Str("Aurora")
    ensures s.state.Keys == {"isPlaying", "currentTrackIndex", "playlist", "currentGenre"}
    ensures forall p :: Listeners(s, p) == []
  {
    Store(map["isPlaying" := Bool(false), "currentTrackIndex" := Num(-1),
              "playlist" := List(0), "currentGenre" := Str("Aurora")],
          map[])
  }

  /** `store[p]`: `undefined` for a property never set. */
  function Get(s: Store, p: string): Value {
    if p in s.state then s.state[p] else Undefined
  }

  /** The listeners of `p`, in the order they subscribed. */
  function Listeners(s: Store, p: string): seq<Listener> {
    if p in s.listeners then s.listeners[p] else []
  }

  /** `subscribe(p, cb)`: `cb` goes last in `p`'s list; nothing else changes. */
  function Subscribe(s: Store, p: string, cb: Listener): (r: Store)
    ensures Listeners(r, p) == Listeners(s, p) + [cb]
    ensures forall q :: q != p ==> Listeners(r, q) == Listeners(s, q)
    ensures r.state == s.state
  {
    s.(listeners := s.listeners[p := Listeners(s, p) + [cb]])
  }

  /** `notify(p, v)`: each listener of `p` once, in subscription order, with `v`. */
  function Notify(s: Store, p: string, v: Value): (calls: seq<Call>)
    ensures |calls| == |Listeners(s, p)|
    ensures forall i :: 0 <= i < |calls| ==> calls[i] == Call(Listeners(s, p)[i], v)
  {
    var ls := Listeners(s, p);
    seq(|ls|, i requires 0 <= i < |ls| => Call(ls[i], v))
  }

  datatype SetResult = SetResult(store: Store, calls: seq<Call>, ok: bool)

  /** The proxy's `set`: store and notify when the value differs; always report success. */
  function Set(s: Store, p: string, v: Value): (r: SetResult)
    ensures r.ok
    ensures Get(r.store, p) == v
    ensures forall q :: q != p ==> Get(r.store, q) == Get(s, q)
    ensures r.store.listeners == s.listeners
    ensures Get(s, p) == v ==> r.store == s && r.calls == []
    ensures Get(s, p) != v ==>
              (|r.calls| == |Listeners(s, p)| &&
               forall i :: 0 <= i < |r.calls| ==> r.calls[i] == Call(Listeners(s, p)[i], v))
  {
    if Get(s, p) != v then SetResult(s.(state := s.state[p := v]), Notify(s, p, v), true)
    else SetResult(s, [], true)
  }

  /** Setting the value a property already holds a second time is silent and changes nothing. */
  lemma SetTwiceIsSilent(s: Store, p: string, v: Value)
    ensures var once := Set(s, p, v).store;
            Set(once, p, v) == SetResult(once, [], true)
  {
  }

  /** Putting the old value back restores every property; the listeners hear both changes. */
  lemma SetThenRestore(s: Store, p: string, v: Value)
    ensures var back := Set(Set(s, p, v).store, p, Get(s, p)).store;
            forall q :: Get(back, q) == Get(s, q)
    ensures Get(s, p) != v ==>
              |Set(s, p, v).calls| + |Set(Set(s, p, v).store, p, Get(s, p)).calls| == 2 * |Listeners(s, p)|
  {
  }

  /** `subscribe` for each of `cbs` in turn. */
  function SubscribeAll(s: Store, p: string, cbs: seq<Listener>): (r: Store)
    ensures r.state == s.state
    ensures forall q :: q != p ==> Listeners(r, q) == Listeners(s, q)
    decreases |cbs|
  {
    if |cbs| == 0 then s else SubscribeAll(Subscribe(s, p, cbs[0]), p, cbs[1..])
  }

  /** Subscribing keeps order: the listeners are the old ones followed by the new ones as subscribed. */
  lemma {:induction false} SubscribeAllAppends(s: Store, p: string, cbs: seq<Listener>)
    ensures Listeners(SubscribeAll(s, p, cbs), p) == Listeners(s, p) + cbs
    decreases |cbs|
  {
    if |cbs| > 0 {
      SubscribeAllAppends(Subscribe(s, p, cbs[0]), p, cbs[1..]);
      assert Listeners(s, p) + [cbs[0]] + cbs[1..] == Listeners(s, p) + cbs;
    }
  }

  /**
   * After listeners subscribe to a property of the start-up store, a change
   * to it calls exactly them, in the order they subscribed, and a change to
   * another property calls none of them.
   */
  lemma ChangeCallsSubscribersInOrder(p: string, cbs: seq<Listener>, q: string, v: Value)
    requires Get(Initial(), q) != v
    ensures var s := SubscribeAll(Initial(), p, cbs);
            var calls := Set(s, q, v).calls;
            (q == p ==> |calls| == |cbs| && forall i :: 0 <= i < |cbs| ==> calls[i] == Call(cbs[i], v)) &&
            (q != p ==> calls == [])
  {
    SubscribeAllAppends(Initial(), p, cbs);
  }
}

=== FILE: text.dfy ===
/**
 * Python string primitives the bot relies on, written out so that their
 * corner cases are part of the model: `str.split`, `str.join`, `str.strip`,
 * `int()`, decimal rendering, `sep in s`, `s.startswith(p)` and the UTF-8
 * byte count behind `len(s.encode())`.
 */
module Text {
  import opened Wrappers

  // ---------------------------------------------------------------------
  // Substring search
  // ---------------------------------------------------------------------

  /** `sep` occurs in `s` starting at index `i`. */
  predicate OccursAt(s: string, sep: string, i: int) {
    0 <= i && i + |sep| <= |s| && s[i..i + |sep|] == sep
  }

  /** Python's `sep in s`. */
  predicate Contains(s: string, sep: string) {
    exists i | 0 <= i <= |s| :: OccursAt(s, sep, i)
  }

  /** The first index at or after `from` where `sep` occurs in `s`. */
  function FindFrom(s: string, sep: string, from: nat): (r: Option<nat>)
    requires from <= |s|
    ensures r.Some? ==> from <= r.value && OccursAt(s, sep, r.value)
    ensures forall j :: from <= j && (r.None? || j < r.value) ==> !OccursAt(s, sep, j)
    decreases |s| - from
  {
    if OccursAt(s, sep, from) then Some(from)
    else if from == |s| then None
    else FindFrom(s, sep, from + 1)
  }

  /** Python's `s.find(sep)`, with `None` for -1. */
  function Find(s: string, sep: string): (r: Option<nat>)
    ensures r.Some? <==> Contains(s, sep)
    ensures r.Some? ==> OccursAt(s, sep, r.value)
    ensures r.Some? ==> forall j :: 0 <= j < r.value ==> !OccursAt(s, sep, j)
  {
    var r := FindFrom(s, sep, 0);
    assert r.Some? ==> OccursAt(s, sep, r.value) && r.value <= |s|;
    r
  }

  /** Text without the character `c` does not contain the one-character string `[c]`. */
  lemma AbsentChar(s: string, c: char)
    requires forall j :: 0 <= j < |s| ==> s[j] != c
    ensures !Contains(s, [c])
  {
    forall j | 0 <= j <= |s|
      ensures !OccursAt(s, [c], j)
    {
      if j + 1 <= |s| {
        assert s[j..j + 1][0] == s[j];
      }
    }
  }

  /** A text that lacks one of the separator's characters cannot contain the separator. */
  lemma LacksCharOfSep(s: string, sep: string, k: nat)
    requires k < |sep|
    requires forall j :: 0 <= j < |s| ==> s[j] != sep[k]
    ensures !Contains(s, sep)
  {
    forall i | 0 <= i <= |s|
      ensures !OccursAt(s, sep, i)
    {
      if i + |sep| <= |s| {
        assert s[i..i + |sep|][k] == s[i + k];
      }
    }
  }

  /** Python's `s.startswith(p)`. */
  predicate StartsWith(s: string, p: string) {
    |p| <= |s| && s[..|p|] == p
  }

  /** An occurrence inside a prefix of `s` is an occurrence in `s`. */
  lemma OccursInPrefix(s: string, sep: string, i: nat, j: int)
    requires i <= |s|
    requires OccursAt(s[..i], sep, j)
    ensures OccursAt(s, sep, j) && j + |sep| <= i
  {
    assert s[..i][j..j + |sep|] == s[j..j + |sep|];
  }

  // ---------------------------------------------------------------------
  // split / join
  // ---------------------------------------------------------------------

  /** Python's `sep.join(parts)`. */
  function Join(parts: seq<string>, sep: string): string {
    if |parts| == 0 then ""
    else if |parts| == 1 then parts[0]
    else parts[0] + sep + Join(parts[1..], sep)
  }

  /** Three parts joined: the separator between the first and the second, and between the second and the third. */
  lemma JoinThree(a: string, b: string, c: string, sep: string)
    ensures Join([a, b, c], sep) == a + sep + (b + sep + c)
  {
    assert [a, b, c][1..] == [b, c] && [b, c][1..] == [c];
    assert Join([c], sep) == c;
    assert Join([b, c], sep) == b + sep + c;
  }

  /**
   * Python's `s.split(sep)` for a non-empty separator: cut at every
   * occurrence of `sep`, scanning left to right.
   */
  function Split(s: string, sep: string): (parts: seq<string>)
    requires |sep| > 0
    ensures |parts| >= 1
    ensures Join(parts, sep) == s
    ensures forall i :: 0 <= i < |parts| ==> !Contains(parts[i], sep)
    ensures Contains(s, sep) <==> |parts| > 1
    decreases |s|
  {
    match Find(s, sep)
    case None => [s]
    case Some(i) =>
      var rest := Split(s[i + |sep|..], sep);
      var head := s[..i];
      assert s == head + sep + s[i + |sep|..] by {
        assert s[i..i + |sep|] == sep;
        assert s == s[..i] + s[i..i + |sep|] + s[i + |sep|..];
      }
      assert !Contains(head, sep) by {
        forall j | 0 <= j <= |head| && OccursAt(head, sep, j)
          ensures false
        {
          OccursInPrefix(s, sep, i, j);
        }
      }
      var parts := [head] + rest;
      assert parts[1..] == rest;
      parts
  }

  /** Python's `s.split(sep, 1)` reduced to its outcome: the text before and after the first `sep`. */
  function Partition(s: string, sep: string): (r: Option<(string, string)>)
    requires |sep| > 0
    ensures r.None? <==> !Contains(s, sep)
    ensures r.Some? ==> s == r.value.0 + sep + r.value.1 && !Contains(r.value.0, sep)
    ensures r.Some? ==> forall j :: 0 <= j < |r.value.0| ==> !OccursAt(s, sep, j)
  {
    match Find(s, sep)
    case None => None
    case Some(i) =>
      assert s == s[..i] + s[i..i + |sep|] + s[i + |sep|..];
      assert !Contains(s[..i], sep) by {
        forall j | 0 <= j <= i && OccursAt(s[..i], sep, j)
          ensures false
        {
          OccursInPrefix(s, sep, i, j);
        }
      }
      Some((s[..i], s[i + |sep|..]))
  }

  /** In `a + sep + b`, a one-character `sep` first occurs right after separator-free `a`. */
  lemma FindAfter(a: string, sep: string, b: string)
    requires |sep| == 1 && !Contains(a, sep)
    ensures Find(a + sep + b, sep) == Some(|a|)
  {
    var s := a + sep + b;
    assert s[|a|..|a| + 1] == sep;
    assert OccursAt(s, sep, |a|);
    forall j | 0 <= j < |a|
      ensures !OccursAt(s, sep, j)
    {
      assert s[j..j + 1] == a[j..j + 1];
      assert !OccursAt(a, sep, j);
    }
  }

  /** A one-character separator after separator-free text `a` is the one `Partition` cuts at. */
  lemma PartitionAfter(a: string, sep: string, b: string)
    requires |sep| == 1 && !Contains(a, sep)
    ensures Partition(a + sep + b, sep) == Some((a, b))
  {
    var s := a + sep + b;
    FindAfter(a, sep, b);
    assert s[..|a|] == a;
    assert s[|a| + 1..] == b;
  }

  /** Splitting `a + sep + b`, with no one-character `sep` in `a`, gives `a` and then the pieces of `b`. */
  lemma SplitCons(a: string, sep: string, b: string)
    requires |sep| == 1 && !Contains(a, sep)
    ensures Split(a + sep + b, sep) == [a] + Split(b, sep)
  {
    var s := a + sep + b;
    FindAfter(a, sep, b);
    assert s[..|a|] == a;
    assert s[|a| + 1..] == b;
  }

  /** Splitting the join of separator-free pieces at a one-character separator gives the pieces back. */
  lemma {:induction false} SplitJoin(parts: seq<string>, sep: string)
    requires |sep| == 1 && |parts| > 0
    requires forall i :: 0 <= i < |parts| ==> !Contains(parts[i], sep)
    ensures Split(Join(parts, sep), sep) == parts
  {
    if |parts| > 1 {
      SplitJoin(parts[1..], sep);
      SplitCons(parts[0], sep, Join(parts[1..], sep));
      assert parts == [parts[0]] + parts[1..];
    }
  }

  /** The first piece of a split is a prefix of the split string. */
  lemma JoinStartsWithHead(parts: seq<string>, sep: string)
    requires |parts| >= 1
    ensures StartsWith(Join(parts, sep), parts[0])
  {
  }

  /** The last piece of a split is a suffix of the split string. */
  lemma {:induction false} JoinEndsWithLast(parts: seq<string>, sep: string)
    requires |parts| >= 1
    ensures |parts[|parts| - 1]| <= |Join(parts, sep)|
    ensures Join(parts, sep)[|Join(parts, sep)| - |parts[|parts| - 1]|..] == parts[|parts| - 1]
  {
    if |parts| > 1 {
      JoinEndsWithLast(parts[1..], sep);
      assert parts[1..][|parts[1..]| - 1] == parts[|parts| - 1];
      var j := Join(parts[1..], sep);
      assert Join(parts, sep) == parts[0] + sep + j;
    }
  }

  /** No proper prefix of `sep` is also a suffix of it, so two occurrences never overlap. */
  predicate Borderless(sep: string) {
    forall k :: 0 < k < |sep| ==> sep[..k] != sep[|sep| - k..]
  }

  /** Two overlapping occurrences of `sep` exhibit a border of `sep`. */
  lemma OverlapIsBorder(s: string, sep: string, q1: int, q2: int)
    requires OccursAt(s, sep, q1) && OccursAt(s, sep, q2)
    requires q1 < q2 < q1 + |sep|
    ensures !Borderless(sep)
  {
    var k := |sep| - (q2 - q1);
    assert sep[..k] == s[q2..q2 + k];
    assert sep[|sep| - k..] == s[q1 + |sep| - k..q1 + |sep|];
  }

  /**
   * For a borderless separator, `(p + sep + t).split(sep)[-1] == t` whenever
   * `t` holds no separator: the last piece is what follows the last separator.
   */
  lemma SplitLastAfter(p: string, sep: string, t: string)
    requires |sep| > 0 && Borderless(sep)
    requires !Contains(t, sep)
    ensures var parts := Split(p + sep + t, sep); parts[|parts| - 1] == t
  {
    var s := p + sep + t;
    var parts := Split(s, sep);
    var n := |parts|;
    assert s[|p|..|p| + |sep|] == sep;
    assert OccursAt(s, sep, |p|);
    assert n > 1;
    JoinSplitLast(parts, sep);
    LastPieceUnique(p, t, Join(parts[..n - 1], sep), parts[n - 1], sep);
  }

  /**
   * Text with two separator-free tails after a borderless separator has one
   * last piece: the two tails are the same.
   */
  lemma LastPieceUnique(p: string, t: string, front: string, last: string, sep: string)
    requires |sep| > 0 && Borderless(sep)
    requires p + sep + t == front + sep + last
    requires !Contains(t, sep) && !Contains(last, sep)
    ensures last == t
  {
    var s := p + sep + t;
    var q1, q2 := |front|, |p|;
    assert s[q2..q2 + |sep|] == sep;
    assert (front + sep + last)[q1..q1 + |sep|] == sep;
    assert OccursAt(s, sep, q1) && OccursAt(s, sep, q2);
    if q1 < q2 {
      if q2 < q1 + |sep| {
        OverlapIsBorder(s, sep, q1, q2);
      } else {
        assert s == (front + sep) + last;
        OccursInSuffix(front + sep, last, sep, q2);
      }
    } else if q2 < q1 {
      if q1 < q2 + |sep| {
        OverlapIsBorder(s, sep, q2, q1);
      } else {
        assert s == (p + sep) + t;
        OccursInSuffix(p + sep, t, sep, q1);
      }
    } else {
      assert t == s[q2 + |sep|..] && last == (front + sep + last)[q1 + |sep|..];
    }
  }

  /** An occurrence past the end of `u` is an occurrence in `w`. */
  lemma OccursInSuffix(u: string, w: string, sep: string, q: int)
    requires OccursAt(u + w, sep, q) && q >= |u|
    ensures Contains(w, sep)
  {
    assert (u + w)[q..q + |sep|] == w[q - |u|..q - |u| + |sep|];
    assert OccursAt(w, sep, q - |u|);
  }

  /** An occurrence that ends inside `u` is an occurrence in `u`. */
  lemma OccursEndingInPrefix(u: string, w: string, sep: string, q: int)
    requires 0 <= q
    ensures q + |sep| <= |u| && OccursAt(u + w, sep, q) ==> OccursAt(u, sep, q)
  {
    if q + |sep| <= |u| {
      assert (u + w)[q..q + |sep|] == u[q..q + |sep|];
    }
  }

  /** Splitting off the last piece: the text before it is the join of the other pieces. */
  lemma {:induction false} JoinSplitLast(parts: seq<string>, sep: string)
    requires |parts| > 1
    ensures Join(parts, sep) == Join(parts[..|parts| - 1], sep) + sep + parts[|parts| - 1]
  {
    if |parts| > 2 {
      JoinSplitLast(parts[1..], sep);
      assert parts[1..][..|parts| - 2] == parts[..|parts| - 1][1..];
    }
  }

  /**
   * For a borderless separator, `(a + b).split(sep)[0] == a` when `a` holds
   * no separator and `b` is empty or starts with one.
   */
  lemma SplitHeadBefore(a: string, b: string, sep: string)
    requires |sep| > 0 && Borderless(sep)
    requires !Contains(a, sep)
    requires b == "" || StartsWith(b, sep)
    ensures Split(a + b, sep)[0] == a
  {
    var s := a + b;
    if b == "" {
      assert s == a;
    } else {
      assert s[|a|..|a| + |sep|] == sep;
      assert OccursAt(s, sep, |a|);
      var i := Find(s, sep).value;
      OccursEndingInPrefix(a, b, sep, i);
      if i < |a| && i + |sep| > |a| {
        OverlapIsBorder(s, sep, i, |a|);
      }
      assert s[..i] == a;
    }
  }

  // ---------------------------------------------------------------------
  // strip
  // ---------------------------------------------------------------------

  /** Python's `str.isspace` for one character. */
  predicate IsSpace(c: char) {
    var n := c as int;
    n == 0x20 || 0x09 <= n <= 0x0D || 0x1C <= n <= 0x1F || n == 0x85 || n == 0xA0
    || n == 0x1680 || 0x2000 <= n <= 0x200A || n == 0x2028 || n == 0x2029
    || n == 0x202F || n == 0x205F || n == 0x3000
  }

  /** The index of the first non-space character at or after `i`, or `|s|`. */
  function SkipSpaces(s: string, i: nat): (j: nat)
    requires i <= |s|
    ensures i <= j <= |s|
    ensures forall k :: i <= k < j ==> IsSpace(s[k])
    ensures j < |s| ==> !IsSpace(s[j])
    decreases |s| - i
  {
    if i < |s| && IsSpace(s[i]) then SkipSpaces(s, i + 1) else i
  }

  /** The end of `s[lo..hi]` once trailing spaces are dropped. */
  function DropTrailingSpaces(s: string, lo: nat, hi: nat): (j: nat)
    requires lo <= hi <= |s|
    ensures lo <= j <= hi
    ensures forall k :: j <= k < hi ==> IsSpace(s[k])
    ensures j > lo ==> !IsSpace(s[j - 1])
    decreases hi
  {
    if hi > lo && IsSpace(s[hi - 1]) then DropTrailingSpaces(s, lo, hi - 1) else hi
  }

  /** `s[lo..hi]` is what is left once the spaces before `lo` and from `hi` on are dropped. */
  predicate StripsTo(s: string, lo: nat, hi: nat)
    requires lo <= hi <= |s|
  {
    && (forall k :: 0 <= k < lo ==> IsSpace(s[k]))
    && (forall k :: hi <= k < |s| ==> IsSpace(s[k]))
  }

  /**
   * `r` is what stripping `s` must give: a slice of `s` with only
   * whitespace cut away on either side, and no whitespace left at its ends.
   */
  ghost predicate IsStripOf(s: string, r: string) {
    && (|r| > 0 ==> !IsSpace(r[0]) && !IsSpace(r[|r| - 1]))
    && exists lo, hi :: 0 <= lo <= hi <= |s| && r == s[lo..hi] && StripsTo(s, lo, hi)
  }

  /** Python's `s.strip()` with no argument: drop leading and trailing whitespace. */
  function Strip(s: string): (r: string)
    ensures |r| > 0 ==> !IsSpace(r[0]) && !IsSpace(r[|r| - 1])
    ensures |r| == 0 ==> forall k :: 0 <= k < |s| ==> IsSpace(s[k])
    ensures |s| > 0 && !IsSpace(s[0]) && !IsSpace(s[|s| - 1]) ==> r == s
    ensures exists lo, hi :: 0 <= lo <= hi <= |s| && r == s[lo..hi] && StripsTo(s, lo, hi)
  {
    var lo := SkipSpaces(s, 0);
    var hi := DropTrailingSpaces(s, lo, |s|);
    s[lo..hi]
  }

  /** Only one text fits `IsStripOf`, so the characterisation pins `Strip` down. */
  lemma StripUnique(s: string, r: string)
    requires IsStripOf(s, r)
    ensures r == Strip(s)
  {
    if r == "" {
      StripOfAllSpace(s, r);
    } else {
      StripOfEdges(s, r);
    }
  }

  /** An empty strip means `s` is all whitespace, and then `Strip(s)` is empty too. */
  lemma StripOfAllSpace(s: string, r: string)
    requires IsStripOf(s, r) && r == ""
    ensures Strip(s) == ""
  {
    var lo, hi :| 0 <= lo <= hi <= |s| && r == s[lo..hi] && StripsTo(s, lo, hi);
    assert forall k :: 0 <= k < |s| ==> IsSpace(s[k]) by {
      forall k | 0 <= k < |s| ensures IsSpace(s[k]) {
        assert k < lo || hi <= k;
      }
    }
  }

  /** A non-empty strip starts at the first non-space and ends after the last one. */
  lemma StripOfEdges(s: string, r: string)
    requires IsStripOf(s, r) && r != ""
    ensures r == Strip(s)
  {
    var lo, hi :| 0 <= lo <= hi <= |s| && r == s[lo..hi] && StripsTo(s, lo, hi);
    assert s[lo] == r[0] && s[hi - 1] == r[|r| - 1];
    var f := SkipSpaces(s, 0);
    assert lo == f;
    var g := DropTrailingSpaces(s, f, |s|);
    assert hi == g;
  }

  // ---------------------------------------------------------------------
  // Decimal integers
  // ---------------------------------------------------------------------

  predicate IsDigit(c: char) {
    '0' <= c <= '9'
  }

  function DigitChar(d: nat): (c: char)
    requires d < 10
    ensures IsDigit(c)
  {
    (48 + d) as char
  }

  function DigitValue(c: char): nat {
    if IsDigit(c) then c as int - 48 else 0
  }

  /** Python's `str(n)` for a natural number. */
  function ShowNat(n: nat): (s: string)
    ensures |s| > 0
    ensures forall i :: 0 <= i < |s| ==> IsDigit(s[i])
    ensures n < 10 ==> |s| == 1
    ensures n < 100 ==> |s| <= 2
  {
    if n < 10 then [DigitChar(n)] else ShowNat(n / 10) + [DigitChar(n % 10)]
  }

  /** Python's `str(i)` for an integer. */
  function ShowInt(i: int): (s: string)
    ensures |s| > 0
  {
    if i < 0 then "-" + ShowNat(-i) else ShowNat(i)
  }

  /** A decimal rendering holds digits and at most a minus sign. */
  lemma ShowIntChars(i: int)
    ensures forall j :: 0 <= j < |ShowInt(i)| ==> IsDigit(ShowInt(i)[j]) || ShowInt(i)[j] == '-'
  {
    var s := ShowInt(i);
    forall j | 0 <= j < |s|
      ensures IsDigit(s[j]) || s[j] == '-'
    {
      if i < 0 && j > 0 {
        assert s[j] == ShowNat(-i)[j - 1];
      }
    }
  }

  /** Python's `f"{n:02d}"` for `0 <= n`: at least two digits, zero-padded. */
  function Pad2(n: nat): (s: string)
    ensures |s| >= 2
    ensures n < 100 ==> |s| == 2
  {
    if n < 10 then "0" + ShowNat(n) else ShowNat(n)
  }

  /** The value of the digits of `s`, skipping `_` separators. */
  function DigitsValue(s: string): nat {
    if |s| == 0 then 0
    else if s[|s| - 1] == '_' then DigitsValue(s[..|s| - 1])
    else DigitsValue(s[..|s| - 1]) * 10 + DigitValue(s[|s| - 1])
  }

  /**
   * Python's integer-literal digit grammar accepted by `int()`:
   * digits, single underscores allowed only between two digits.
   */
  predicate WellFormedDigits(s: string) {
    && |s| > 0
    && IsDigit(s[0])
    && IsDigit(s[|s| - 1])
    && (forall i :: 0 <= i < |s| ==> IsDigit(s[i]) || s[i] == '_')
    && (forall i :: 0 <= i < |s| - 1 ==> s[i] != '_' || s[i + 1] != '_')
  }

  /** Python's `int(s)` on text, with `None` where it raises `ValueError`. */
  function ParseInt(s: string): (r: Option<int>)
    ensures r.Some? ==> |Strip(s)| > 0
  {
    ParseStripped(Strip(s))
  }

  /** `int()` on text already stripped: an optional sign, then well-formed digits. */
  function ParseStripped(t: string): (r: Option<int>)
    ensures r.Some? ==> |t| > 0
  {
    if |t| > 0 && (t[0] == '+' || t[0] == '-') then
      if WellFormedDigits(t[1..]) then
        var v: int := DigitsValue(t[1..]);
        Some(if t[0] == '-' then -v else v)
      else None
    else if WellFormedDigits(t) then Some(DigitsValue(t))
    else None
  }

  /**
   * What `int()` accepts, after stripping: only digits, "_" and a leading
   * sign; a negative value has a leading "-"; and plain digits always
   * parse, to a non-negative value.
   */
  lemma ParseIntSyntax(s: string)
    ensures ParseInt(s).Some? ==> forall k :: 0 <= k < |Strip(s)| ==>
              IsDigit(Strip(s)[k]) || Strip(s)[k] == '_' || (k == 0 && Strip(s)[k] in "+-")
    ensures ParseInt(s).Some? && ParseInt(s).value < 0 ==> Strip(s)[0] == '-'
    ensures |Strip(s)| > 0 && (forall k :: 0 <= k < |Strip(s)| ==> IsDigit(Strip(s)[k])) ==>
              ParseInt(s).Some? && ParseInt(s).value >= 0
  {
    var t := Strip(s);
    if |t| > 0 && (t[0] == '+' || t[0] == '-') {
      if WellFormedDigits(t[1..]) {
        forall k | 1 <= k < |t| ensures IsDigit(t[k]) || t[k] == '_' {
          assert t[k] == t[1..][k - 1];
        }
      }
    } else if |t| > 0 && forall k :: 0 <= k < |t| ==> IsDigit(t[k]) {
      assert WellFormedDigits(t);
    }
  }

  /** Two digits parse as the number they spell. */
  lemma ParseTwoDigits(a: nat, b: nat)
    requires a < 10 && b < 10
    ensures ParseInt([DigitChar(a), DigitChar(b)]) == Some(10 * a + b)
  {
    var p := [DigitChar(a), DigitChar(b)];
    assert !IsSpace(p[0]) && !IsSpace(p[1]);
    assert Strip(p) == p;
    assert WellFormedDigits(p);
    assert p[..1] == [DigitChar(a)] && [DigitChar(a)][..0] == [];
    assert DigitsValue([DigitChar(a)]) == a;
    assert DigitsValue(p) == a * 10 + b;
  }

  lemma {:induction false} DigitsValueShowNat(n: nat)
    ensures DigitsValue(ShowNat(n)) == n
  {
    if n >= 10 {
      DigitsValueShowNat(n / 10);
      var s := ShowNat(n);
      assert s[..|s| - 1] == ShowNat(n / 10);
    }
  }

  /** `int(str(i)) == i`: the decimal rendering parses back to the same integer. */
  lemma ParseShowInt(i: int)
    ensures ParseInt(ShowInt(i)) == Some(i)
  {
    var s := ShowInt(i);
    if i < 0 {
      var n: nat := -i;
      assert s == "-" + ShowNat(n);
      ParseNegative(n);
    } else {
      assert s == ShowNat(i);
      ParseShowNat(i);
    }
  }

  /** A run of decimal digits parses as the number it spells. */
  lemma ParseShowNat(n: nat)
    ensures ParseInt(ShowNat(n)) == Some(n)
  {
    var d := ShowNat(n);
    DigitsOnlyParse(d);
    DigitsValueShowNat(n);
  }

  /** Digits alone, with no sign or underscore, parse as their value. */
  lemma DigitsOnlyParse(d: string)
    requires |d| > 0 && forall i :: 0 <= i < |d| ==> IsDigit(d[i])
    ensures ParseInt(d) == Some(DigitsValue(d))
  {
    DigitsOnlyStripped(d);
    UnpaddedStrip(d);
  }

  lemma DigitsOnlyStripped(d: string)
    requires |d| > 0 && forall i :: 0 <= i < |d| ==> IsDigit(d[i])
    ensures ParseStripped(d) == Some(DigitsValue(d))
  {
    assert WellFormedDigits(d);
  }

  /** Text with no whitespace at either end is its own strip. */
  lemma UnpaddedStrip(s: string)
    requires |s| > 0 && forall i :: 0 <= i < |s| ==> !IsSpace(s[i])
    ensures Strip(s) == s
  {
    assert !IsSpace(s[0]) && !IsSpace(s[|s| - 1]);
  }

  /** A minus sign before a run of digits parses as the negated number. */
  lemma ParseNegative(n: nat)
    requires n > 0
    ensures ParseInt("-" + ShowNat(n)) == Some(-(n as int))
  {
    NegativeStripped(n);
    var s := "-" + ShowNat(n);
    forall i | 0 <= i < |s|
      ensures !IsSpace(s[i])
    {
      if i > 0 {
        assert s[i] == ShowNat(n)[i - 1];
      }
    }
    UnpaddedStrip(s);
  }

  lemma NegativeStripped(n: nat)
    requires n > 0
    ensures ParseStripped("-" + ShowNat(n)) == Some(-(n as int))
  {
    var d := ShowNat(n);
    var s := "-" + d;
    assert s[1..] == d;
    assert WellFormedDigits(d);
    DigitsValueShowNat(n);
  }

  // ---------------------------------------------------------------------
  // UTF-8
  // ---------------------------------------------------------------------

  newtype byte = x: int | 0 <= x < 256

  /** The number of bytes UTF-8 uses for one Unicode scalar value. */
  function CharUtf8Len(c: char): nat {
    var n := c as int;
    if n < 0x80 then 1 else if n < 0x800 then 2 else if n < 0x10000 then 3 else 4
  }

  /** The number of bytes of `s.encode()` (UTF-8). */
  function Utf8Len(s: string): nat {
    if |s| == 0 then 0 else CharUtf8Len(s[0]) + Utf8Len(s[1..])
  }

  /** The UTF-8 encoding of one Unicode scalar value. */
  function CharUtf8(c: char): (bs: seq<byte>)
    ensures |bs| == CharUtf8Len(c)
  {
    var n := c as int;
    if n < 0x80 then [n as byte]
    else if n < 0x800 then [(0xC0 + n / 64) as byte, (0x80 + n % 64) as byte]
    else if n < 0x10000 then
      [(0xE0 + n / 4096) as byte, (0x80 + (n / 64) % 64) as byte, (0x80 + n % 64) as byte]
    else
      [(0xF0 + n / 262144) as byte, (0x80 + (n / 4096) % 64) as byte,
       (0x80 + (n / 64) % 64) as byte, (0x80 + n % 64) as byte]
  }

  /** Python's `s.encode()` (UTF-8). */
  function Utf8Encode(s: string): seq<byte> {
    if |s| == 0 then [] else CharUtf8(s[0]) + Utf8Encode(s[1..])
  }

  /** `len(s.encode())` is the per-character byte count summed. */
  lemma {:induction false} Utf8EncodeLength(s: string)
    ensures |Utf8Encode(s)| == Utf8Len(s)
  {
    if |s| > 0 {
      Utf8EncodeLength(s[1..]);
    }
  }

  /** Byte counts add up over concatenation. */
  lemma {:induction false} Utf8LenAppend(a: string, b: string)
    ensures Utf8Len(a + b) == Utf8Len(a) + Utf8Len(b)
  {
    if |a| > 0 {
      assert (a + b)[1..] == a[1..] + b;
      Utf8LenAppend(a[1..], b);
    } else {
      assert a + b == b;
    }
  }

  /** ASCII text takes one byte per character. */
  lemma {:induction false} Utf8LenAscii(s: string)
    requires forall i :: 0 <= i < |s| ==> s[i] as int < 0x80
    ensures Utf8Len(s) == |s|
  {
    if |s| > 0 {
      Utf8LenAscii(s[1..]);
    }
  }
}

=== FILE: ui.dfy ===
/**
 * The web player's interface logic (webapp/js/ui.js): the random pick
 * from the genre menu, the menu stack, the two drawers, the playlist
 * rows and the time display. Rendering to the DOM is left out; each
 * operation returns the state or the values it would render.
 * `Math.random` becomes a list of picks.
 */
module Ui {
  import opened Wrappers
  import opened Text
  import Player
  import Radio

  // ---------------------------------------------------------------------
  // the genre menu and the random pick
  // ---------------------------------------------------------------------

  /** A menu node: a `query` and `children` may be missing, as in the menu literal. */
  datatype MenuItem = MenuItem(name: string, query: Option<string>, children: Children,
                               action: Option<string>)

  /** A node's `children` property: missing, or an array (possibly empty). */
  datatype Children = Absent | Present(items: seq<MenuItem>)

  const Fallback: string := "lofi hip hop"

  /** A string in a JavaScript condition: missing and empty are false. */
  predicate Truthy(s: Option<string>) {
    s.Some? && s.value != ""
  }

  /** A node `getRandomQuery` recurses into: no query, and at least one child. */
  predicate Branches(node: MenuItem) {
    !Truthy(node.query) && node.children.Present? && |node.children.items| > 0
  }

  /** One pick per level the random walk descends, each naming an existing child. */
  predicate PicksFit(node: MenuItem, picks: seq<nat>)
    decreases node
  {
    Branches(node) ==>
      |picks| > 0 && picks[0] < |node.children.items| &&
      var child := node.children.items[picks[0]];
      assert child in node.children.items;
      PicksFit(child, picks[1..])
  }

  /**
   * The queries a random walk can end on: a node's own query when it has
   * one; otherwise those of its children; otherwise the fallback.
   */
  ghost predicate Drawable(node: MenuItem, q: string)
    decreases node
  {
    if Truthy(node.query) then q == node.query.value
    else if Branches(node) then
      exists child :: child in node.children.items && Drawable(child, q)
    else q == Fallback
  }

  /**
   * `getRandomQuery` as written: `node.children` is tested for truthiness,
   * and an empty array is truthy, so a node with no query and an empty
   * children list indexes `children[0]`, gets `undefined` and throws a
   * TypeError (`None` here).
   */
  function RandomQueryAsWritten(node: MenuItem, picks: seq<nat>): (r: Option<string>)
    requires PicksFit(node, picks)
    decreases node
  {
    if Truthy(node.query) then Some(node.query.value)
    else if node.children.Present? then
      if |node.children.items| == 0 then None
      else
        var child := node.children.items[picks[0]];
        assert child in node.children.items;
        RandomQueryAsWritten(child, picks[1..])
    else Some(Fallback)
  }

  /** The walk as evidently intended: a node with nothing under it gives the fallback. */
  function RandomQuery(node: MenuItem, picks: seq<nat>): (q: string)
    requires PicksFit(node, picks)
    ensures Drawable(node, q)
    decreases node
  {
    if Truthy(node.query) then node.query.value
    else if Branches(node) then
      var child := node.children.items[picks[0]];
      assert child in node.children.items;
      RandomQuery(child, picks[1..])
    else Fallback
  }

  /** Every drawable query is drawn by some picks. */
  lemma {:induction false} EveryDrawableIsDrawn(node: MenuItem, q: string)
    requires Drawable(node, q)
    ensures exists picks :: PicksFit(node, picks) && RandomQuery(node, picks) == q
    decreases node
  {
    if Truthy(node.query) {
      assert PicksFit(node, []) && RandomQuery(node, []) == q;
    } else if Branches(node) {
      var kids := node.children.items;
      var child :| child in kids && Drawable(child, q);
      var i :| 0 <= i < |kids| && kids[i] == child;
      EveryDrawableIsDrawn(kids[i], q);
      var rest :| PicksFit(kids[i], rest) && RandomQuery(kids[i], rest) == q;
      var picks := [i] + rest;
      assert picks[1..] == rest;
      assert PicksFit(node, picks) && RandomQuery(node, picks) == q;
    } else {
      assert PicksFit(node, []) && RandomQuery(node, []) == q;
    }
  }

  /** The two walks agree wherever the code does not throw. */
  lemma {:induction false} AsWrittenAgrees(node: MenuItem, picks: seq<nat>)
    requires PicksFit(node, picks)
    requires RandomQueryAsWritten(node, picks).Some?
    ensures RandomQueryAsWritten(node, picks) == Some(RandomQuery(node, picks))
    decreases node
  {
    if !Truthy(node.query) && Branches(node) {
      var child := node.children.items[picks[0]];
      assert child in node.children.items;
      AsWrittenAgrees(child, picks[1..]);
    }
  }

  /** A folder with no entries: the code throws where the fallback was meant. */
  lemma EmptyFolderThrows()
    ensures var folder := MenuItem("Empty", None, Present([]), None);
            RandomQueryAsWritten(folder, []) == None && RandomQuery(folder, []) == Fallback
  {
  }

  // ---------------------------------------------------------------------
  // the menu stack
  // ---------------------------------------------------------------------

  /** An entry of `menuStack`: a title and the items shown under it. */
  datatype Frame = Frame(title: string, items: seq<MenuItem>)

  const RootTitle: string := "Frequency"

  /** The menu shown: the top of the stack, or the root when the stack is empty. */
  function Current(rootItems: seq<MenuItem>, stack: seq<Frame>): (r: (Frame, bool))
    ensures r.1 <==> |stack| == 0
    ensures |stack| == 0 ==> r.0 == Frame(RootTitle, rootItems)
    ensures |stack| > 0 ==> r.0 == stack[|stack| - 1]
  {
    if |stack| > 0 then (stack[|stack| - 1], false) else (Frame(RootTitle, rootItems), true)
  }

  /** The back button: pops unless the root is shown. */
  function Back(stack: seq<Frame>): (r: seq<Frame>)
    ensures |stack| == 0 ==> r == stack
    ensures |stack| > 0 ==> |r| == |stack| - 1 && r == stack[..|r|]
  {
    if |stack| > 0 then stack[..|stack| - 1] else stack
  }

  /** What a click on a menu row asks for. */
  datatype Click =
    | Opened(stack: seq<Frame>)               // a folder: pushed, drawer stays open
    | Load(query: Option<string>)             // a leaf: drawer closes, `loadGenreHandler(query)`
    | Threw                                   // drawer closed, then the random walk threw: nothing loads

  /**
   * A click on `item`: an item with `children` (even empty ones) is pushed;
   * any other item closes the drawer and loads its query, or, for the
   * "random" action, a random one from the whole menu drawn by the walk as
   * written, which throws on an empty folder.
   */
  function ClickItem(stack: seq<Frame>, item: MenuItem, root: MenuItem, picks: seq<nat>): (r: Click)
    requires PicksFit(root, picks)
    ensures item.children.Present? ==> r == Opened(stack + [Frame(item.name, item.children.items)])
    ensures r.Threw? <==>
              item.children.Absent? && item.action == Some("random") &&
              RandomQueryAsWritten(root, picks).None?
    ensures item.children.Absent? && item.action == Some("random") && r.Load? ==>
              r.query == Some(RandomQuery(root, picks)) && Drawable(root, r.query.value)
    ensures item.children.Absent? && item.action != Some("random") ==> r == Load(item.query)
  {
    if item.children.Present? then Opened(stack + [Frame(item.name, item.children.items)])
    else if item.action == Some("random") then
      match RandomQueryAsWritten(root, picks)
      case None => Threw
      case Some(q) =>
        AsWrittenAgrees(root, picks);
        Load(Some(q))
    else Load(item.query)
  }

  /** Every folder in the menu without a query of its own has at least one entry. */
  predicate NoEmptyFolder(node: MenuItem)
    decreases node
  {
    (!Truthy(node.query) && node.children.Present? ==> |node.children.items| > 0) &&
    (node.children.Present? ==>
       forall i :: 0 <= i < |node.children.items| ==> NoEmptyFolder(node.children.items[i]))
  }

  /** On a menu without empty folders the walk as written never throws and is the corrected walk. */
  lemma {:induction false} NoEmptyFolderNeverThrows(node: MenuItem, picks: seq<nat>)
    requires PicksFit(node, picks) && NoEmptyFolder(node)
    ensures RandomQueryAsWritten(node, picks) == Some(RandomQuery(node, picks))
    decreases node
  {
    if !Truthy(node.query) && node.children.Present? {
      var child := node.children.items[picks[0]];
      assert child in node.children.items;
      NoEmptyFolderNeverThrows(child, picks[1..]);
    }
  }

  /** On such a menu the random row always loads a drawable query. */
  lemma RandomClickLoads(stack: seq<Frame>, item: MenuItem, root: MenuItem, picks: seq<nat>)
    requires PicksFit(root, picks) && NoEmptyFolder(root)
    requires item.children.Absent? && item.action == Some("random")
    ensures ClickItem(stack, item, root, picks) == Load(Some(RandomQuery(root, picks)))
  {
    NoEmptyFolderNeverThrows(root, picks);
  }

  /** A menu whose only folder is empty: the random row throws instead of loading the fallback. */
  lemma RandomClickThrowsOnEmptyFolder(stack: seq<Frame>, picks: seq<nat>)
    ensures var root := MenuItem("Root", None, Present([]), None);
            var random := MenuItem("Random", None, Absent, Some("random"));
            PicksFit(root, picks) && ClickItem(stack, random, root, picks) == Threw
  {
  }

  /** Opening a folder and going back returns to the menu that was shown. */
  lemma BackUndoesOpen(rootItems: seq<MenuItem>, stack: seq<Frame>, item: MenuItem, root: MenuItem, picks: seq<nat>)
    requires PicksFit(root, picks) && item.children.Present?
    ensures var inside := ClickItem(stack, item, root, picks).stack;
            Back(inside) == stack && Current(rootItems, Back(inside)) == Current(rootItems, stack)
    ensures var inside := ClickItem(stack, item, root, picks).stack;
            Current(rootItems, inside) == (Frame(item.name, item.children.items), false)
  {
    var inside := ClickItem(stack, item, root, picks).stack;
    assert inside[..|stack|] == stack;
  }

  /** Back pressed as often as folders were opened returns to the root, and stays there. */
  lemma {:induction false} BackToRoot(stack: seq<Frame>, k: nat)
    requires k >= |stack|
    ensures BackTimes(stack, k) == []
    decreases k
  {
    if k > 0 {
      BackToRoot(Back(stack), k - 1);
    }
  }

  function BackTimes(stack: seq<Frame>, k: nat): (r: seq<Frame>)
    ensures |r| <= |stack|
    decreases k
  {
    if k == 0 then stack else BackTimes(Back(stack), k - 1)
  }

  // ---------------------------------------------------------------------
  // drawers
  // ---------------------------------------------------------------------

  /** Which of the overlay and the two drawers carry the `active` class. */
  datatype Drawers = Drawers(overlay: bool, genres: bool, playlist: bool)

  const Closed: Drawers := Drawers(false, false, false)

  /**
   * `toggleDrawer(name, show)`: showing turns the overlay on and the named
   * drawer on and the other off (an unknown name only turns the overlay on);
   * hiding turns all three off.
   */
  function ToggleDrawer(d: Drawers, name: Option<string>, show: bool): (r: Drawers)
    ensures !show ==> r == Closed
    ensures show ==> r.overlay
    ensures show && name == Some("genres") ==> r.genres && !r.playlist
    ensures show && name == Some("playlist") ==> r.playlist && !r.genres
    ensures show && name != Some("genres") && name != Some("playlist") ==>
              r.genres == d.genres && r.playlist == d.playlist
  {
    if !show then Closed
    else if name == Some("genres") then Drawers(true, true, false)
    else if name == Some("playlist") then Drawers(true, false, true)
    else d.(overlay := true)
  }

  /** At most one drawer is open, and only over the overlay. */
  predicate DrawersValid(d: Drawers) {
    !(d.genres && d.playlist) && ((d.genres || d.playlist) ==> d.overlay)
  }

  /** Every toggle keeps the drawers valid, and hiding after showing closes everything. */
  lemma ToggleKeepsValid(d: Drawers, name: Option<string>, show: bool)
    requires DrawersValid(d)
    ensures DrawersValid(ToggleDrawer(d, name, show))
    ensures ToggleDrawer(ToggleDrawer(d, name, show), None, false) == Closed
  {
  }

  // ---------------------------------------------------------------------
  // the playlist drawer
  // ---------------------------------------------------------------------

  datatype Row = Row(title: string, artist: string, active: bool, icon: string)

  /** What `renderPlaylist` draws. */
  datatype PlaylistView = EmptyQueue | Rows(rows: seq<Row>)

  /**
   * `renderPlaylist(playlist, currentIndex)`: the empty state for a missing
   * or empty list; otherwise one row per track, the current one active and
   * with the equalizer icon.
   */
  function RenderPlaylist(playlist: Option<seq<Player.WebTrack>>, currentIndex: int): (v: PlaylistView)
    ensures v.EmptyQueue? <==> playlist.None? || |playlist.value| == 0
    ensures v.Rows? ==>
              (|v.rows| == |playlist.value| &&
               forall i :: 0 <= i < |v.rows| ==>
                 v.rows[i].title == playlist.value[i].title && v.rows[i].artist == playlist.value[i].artist &&
                 (v.rows[i].active <==> i == currentIndex) &&
                 v.rows[i].icon == (if i == currentIndex then "equalizer" else "music_note"))
  {
    if playlist.None? || |playlist.value| == 0 then EmptyQueue
    else
      var ts := playlist.value;
      Rows(seq(|ts|, i requires 0 <= i < |ts| =>
        Row(ts[i].title, ts[i].artist, i == currentIndex, if i == currentIndex then "equalizer" else "music_note")))
  }

  /** How many rows are marked active. */
  function ActiveCount(rows: seq<Row>): nat
    decreases |rows|
  {
    if |rows| == 0 then 0 else (if rows[0].active then 1 else 0) + ActiveCount(rows[1..])
  }

  /** Rows active exactly at position `k` (counted from `base`) hold one active row if `k` is among them. */
  lemma {:induction false} ActiveCountAt(rows: seq<Row>, base: int, k: int)
    requires forall i :: 0 <= i < |rows| ==> (rows[i].active <==> base + i == k)
    ensures ActiveCount(rows) == if base <= k < base + |rows| then 1 else 0
    decreases |rows|
  {
    if |rows| > 0 {
      ActiveCountAt(rows[1..], base + 1, k);
    }
  }

  /** With tracks, exactly one row is active when the index is in range and none otherwise (-1 included). */
  lemma OneActiveRow(playlist: seq<Player.WebTrack>, currentIndex: int)
    requires |playlist| > 0
    ensures RenderPlaylist(Some(playlist), currentIndex).Rows?
    ensures ActiveCount(RenderPlaylist(Some(playlist), currentIndex).rows) ==
            if 0 <= currentIndex < |playlist| then 1 else 0
  {
    ActiveCountAt(RenderPlaylist(Some(playlist), currentIndex).rows, 0, currentIndex);
  }

  // ---------------------------------------------------------------------
  // formatTime
  // ---------------------------------------------------------------------

  /** A JavaScript number: NaN, an infinity, or a finite value (taken exactly). */
  datatype JsNumber = NaN | PosInf | NegInf | Finite(r: real)

  /** `Math.trunc`. */
  function Trunc(x: real): int {
    if x >= 0.0 then x.Floor else -((-x).Floor)
  }

  /** `a % b` on numbers: the remainder takes the sign of `a`. */
  function JsRem(a: real, b: real): real
    requires b != 0.0
  {
    a - b * (Trunc(a / b) as real)
  }

  /** `String.prototype.padStart(2, "0")`. */
  function PadStart2(s: string): (r: string)
    ensures |s| >= 2 ==> r == s
    ensures |s| < 2 ==> |r| == 2 && r[2 - |s|..] == s
  {
    if |s| >= 2 then s else seq(2 - |s|, _ => '0') + s
  }

  /**
   * `formatTime(s)`: "0:00" for NaN; otherwise the whole minutes, ":", and
   * the whole seconds of the remainder padded to two characters. An
   * infinity gives "Infinity" minutes and "NaN" seconds.
   */
  function FormatTime(s: JsNumber): (t: string)
    ensures s == NaN ==> t == "0:00"
  {
    match s
    case NaN => "0:00"
    case PosInf => "Infinity:" + PadStart2("NaN")
    case NegInf => "-Infinity:" + PadStart2("NaN")
    case Finite(r) =>
      var m := (r / 60.0).Floor;
      var sec := JsRem(r, 60.0).Floor;
      ShowInt(m) + ":" + PadStart2(ShowInt(sec))
  }

  /** For a non-negative time, the minutes and seconds are those of its whole seconds. */
  lemma WholeSeconds(r: real)
    requires r >= 0.0
    ensures (r / 60.0).Floor == r.Floor / 60
    ensures JsRem(r, 60.0).Floor == r.Floor % 60
  {
    var n := r.Floor;
    var q, k := n / 60, n % 60;
    assert n == 60 * q + k && 0 <= k < 60;
    assert (n as real) <= r < (n as real) + 1.0;
    assert (q as real) * 60.0 <= r;
    assert r < (q as real) * 60.0 + 60.0;
    assert (q as real) <= r / 60.0 < (q as real) + 1.0;
    assert Trunc(r / 60.0) == q;
    assert JsRem(r, 60.0) == r - 60.0 * (q as real);
    assert (k as real) <= r - 60.0 * (q as real) < (k as real) + 1.0;
  }

  /** Two digits padded by `padStart` read the same as the bot's two-digit padding. */
  lemma PadAgrees(n: nat)
    requires n < 60
    ensures PadStart2(ShowInt(n)) == Pad2(n)
  {
  }

  /**
   * The player's clock and the bot's `format_duration` write the same text
   * for any time of at least zero seconds: the web clock shows the whole
   * seconds of the time as the bot would.
   */
  lemma ClockAgreesWithBot(r: real)
    requires r >= 0.0
    ensures FormatTime(Finite(r)) == Radio.FormatDuration(r.Floor)
  {
    WholeSeconds(r);
    PadAgrees(r.Floor % 60);
  }
}

=== FILE: webmain.dfy ===
/**
 * The web player's wiring (webapp/js/main.js): how player statuses are
 * logged, what loading a genre does, and the shuffle button's in-place
 * Fisher–Yates shuffle. `Math.random` becomes a list of picks, one per
 * position, and the fetched playlist is a parameter.
 */
module WebMain {
  import opened Wrappers
  import opened Player
  import Ui

  // ---------------------------------------------------------------------
  // status log
  // ---------------------------------------------------------------------

  /** The log style for a player status: error, success, loading, or info for anything else. */
  function LogType(status: string): (t: string)
    ensures t == "error" <==> status == "error"
    ensures t == "success" <==> status == "playing"
    ensures t == "loading" <==> status == "loading"
    ensures t == "info" <==> status !in {"error", "playing", "loading"}
  {
    var t := "info";
    var t := if status == "error" then "error" else t;
    var t := if status == "playing" then "success" else t;
    if status == "loading" then "loading" else t
  }

  // ---------------------------------------------------------------------
  // the page
  // ---------------------------------------------------------------------

  datatype App = App(deck: Deck, drawers: Ui.Drawers)

  predicate AppValid(a: App) {
    Valid(a.deck) && Ui.DrawersValid(a.drawers)
  }

  /**
   * `loadGenreHandler(query)` once `fetchPlaylist` has answered (it never
   * fails: errors come back as an empty list): the genre drawer closes, the
   * fetched list replaces the playlist, and its first track plays if it has one.
   * An undefined query throws at `query.toUpperCase()` right after the drawer
   * closes, so nothing is fetched and the deck stays as it was.
   */
  function LoadGenre(a: App, query: Option<string>, fetched: seq<WebTrack>, allowed: bool): (r: App)
    ensures r.drawers == Ui.Closed
    ensures query.None? ==> r.deck == a.deck
    ensures query.Some? ==> r.deck.playlist == fetched
    ensures query.Some? && |fetched| > 0 ==>
              r.deck.index == 0 && r.deck.src == AudioSrc(fetched[0]) && r.deck.isPlaying == allowed
    ensures query.Some? && |fetched| == 0 ==> r.deck == a.deck.(playlist := [])
  {
    var drawers := Ui.ToggleDrawer(a.drawers, Some("genres"), false);
    if query.None? then App(a.deck, drawers)
    else
      var deck := a.deck.(playlist := fetched);
      App(if |fetched| > 0 then PlayTrack(deck, 0, allowed) else deck, drawers)
  }

  /** Loading a genre keeps the page valid, whatever the fetch returned. */
  lemma LoadKeepsValid(a: App, query: Option<string>, fetched: seq<WebTrack>, allowed: bool)
    requires AppValid(a)
    ensures AppValid(LoadGenre(a, query, fetched, allowed))
  {
  }

  /**
   * A click on a menu leaf followed by the handler it calls: a leaf with a
   * query replaces the playlist with what was fetched for it, and a leaf
   * without one only closes the drawer.
   */
  lemma LeafClickLoads(a: App, stack: seq<Ui.Frame>, item: Ui.MenuItem, root: Ui.MenuItem, picks: seq<nat>,
                       fetched: seq<WebTrack>, allowed: bool)
    requires Ui.PicksFit(root, picks)
    requires item.children.Absent? && item.action != Some("random")
    ensures var c := Ui.ClickItem(stack, item, root, picks);
            && c.Load?
            && (item.query.Some? ==> LoadGenre(a, c.query, fetched, allowed).deck.playlist == fetched)
            && (item.query.None? ==> LoadGenre(a, c.query, fetched, allowed) == a.(drawers := Ui.Closed))
  {
    var c := Ui.ClickItem(stack, item, root, picks);
    assert c == Ui.Load(item.query);
  }

  // ---------------------------------------------------------------------
  // shuffle
  // ---------------------------------------------------------------------

  /** `[s[i], s[j]] = [s[j], s[i]]`. */
  function Swap<T>(s: seq<T>, i: nat, j: nat): (r: seq<T>)
    requires i < |s| && j < |s|
    ensures |r| == |s| && r[i] == s[j] && r[j] == s[i]
    ensures forall k :: 0 <= k < |s| && k != i && k != j ==> r[k] == s[k]
  {
    s[i := s[j]][j := s[i]]
  }

  lemma SwapPermutes<T>(s: seq<T>, i: nat, j: nat)
    requires i < |s| && j < |s|
    ensures multiset(Swap(s, i, j)) == multiset(s)
  {
    var t := s[i := s[j]];
    assert multiset(t) == multiset(s) - multiset{s[i]} + multiset{s[j]};
    assert multiset(t[j := s[i]]) == multiset(t) - multiset{t[j]} + multiset{s[i]};
  }

  /** `Math.floor(Math.random() * (i + 1))` for each `i` the loop visits: a number from 0 to `i`. */
  predicate PicksFit(n: nat, picks: seq<nat>) {
    |picks| >= n && forall i :: 0 < i < n ==> picks[i] <= i
  }

  /** The loop from position `i` down to 1. */
  function FisherYatesFrom<T>(s: seq<T>, i: nat, picks: seq<nat>): (r: seq<T>)
    requires i < |s| && PicksFit(|s|, picks)
    ensures |r| == |s|
    decreases i
  {
    if i == 0 then s else FisherYatesFrom(Swap(s, i, picks[i]), i - 1, picks)
  }

  /** The whole loop; fewer than two tracks are left as they are. */
  function FisherYates<T>(s: seq<T>, picks: seq<nat>): (r: seq<T>)
    requires PicksFit(|s|, picks)
    ensures |r| == |s|
  {
    if |s| < 2 then s else FisherYatesFrom(s, |s| - 1, picks)
  }

  /** The shuffle loop as main.js runs it, swapping in place from the last position down. */
  method Shuffle<T>(s: seq<T>, picks: seq<nat>) returns (r: seq<T>)
    requires PicksFit(|s|, picks)
    ensures multiset(r) == multiset(s)
    ensures r == FisherYates(s, picks)
    ensures |s| < 2 ==> r == s
  {
    r := s;
    if |r| < 2 {
      return;
    }
    var i := |r| - 1;
    while i > 0
      invariant 0 <= i < |r| == |s|
      invariant multiset(r) == multiset(s)
      invariant FisherYatesFrom(r, i, picks) == FisherYates(s, picks)
      decreases i
    {
      var j := picks[i];
      SwapPermutes(r, i, j);
      r := Swap(r, i, j);
      i := i - 1;
    }
  }

  /** Only the picks for positions up to `i` matter from position `i` down. */
  lemma {:induction false} FromIgnoresLaterPicks<T>(s: seq<T>, i: nat, p: seq<nat>, q: seq<nat>)
    requires i < |s| && PicksFit(|s|, p) && PicksFit(|s|, q)
    requires forall k :: 0 < k <= i ==> p[k] == q[k]
    ensures FisherYatesFrom(s, i, p) == FisherYatesFrom(s, i, q)
    decreases i
  {
    if i > 0 {
      FromIgnoresLaterPicks(Swap(s, i, p[i]), i - 1, p, q);
    }
  }

  /**
   * From position `i` down, any arrangement of the first `i + 1` elements
   * can be reached, the rest staying put.
   */
  lemma {:induction false} ReachFrom<T>(s: seq<T>, b: seq<T>, i: nat)
    requires i < |s| == |b|
    requires multiset(s[..i + 1]) == multiset(b[..i + 1]) && s[i + 1..] == b[i + 1..]
    ensures exists picks :: PicksFit(|s|, picks) && FisherYatesFrom(s, i, picks) == b
    decreases i
  {
    if i == 0 {
      ReachBase(s, b);
      var zeros := seq(|s|, _ => 0);
      assert PicksFit(|s|, zeros) && FisherYatesFrom(s, 0, zeros) == b;
    } else {
      var j := WantedIsBelow(s, b, i);
      var t := Swap(s, i, j);
      ReachStep(s, b, i, j);
      ReachFrom(t, b, i - 1);
      var rest :| PicksFit(|t|, rest) && FisherYatesFrom(t, i - 1, rest) == b;
      var picks := ReachExtend(s, b, i, j, rest);
    }
  }

  /** Picks that finish the job from position `i - 1` after swapping `i` with `j` extend to picks from `i`. */
  lemma ReachExtend<T>(s: seq<T>, b: seq<T>, i: nat, j: nat, rest: seq<nat>) returns (picks: seq<nat>)
    requires 0 < i < |s| && j <= i && PicksFit(|s|, rest)
    requires FisherYatesFrom(Swap(s, i, j), i - 1, rest) == b
    ensures PicksFit(|s|, picks) && FisherYatesFrom(s, i, picks) == b
  {
    var t := Swap(s, i, j);
    picks := SetPick(rest, i, j, |s|);
    FromIgnoresLaterPicks(t, i - 1, picks, rest);
    assert FisherYatesFrom(s, i, picks) == FisherYatesFrom(t, i - 1, picks);
  }

  /** The picks with position `i` set to `j`, which is in range for it. */
  lemma SetPick(rest: seq<nat>, i: nat, j: nat, n: nat) returns (picks: seq<nat>)
    requires PicksFit(n, rest) && i < n && j <= i
    ensures PicksFit(n, picks) && picks[i] == j
    ensures forall k :: 0 < k < i ==> picks[k] == rest[k]
  {
    picks := rest[i := j];
  }

  /** With one position left to arrange, the two sequences are already equal. */
  lemma ReachBase<T>(s: seq<T>, b: seq<T>)
    requires 0 < |s| == |b|
    requires multiset(s[..1]) == multiset(b[..1]) && s[1..] == b[1..]
    ensures s == b
  {
    assert s[..1] == [s[0]] && b[..1] == [b[0]];
    assert s[0] in multiset{b[0]};
    assert s == [s[0]] + s[1..] && b == [b[0]] + b[1..];
  }

  /** The element wanted at position `i` sits at or before `i`. */
  lemma WantedIsBelow<T>(s: seq<T>, b: seq<T>, i: nat) returns (j: nat)
    requires i < |s| == |b|
    requires multiset(s[..i + 1]) == multiset(b[..i + 1])
    ensures j <= i && s[j] == b[i]
  {
    assert b[..i + 1][i] == b[i];
    assert b[i] in multiset(s[..i + 1]);
    var k :| 0 <= k < i + 1 && s[..i + 1][k] == b[i];
    j := k;
  }

  /** Sequences with equal contents and equal last elements have equal contents before it. */
  lemma DropLastKeepsContents<T>(x: seq<T>, y: seq<T>)
    requires 0 < |x| && 0 < |y| && multiset(x) == multiset(y) && x[|x| - 1] == y[|y| - 1]
    ensures multiset(x[..|x| - 1]) == multiset(y[..|y| - 1])
  {
    var e := x[|x| - 1];
    var xs, ys := x[..|x| - 1], y[..|y| - 1];
    assert x == xs + [e] && y == ys + [e];
    RemoveAppended(xs, e);
    RemoveAppended(ys, e);
  }

  lemma RemoveAppended<T>(s: seq<T>, e: T)
    ensures multiset(s + [e]) - multiset{e} == multiset(s)
  {
    assert multiset(s + [e]) == multiset(s) + multiset{e};
  }

  /** One step of the reachability proof: swapping the wanted element to position `i` keeps the premise. */
  lemma ReachStep<T>(s: seq<T>, b: seq<T>, i: nat, j: nat)
    requires 0 < i < |s| == |b| && j <= i
    requires multiset(s[..i + 1]) == multiset(b[..i + 1]) && s[i + 1..] == b[i + 1..]
    requires s[j] == b[i]
    ensures var t := Swap(s, i, j);
            multiset(t[..i]) == multiset(b[..i]) && t[i..] == b[i..]
  {
    var t := Swap(s, i, j);
    var tp, bp := t[..i + 1], b[..i + 1];
    assert tp == Swap(s[..i + 1], i, j);
    SwapPermutes(s[..i + 1], i, j);
    assert tp[i] == bp[i];
    DropLastKeepsContents(tp, bp);
    assert tp[..i] == t[..i] && bp[..i] == b[..i];
    assert t[i..] == [t[i]] + t[i + 1..];
    assert b[i..] == [b[i]] + b[i + 1..];
    assert t[i + 1..] == s[i + 1..];
  }

  /** Every arrangement of the playlist is a possible shuffle: the picks reach all permutations. */
  lemma EveryOrderReachable<T>(s: seq<T>, b: seq<T>)
    requires multiset(s) == multiset(b)
    ensures exists picks :: PicksFit(|s|, picks) && FisherYates(s, picks) == b
  {
    assert |s| == |multiset(s)| == |multiset(b)| == |b|;
    if |s| < 2 {
      var zeros := seq(|s|, _ => 0);
      if |s| == 1 {
        assert s[0] in multiset(b);
        assert s == [s[0]] && b == [b[0]];
      }
      assert FisherYates(s, zeros) == b;
    } else {
      assert s[..|s|] == s && b[..|b|] == b;
      ReachFrom(s, b, |s| - 1);
    }
  }

  /**
   * The shuffle button: nothing for fewer than two tracks; otherwise the
   * playlist is shuffled in place, the index reset to -1 and the first
   * track of the new order played.
   */
  method ShuffleButton(a: App, picks: seq<nat>, allowed: bool) returns (r: App)
    requires PicksFit(|a.deck.playlist|, picks)
    ensures |a.deck.playlist| < 2 ==> r == a
    ensures |a.deck.playlist| >= 2 ==>
              multiset(r.deck.playlist) == multiset(a.deck.playlist) &&
              r.deck.playlist == FisherYates(a.deck.playlist, picks) &&
              r.deck.index == 0 && r.deck.src == AudioSrc(r.deck.playlist[0]) &&
              r.deck.isPlaying == allowed && r.drawers == a.drawers
  {
    if |a.deck.playlist| < 2 {
      return a;
    }
    var shuffled := Shuffle(a.deck.playlist, picks);
    var deck := a.deck.(playlist := shuffled, index := -1);
    deck := PlayTrack(deck, 0, allowed);
    r := a.(deck := deck);
  }
}

=== FILE: wrappers.dfy ===
/** Failure-carrying wrappers shared by every module of the model. */
module Wrappers {

  /** Python's `Optional[T]`: absent (`None`) or a present value. */
  datatype Option<+T> = None | Some(value: T) {

    /** The value, or `default` when absent. */
    function GetOr(default: T): T {
      match this
      case Some(v) => v
      case None => default
    }
  }

  /** An operation that either produced a value or failed with an error. */
  datatype Result<+R, +E> = Ok(value: R) | Err(error: E)
}

=== FILE: youtube.dfy ===
/**
 * The downloader's decision logic (youtube.py): search-cache keys, the
 * mapping of song-search entries to tracks, the download outcome tree and
 * the caching of reusable Telegram file ids. The song-search service,
 * yt-dlp and the file system are oracles: their answers are parameters.
 */
module Downloader {
  import opened Wrappers
  import opened Text
  import opened Models
  import Cache

  /** What the bot keeps in the cache: search result lists and Telegram file ids. */
  datatype CacheValue = Tracks(tracks: seq<TrackInfo>) | FileId(id: string)

  type Store = Cache.Store<CacheValue>

  /** Search results stay cached for an hour. */
  const SearchTtl := 3600

  /** The key of a search result list: query and mode only. */
  function SearchKey(query: string, mode: string): string {
    "s:" + query + ":" + mode
  }

  /** The key of a reusable Telegram file id. */
  function FileIdKey(videoId: string): string {
    "file_id:" + videoId
  }

  /** Search keys and file-id keys never collide, so each kind of value has its own key space. */
  lemma KeysDisjoint(query: string, mode: string, videoId: string)
    ensures SearchKey(query, mode) != FileIdKey(videoId)
  {
    assert SearchKey(query, mode)[0] == 's';
    assert FileIdKey(videoId)[0] == 'f';
  }

  /**
   * Two searches share a cache entry exactly when query and mode agree.
   * The query is the user's text and may hold colons; the modes the bot
   * passes ("genre", "track", ...) hold none, so the last colon of a key
   * ends its query.
   */
  lemma SearchKeyInjective(q1: string, m1: string, q2: string, m2: string)
    requires !Contains(m1, ":") && !Contains(m2, ":")
    ensures SearchKey(q1, m1) == SearchKey(q2, m2) <==> q1 == q2 && m1 == m2
  {
    if SearchKey(q1, m1) == SearchKey(q2, m2) {
      var k := SearchKey(q1, m1);
      assert k[2..] == q1 + ":" + m1 == q2 + ":" + m2;
      LastPieceUnique(q1, m1, q2, m2, ":");
      assert q1 == k[2..][..|q1|] == q2;
    }
  }

  /** A colon in the mode lets two different searches share a key: the mode must be colon-free. */
  lemma ColonInModeCollides()
    ensures SearchKey("a", "b:c") == SearchKey("a:b", "c")
  {
  }

  // ---------------------------------------------------------------------
  // Song search
  // ---------------------------------------------------------------------

  /** One entry of the song-search reply; `None` stands for a missing key. */
  datatype SongEntry = SongEntry(
    videoId: Option<string>,
    title: Option<string>,
    artistNames: seq<string>,
    durationSeconds: Option<int>,
    thumbnailUrls: seq<string>)

  /** The song-search call either raised or returned its entries. */
  datatype ProviderReply = ProviderRaised | ProviderReturned(entries: seq<SongEntry>)

  /** The track built from one entry that has a video id. */
  function EntryTrack(e: SongEntry): (t: TrackInfo)
    requires Truthy(e.videoId)
    ensures t.identifier == e.videoId.value
    ensures t.title == e.title.GetOr("")
    ensures t.artist == Join(e.artistNames, ", ")
    ensures t.duration == e.durationSeconds.GetOr(0)
    ensures t.source == YouTube
    ensures t.thumbnailUrl == if |e.thumbnailUrls| == 0 then None else Some(e.thumbnailUrls[|e.thumbnailUrls| - 1])
  {
    TrackInfo(
      e.videoId.value,
      e.title.GetOr(""),
      Join(e.artistNames, ", "),
      e.durationSeconds.GetOr(0),
      YouTube,
      if |e.thumbnailUrls| > 0 then Some(e.thumbnailUrls[|e.thumbnailUrls| - 1]) else None)
  }

  /** The tracks of a song-search reply: entries without a video id are dropped, the rest mapped in order. */
  function EntryTracks(es: seq<SongEntry>): (ts: seq<TrackInfo>)
    ensures |ts| <= |es|
    ensures forall t :: t in ts ==> exists e :: e in es && Truthy(e.videoId) && t == EntryTrack(e)
  {
    if |es| == 0 then []
    else
      var rest := EntryTracks(es[1..]);
      if Truthy(es[0].videoId) then [EntryTrack(es[0])] + rest else rest
  }

  /** The reply mapping distributes over concatenation, so order is kept and no entry is looked at twice. */
  lemma {:induction false} EntryTracksAppend(a: seq<SongEntry>, b: seq<SongEntry>)
    ensures EntryTracks(a + b) == EntryTracks(a) + EntryTracks(b)
  {
    if |a| == 0 {
      assert a + b == b;
    } else {
      assert (a + b)[1..] == a[1..] + b;
      EntryTracksAppend(a[1..], b);
    }
  }

  /** An entry with a video id contributes exactly its track; one without contributes nothing. */
  lemma EntryTracksSingle(e: SongEntry)
    ensures Truthy(e.videoId) ==> EntryTracks([e]) == [EntryTrack(e)]
    ensures !Truthy(e.videoId) ==> EntryTracks([e]) == []
  {
    assert [e][1..] == [];
  }

  /** A search reply with a video id on every entry loses nothing. */
  lemma {:induction false} EntryTracksAllKept(es: seq<SongEntry>)
    requires forall i :: 0 <= i < |es| ==> Truthy(es[i].videoId)
    ensures |EntryTracks(es)| == |es|
    ensures forall i :: 0 <= i < |es| ==> EntryTracks(es)[i] == EntryTrack(es[i])
  {
    if |es| > 0 {
      EntryTracksAllKept(es[1..]);
    }
  }

  /** The text sent to the song search: the query plus " song", except in track mode. */
  function ProviderQuery(query: string, mode: string): (q: string)
    ensures mode == "track" ==> q == query
    ensures mode != "track" ==> q == query + " song"
  {
    if mode != "track" then query + " song" else query
  }

  /** The song-search request a `search` call issued, if any. */
  datatype ProviderCall = ProviderCall(query: string, limit: int)

  datatype SearchOutcome = SearchOutcome(tracks: seq<TrackInfo>, store: Store, call: Option<ProviderCall>)

  /**
   * `search(query, search_mode, decade, limit)`: a non-empty cached list is
   * returned as is; otherwise the song search runs, a failure yields the
   * empty list, and a reply is mapped and cached for an hour.
   * `decade` is accepted and ignored, as in the source.
   */
  function Search(c: Store, now: int, query: string, mode: string, decade: Option<string>, limit: int,
                  reply: ProviderReply): (r: SearchOutcome)
    ensures r.store.open == c.open
    ensures r.call.None? <==> Cache.Get(c, SearchKey(query, mode), now).value.Some?
                              && Cache.Get(c, SearchKey(query, mode), now).value.value.Tracks?
                              && |Cache.Get(c, SearchKey(query, mode), now).value.value.tracks| > 0
    ensures r.call.None? ==> r.tracks == Cache.Get(c, SearchKey(query, mode), now).value.value.tracks
                             && r.store == c
    ensures r.call.Some? ==> r.call.value == ProviderCall(ProviderQuery(query, mode), limit)
    ensures r.call.Some? && reply.ProviderRaised? ==> r.tracks == [] && r.store == Cache.Get(c, SearchKey(query, mode), now).store
    ensures r.call.Some? && reply.ProviderReturned? ==> r.tracks == EntryTracks(reply.entries)
    ensures r.call.Some? && reply.ProviderReturned? ==>
              r.store == Cache.Set(Cache.Get(c, SearchKey(query, mode), now).store,
                                   SearchKey(query, mode), Tracks(r.tracks), Some(SearchTtl), now).store
  {
    var key := SearchKey(query, mode);
    var cached := Cache.Get(c, key, now);
    if cached.value.Some? && cached.value.value.Tracks? && |cached.value.value.tracks| > 0 then
      SearchOutcome(cached.value.value.tracks, cached.store, None)
    else
      var call := ProviderCall(ProviderQuery(query, mode), limit);
      match reply
      case ProviderRaised => SearchOutcome([], cached.store, Some(call))
      case ProviderReturned(es) =>
        var ts := EntryTracks(es);
        SearchOutcome(ts, Cache.Set(cached.store, key, Tracks(ts), Some(SearchTtl), now).store, Some(call))
  }

  /**
   * A completed search is served from the cache, without a second song-search
   * call, to any later search with the same query and mode within the hour,
   * whatever its decade and limit.
   */
  lemma SearchServedFromCache(c: Store, now: int, later: int, query: string, mode: string,
                              d1: Option<string>, l1: int, d2: Option<string>, l2: int,
                              entries: seq<SongEntry>, reply2: ProviderReply)
    requires c.open && SearchKey(query, mode) !in c.entries
    requires now <= later < now + SearchTtl
    requires |EntryTracks(entries)| > 0
    ensures var first := Search(c, now, query, mode, d1, l1, ProviderReturned(entries));
            var second := Search(first.store, later, query, mode, d2, l2, reply2);
            second.call.None? && second.tracks == first.tracks
  {
    var first := Search(c, now, query, mode, d1, l1, ProviderReturned(entries));
    Cache.SetThenGet(c, SearchKey(query, mode), Tracks(first.tracks), Some(SearchTtl), now, later);
  }

  // ---------------------------------------------------------------------
  // Download
  // ---------------------------------------------------------------------

  /** The info-extraction call either raised or returned an info dictionary (`None` when falsy). */
  datatype InfoReply = InfoRaised | InfoReturned(info: Option<YtInfo>)

  /** The audio download either raised with a message or completed. */
  datatype FetchReply = FetchRaised(message: string) | FetchCompleted

  datatype DownloadOutcome = DownloadOutcome(result: DownloadResult, store: Store, fetched: bool)

  /** The reusable file id cached for a video, if the cache holds a truthy one. */
  function CachedFileId(g: Cache.GetOutcome<CacheValue>): Option<string> {
    if g.value.Some? && g.value.value.FileId? && g.value.value.id != "" then Some(g.value.value.id)
    else None
  }

  /** Where yt-dlp leaves the converted audio of a video. */
  function Mp3Path(downloadsDir: string, videoId: string): string {
    downloadsDir + "/" + videoId + ".mp3"
  }

  /**
   * `download(video_id)`: read the cached file id, extract the info (failure:
   * "Info failed"), reuse a cached file id without downloading, else download
   * (failure: the exception text) and look for the mp3 (failure: "File missing").
   * `mp3Exists` is the answer of the file-system check on the mp3 path.
   */
  function Download(c: Store, now: int, videoId: string, downloadsDir: string,
                    info: InfoReply, fetch: FetchReply, mp3Exists: bool): (r: DownloadOutcome)
    ensures r.store == Cache.Get(c, FileIdKey(videoId), now).store
    ensures info.InfoRaised? ==> !r.result.success && r.result.errorMessage == Some("Info failed") && !r.fetched
    ensures info.InfoReturned? ==> r.result.trackInfo == FromYtInfo(info.info)
    ensures r.fetched <==> info.InfoReturned? && CachedFileId(Cache.Get(c, FileIdKey(videoId), now)).None?
    ensures info.InfoReturned? && !r.fetched ==>
              r.result.success && r.result.fileId == CachedFileId(Cache.Get(c, FileIdKey(videoId), now))
              && r.result.filePath.None?
    ensures r.fetched && fetch.FetchRaised? ==> !r.result.success && r.result.errorMessage == Some(fetch.message)
    ensures r.fetched && fetch.FetchCompleted? ==>
              (r.result.success <==> mp3Exists)
              && (mp3Exists ==> r.result.filePath == Some(Mp3Path(downloadsDir, videoId)) && r.result.fileId.None?)
              && (!mp3Exists ==> r.result.errorMessage == Some("File missing"))
    ensures r.result.success ==> (r.result.fileId.Some? != r.result.filePath.Some?)
  {
    var g := Cache.Get(c, FileIdKey(videoId), now);
    match info
    case InfoRaised => DownloadOutcome(DownloadResult(false, None, None, None, Some("Info failed")), g.store, false)
    case InfoReturned(i) =>
      var ti := FromYtInfo(i);
      match CachedFileId(g)
      case Some(fid) => DownloadOutcome(DownloadResult(true, None, Some(fid), ti, None), g.store, false)
      case None =>
        match fetch
        case FetchRaised(msg) => DownloadOutcome(DownloadResult(false, None, None, ti, Some(msg)), g.store, true)
        case FetchCompleted =>
          if mp3Exists then
            DownloadOutcome(DownloadResult(true, Some(Mp3Path(downloadsDir, videoId)), None, ti, None), g.store, true)
          else
            DownloadOutcome(DownloadResult(false, None, None, ti, Some("File missing")), g.store, true)
  }

  /** `cache_file_id(vid, fid)`: remember the file id with ttl 0, which never expires. */
  function CacheFileId(c: Store, now: int, videoId: string, fileId: string): (r: Store)
    ensures c.open ==> FileIdKey(videoId) in r.entries
    ensures c.open ==> r.entries[FileIdKey(videoId)] == Cache.Entry(FileId(fileId), None)
  {
    Cache.Set(c, FileIdKey(videoId), FileId(fileId), Some(0), now).store
  }

  /**
   * On the store `cache_file_id` leaves, a download of that video at any
   * later time never fetches the audio: once the info extraction succeeds
   * it reuses the file id; when the extraction raises, it fails with
   * "Info failed" all the same, since the info is read before the file id
   * is looked at.
   */
  lemma CachedFileIdIsReused(c: Store, now: int, later: int, videoId: string, fileId: string,
                             downloadsDir: string, info: InfoReply, fetch: FetchReply, mp3Exists: bool)
    requires c.open && fileId != ""
    ensures var r := Download(CacheFileId(c, now, videoId, fileId), later, videoId, downloadsDir,
                              info, fetch, mp3Exists);
            !r.fetched &&
            (info.InfoReturned? ==> r.result.success && r.result.fileId == Some(fileId)) &&
            (info.InfoRaised? ==> !r.result.success && r.result.errorMessage == Some("Info failed"))
  {
    Cache.SetThenGet(c, FileIdKey(videoId), FileId(fileId), Some(0), now, later);
  }
}
